=== FILE: README.md ===
# linkedin-agent core in Dafny

This project models the agent core of a LinkedIn content generator, which is written in Python. It has two command-line agents:

- The idea generator (`agent/main.py`) turns a newsletter and two blog feeds into ten post ideas, returned as a JSON array.
- The post generator (`agent/post_generator.py`) writes a full post for one idea.

Both agents run the same bounded loop against the model:

- Each iteration asks the model once, through a retry wrapper that backs off on HTTP 529 ("overloaded").
- A `tool_use` answer runs every requested tool through the dispatcher (`agent/tools.py`). The assistant turn and one user turn holding all the results are appended, and the loop goes round again.
- Once the number of tool calls reaches a threshold, a one-time nudge is appended and the tool catalogue is left out of every later request.
- An `end_turn` answer is finished: for ideas, the JSON array is cut out of the text; for a post, the text is stripped.
- Any other stop reason, or running out of iterations, raises the "did not produce output" error.

The results are delivered through Slack Block Kit messages (`agent/slack_formatter.py`).

## Modules

- `Wrappers`: `Option` and `Result`.
- `Text`: the Python string operations the code relies on, with their own specifications:
  - `strip`, `split()` and `split(sep)`, `join`, `in`, and slicing.
  - `str(n)` and the two `re.sub` collapses.
- `Values`: JSON scalars, `dict.get`, truthiness, and f-string rendering.
- `Tools`: the catalogue, `execute_tool` and the three tools. The network and the foreign libraries are a `Network` oracle.
- `Conversation`: content blocks, responses, tool results and the message history.
- `Retry`: `_create_with_retry`. The client is an oracle indexed by call number, and the sleeps are returned as a list of delays.
- `AgentLoop`: the generic `run_agent` loop.
  - It returns the list of turns it took, so that properties of the whole history can be stated.
  - `IsRun` and `Concluded` say what a run is.
- `ResponseParser`: `parse_ideas_from_response`.
  - The fenced pattern ```` ```(?:json)?\s*(\[[\s\S]*?\])\s*``` ```` is modelled as a leftmost search with a lazy group.
  - The greedy fallback `(\[[\s\S]*\])` is modelled as the span from the first `[` to the last `]`.
- `Inputs`: `load_input`. It is identical in both scripts.
- `IdeaGenerator` and `PostGenerator`: the two `build_user_message` functions, the two loop configurations (10/6 and 6/3), and the result functions.
- `SlackFormatter`: the lookups, the three messages, and which HTTP posts are made.

Three behaviours of the code deserve a note, since the model follows them exactly:

- **Tool catalogue.** Each script is a single phase. Every request that offers tools offers the full catalogue of three tools, in both scripts.
- **Missing arguments.** `execute_tool` reads required arguments with `tool_input[key]`, so a missing `url` or `query` raises `KeyError` out of the agent loop rather than becoming a tool error. This is `AgentFailure.ToolArgumentMissing`.
- **Unexpected stop reason.** A stop reason other than `end_turn` and `tool_use` breaks out of the loop, which then raises the same `RuntimeError` as exhausting the iterations. The message names the iteration cap.

## Model

| member | source | states |
|---|---|---|
| Text.Strip | agent/post_generator.py:103 | the result is the slice of the text between its leading and trailing whitespace runs; it has whitespace at neither end; it is empty exactly when the text is all whitespace |
| Text.StripPadded | agent/post_generator.py:103 | whitespace added around text that has no whitespace at either end is removed again exactly |
| Text.StripIdempotent | agent/post_generator.py:103 | stripping twice gives what stripping once gives |
| Text.StripIgnoresPadding | agent/main.py:78-79 | stripping ignores any whitespace added around the text |
| Text.Words | agent/post_generator.py:107 | `split()` yields no word exactly when the text is all whitespace |
| Text.WordsAreTokens | agent/post_generator.py:107 | every word of `split()` is non-empty and holds no whitespace |
| Text.WordsCountStarts | agent/post_generator.py:106-107 | the number of words equals the number of places where a non-space follows a space or the start of the text, an independent count |
| Text.Take | agent/main.py:82 | `s[:n]` keeps the first `min(n, len(s))` elements and is a prefix of `s` |
| Text.SliceStop | agent/tools.py:109 | the stop index Python uses for `xs[:k]`: never past the list; all of it when `k` reaches the length; `k` itself for `0 <= k`; the length plus `k`, floored at 0, for negative `k` |
| Text.FindIffContains | agent/tools.py:249 | the search for a substring finds an occurrence exactly when `sep in s` holds |
| Text.FindFirst | agent/tools.py:250 | no occurrence of the separator starts before the one the search reports |
| Text.SplitJoin | agent/tools.py:250 | joining the pieces of `s.split(sep)` with `sep` gives back `s` |
| Text.SplitPiecesAvoid | agent/tools.py:250 | no piece of `s.split(sep)` contains `sep` |
| Text.SplitSeveralPieces | agent/tools.py:249-250 | the split has at least two pieces exactly when `sep in s` |
| Text.NatToStringRoundTrip | agent/slack_formatter.py:80 | reading the decimal rendering of a natural number back gives the number |
| Text.CollapseRunsBelow | agent/tools.py:175-176 | after `re.sub(c{m,}, c*(m-1))` no run of `c` reaches length `m` |
| Text.CollapseKeepsOtherRuns | agent/tools.py:175-176 | collapsing runs of one character cannot create a long run of another |
| Text.CollapseFixpoint | agent/tools.py:175-176 | text with no run of length `m` is left unchanged by the collapse |
| Text.CollapseIdempotent | agent/tools.py:175-176 | collapsing twice is the same as collapsing once |
| Text.CollapsedHasNoRun | agent/tools.py:175-176 | the result of collapsing runs of a character does not contain `m` consecutive copies of it |
| Text.CollapseOnlyTouchesRuns | agent/tools.py:175-176 | the collapse only touches copies of the character: with them removed, the text before and after is the same |
| Text.CollapseOpeningRun | agent/tools.py:175-176 | a maximal run of `k` copies opening the text becomes `m - 1` copies when `k >= m` and is kept when shorter, and the rest is collapsed on its own |
| Text.CollapseOpeningOther | agent/tools.py:175-176 | another character opening the text is kept, and the rest is collapsed on its own |
| Text.RunsBelowExcludesRep | agent/tools.py:175-176 | text whose runs of the character stay below `m` does not contain `m` consecutive copies of it |
| Tools.Schema | agent/tools.py:23-88 | a schema is found exactly for the three catalogue names, and it is the catalogue entry of that name |
| Tools.Dispatch | agent/tools.py:270-285 | the dispatcher raises the `KeyError` exactly when a required argument is absent, and names that argument; unknown names route to the error object; a routed call has every schema argument, taken from the input or else from the schema default |
| Tools.ExecuteTool | agent/tools.py:270-285 | the dispatcher raises `KeyError` only for a missing required argument, naming that argument; an unknown name gives the "Unknown tool: " error; a routed call's result is exactly what that tool returns on the arguments taken from the input or the 8/5 defaults |
| Tools.RssItemOf | agent/tools.py:111-126 | a feed item's title is the entry's title stripped; its link is the entry's link or ""; its summary is the summary (else the description) converted to text, cut to 500 characters and stripped; its date is `published`, else `updated`, else "" |
| Tools.RssItems | agent/tools.py:109-126 | the items correspond one to one, in order, to the kept entries |
| Tools.FetchRssTool | agent/tools.py:95-132 | it returns an error exactly when the fetch raised (with the exception's text), when the feed is malformed with no entries ("Failed to parse RSS feed: " and the URL), or when `max_items` is no integer; otherwise the feed title (the URL when the feed has none), and exactly `xs[:max_items]` of the entries, each turned into its item in order |
| Tools.RssItemPrefersSummaryAndPublished | agent/tools.py:111-118 | when the entry has a summary and a date, its description and update date play no part |
| Tools.RssItemIgnoresTitlePadding | agent/tools.py:121 | whitespace around an entry's title does not reach the item |
| Tools.FetchRssMoreItemsExtends | agent/tools.py:109 | asking for more items keeps the items of the smaller request as a prefix |
| Tools.ArticleText | agent/tools.py:173-177 | the result is the first 3000 characters (all of it when shorter) of the text with newline runs and then space runs collapsed and both ends stripped; it has no three consecutive newlines and no two consecutive spaces |
| Tools.ArticleTextKeepsCleanText | agent/tools.py:173-177 | text that is already clean, has no whitespace at either end and is short enough comes back unchanged |
| Tools.FetchArticleTool | agent/tools.py:135-188 | the error object, carrying the URL and message, is returned exactly when the fetch raised; otherwise the text is the page's main text cleaned as above, the title is the page title stripped ("" when it has none), and `char_count` is the length of the text |
| Tools.AfterLast | agent/tools.py:250 | `s.split(sep)[-1]` ends `s` right after an occurrence of `sep` and contains no `sep` |
| Tools.BeforeFirst | agent/tools.py:250 | `s.split(sep)[0]` is a prefix without `sep`, ending where `sep` first occurs or at the end |
| Tools.UddgTarget | agent/tools.py:249-250 | the redirect target is the part after the last `uddg=` up to, not including, the first `&` after it |
| Tools.DdgHits | agent/tools.py:240-256 | one hit per result with a title link, so none is lost when every result has one |
| Tools.DdgHitsAt | agent/tools.py:240-256 | the result at `j`, when it has a title link, gives the hit numbered by the linked results before it, so the hits keep the results' order |
| Tools.DuckDuckGoSearch | agent/tools.py:224-263 | an error exactly when the request failed or the bound is not an integer, carrying the request's error message; otherwise the hits of the first `xs[:max_results]` results, marked as DuckDuckGo |
| Tools.BraveSearch | agent/tools.py:201-221 | it gives up, so that the search falls back, exactly when the request failed or the bound is not an integer; otherwise one hit per result of the first `xs[:max_results]`, in order, with the result's title, URL and description, or "" for a missing one |
| Tools.WebSearchTool | agent/tools.py:191-198 | Brave results only when the stripped key is non-empty, and then exactly Brave's results when Brave answered; no key or a Brave failure gives exactly the DuckDuckGo search |
| Conversation.ToolUses | agent/main.py:201-202 | the selected blocks are all `tool_use` blocks, no more than the response holds |
| Conversation.ToolUsesSelects | agent/main.py:201-202 | a block is selected exactly when it is a `tool_use` block of the response |
| Conversation.ToolUsesAppend | agent/main.py:201-202 | selection distributes over concatenation, so the order of emission is kept |
| Conversation.FullText | agent/main.py:118-121 | a response of `tool_use` blocks only has empty text; a single text block contributes exactly its text |
| Conversation.FullTextAppend | agent/main.py:118-121 | the joined text of two block lists is the concatenation of their texts |
| Conversation.FullTextSkipsNonText | agent/post_generator.py:99-102 | a block without text contributes nothing to the joined text |
| Conversation.NudgeCount | agent/main.py:167-176 | no nudge is counted exactly when no message is a nudge |
| Conversation.NudgeCountAppend | agent/main.py:167-176 | nudges are counted additively over appended messages |
| Retry.CreateWithRetry | agent/main.py:137-148 | with `max_retries <= 0` there is no call and the result is `None`; otherwise at most `max_retries` calls, all but the last a 529 with attempts to spare, followed by a sleep of `20 * 2**attempt`; the last call's response is returned or its error re-raised (the copy in the post generator is identical) |
| Retry.DefaultRetryWaitsAtMostSixty | agent/main.py:144 | with the default of three attempts the delays are a prefix of 20, 40 seconds |
| AgentLoop.FirstFailure | agent/main.py:201-210 | the index of the first block whose execution raises, all blocks before it executing |
| AgentLoop.RunUses | agent/main.py:199-210 | the tools run in emission order, as consecutive call numbers; a raising call aborts the round with its `KeyError`; otherwise one result per block carrying the block's id |
| AgentLoop.StepOutcome | agent/main.py:194-218 | the run goes on exactly after a `tool_use` answer whose tools all ran; an accepted `end_turn` is exactly a success carrying the finaliser's value; any other stop reason is the exhaustion error |
| AgentLoop.ExtendRun | agent/main.py:165-188 | a turn built from the loop's variables (nudge appended once, tools omitted when forcing) extends a run |
| AgentLoop.RunAgent | agent/main.py:151-220 | the turns taken form a run of the loop (within the cap, tools offered exactly below the threshold, each turn continuing the previous one) and the result is the last turn's outcome or the exhaustion error |
| AgentLoop.ConcludedResult | agent/main.py:194-220 | a success is exactly an `end_turn` answer the finaliser accepts; a format error is the finaliser's message; a runtime error always carries the exhaustion message |
| AgentLoop.ConcludedFailure | agent/main.py:162-220 | each failure is tied to the last turn: no response exactly when the retry wrapper returned None, an API error exactly when it re-raised one, a missing key exactly when a `tool_use` turn's tools could not run (with that key), and the exhaustion error exactly when the cap was reached after a resumed turn or the model stopped for another reason |
| AgentLoop.RunShape | agent/main.py:162-186 | a run has between one and `maxIterations` turns, and a request omits the tools exactly when the count before it has reached the threshold |
| AgentLoop.CountNeverDecreases | agent/main.py:199-210 | the tool-call count of a later turn is never smaller than that of an earlier one |
| AgentLoop.ToolRoundResults | agent/main.py:199-213 | a round raises the count by the number of `tool_use` blocks; the history gains the assistant turn, then one user turn with one result per block in order under that block's id, then at most the nudge |
| AgentLoop.ToolsStayOmitted | agent/main.py:178-186 | once a request omits the tools, every later request of the run omits them |
| AgentLoop.NudgeSentAtMostOnce | agent/main.py:165-176 | every request carries the nudge exactly once if output is forced at that turn, and not at all otherwise |
| AgentLoop.HistoryOnlyGrows | agent/main.py:212-213 | each request's history extends every earlier one by at least two messages per iteration in between |
| AgentLoop.HistoryStartsWithPrompt | agent/main.py:155-156 | every request of a run opens with the user prompt |
| ResponseParser.ArrayStartAfter | agent/main.py:125 | after a fence and the optional `json`, the array starts at the first character that is not whitespace, and everything skipped is whitespace |
| ResponseParser.FirstWhere | agent/main.py:125 | the position found is the least one satisfying the condition, and none before it does |
| ResponseParser.CloseFromSpec | agent/main.py:125 | the lazy group ends at the first `]` that completes a match from the start position |
| ResponseParser.FenceFromSpec | agent/main.py:125 | the search finds the leftmost start of a match and, there, the shortest match |
| ResponseParser.FencedArray | agent/main.py:125-127 | a fenced group is a piece of the text that opens with `[` and closes with `]` |
| ResponseParser.FencedArrayNone | agent/main.py:125-126 | there is no fenced array exactly when the pattern matches at no position |
| ResponseParser.FirstIndex | agent/main.py:130 | the index of the first `[`, with none before it |
| ResponseParser.LastIndex | agent/main.py:130 | the index of the last `]`, with none after it |
| ResponseParser.ArraySpan | agent/main.py:130-132 | the greedy pattern matches exactly when some `[` precedes some `]`, and then spans from the first `[` to the last `]` |
| ResponseParser.FenceImpliesBracketPair | agent/main.py:125-132 | whenever the fenced pattern matches, the greedy one matches too |
| ResponseParser.Fallback | agent/main.py:129-134 | the greedy span, or the ValueError whose excerpt holds at most the first 500 characters, exactly when there is no `[` before a `]` |
| ResponseParser.SelectArray | agent/main.py:123-134 | a fenced array wins over the greedy span; parsing fails exactly when no `[` precedes a `]`; a success is always a bracketed piece of the text |
| ResponseParser.ParseIdeas | agent/main.py:115-134 | the array is taken from the text blocks of the response joined together |
| ResponseParser.FencedArrayWins | agent/main.py:124-127 | a reply with the array in a ```` ```json ```` fence, after text without backticks, yields exactly that array, whatever other brackets follow |
| ResponseParser.GreedySpanOfBareArray | agent/main.py:129-132 | without a fence, noise without brackets around one array yields exactly that array |
| Inputs.Classify | agent/main.py:60-61 | the stripped argument is a file path exactly when it starts with "/" or "./", and inline JSON otherwise |
| Inputs.LoadInput | agent/main.py:58-67 | the file's contents for an existing path; `FileNotFoundError` with the stripped path exactly when the path does not exist; the stripped argument itself otherwise |
| Inputs.LoadInputIgnoresPadding | agent/main.py:60 | whitespace around the argument changes neither the file, nor the JSON, nor the error |
| Inputs.InlineObjectNeedsNoFile | agent/main.py:61-67 | an argument that opens a JSON object is never looked up as a file |
| IdeaGenerator.NewsletterSection | agent/main.py:78-83 | the newsletter block is present exactly when the stripped content is non-empty; the subject defaults to "Startup Insider Daily"; the body is exactly the first 4000 characters of the stripped content |
| IdeaGenerator.ItemLines | agent/main.py:90-92 | the link line for every item, and exactly when the summary is non-empty a second line of two spaces and the summary's first 200 characters |
| IdeaGenerator.FeedSection | agent/main.py:86-93 | a feed's block is present exactly when the feed has items; it is the heading, the lines of the feed's first six items, and a closing blank line |
| IdeaGenerator.FeedSectionListsItem | agent/main.py:89-90 | each of a feed's first six items appears as a link line in its section |
| IdeaGenerator.FeedLinesAppend | agent/main.py:89-92 | the lines of two feeds one after the other are the lines of the first followed by those of the second |
| IdeaGenerator.FeedLinesAt | agent/main.py:89-92 | item `i` contributes exactly its own lines, after the lines of the items before it and before those of the items after it |
| IdeaGenerator.FeedSectionHasItemLines | agent/main.py:86-93 | every line of each of a feed's first six items, summary line included, is a line of its section |
| IdeaGenerator.PromptCarriesNewsletter | agent/main.py:78-83 | when the newsletter has content, its heading and its first 4000 stripped characters occur in the prompt |
| IdeaGenerator.PromptListsFeedItems | agent/main.py:86-100 | every line of each of the first six items of either feed occurs in the prompt |
| IdeaGenerator.FeedSectionIgnoresLaterItems | agent/main.py:89 | items after the sixth never change the prompt |
| IdeaGenerator.PromptIgnoresEmailPadding | agent/main.py:78-79 | whitespace around the newsletter or its subject does not change the prompt |
| IdeaGenerator.IdeaPromptLines | agent/main.py:75-110 | the lines are the date header, the newsletter block, the OpenAI block, the Anthropic block and the instruction, in that order; so they open with the header and end with the instruction |
| IdeaGenerator.BuildIdeaPrompt | agent/main.py:70-112 | the prompt is those lines joined by newlines; it opens with the date header and a newline, and ends with the instruction |
| IdeaGenerator.IdeaAgent | agent/main.py:53-55 | ten iterations, output forced after six tool calls, 4096 tokens, the idea nudge; output is forced before the cap; three attempts per call; the exhaustion message names 10 iterations; the result is the parsed array |
| IdeaGenerator.IdeaRunFacts | agent/main.py:151-220 | an idea run has one to ten turns and tools exactly while fewer than six calls were made; it succeeds exactly on an `end_turn` answer the parser accepts, with the parsed array text; a format error means the `end_turn` answer had no bracket pair; no response, an API error, a missing tool key and the exhaustion error each happen exactly on the matching last turn |
| IdeaGenerator.GenerateIdeas | agent/main.py:151-220 | the idea generator's run on the day's prompt with the real tools is a concluded run of the loop, so it has these same properties, with success exactly on an `end_turn` answer the parser accepts |
| PostGenerator.ResearchFor | agent/post_generator.py:78-92 | the article is read exactly when `source_url` is truthy; the web is searched exactly when it is not but `source` is "web_research"; otherwise the post is written directly |
| PostGenerator.PostPromptLines | agent/post_generator.py:71-92 | the four fixed lines, then the URL and source lines only when the article is read, then the matching hint; `source_title` falls back to `source` |
| PostGenerator.BuildPostPrompt | agent/post_generator.py:70-94 | the prompt is the lines joined by newlines; it opens with the request line and ends with the chosen hint |
| PostGenerator.PostPromptCarriesIdea | agent/post_generator.py:71-94 | the title, hook and angle lines occur in the prompt, and so do the URL and source lines when the article is to be read |
| PostGenerator.PostPromptIgnoresOtherKeys | agent/post_generator.py:70-94 | adding or changing any key outside the six the prompt reads leaves the prompt unchanged |
| PostGenerator.EmptySourceUrlIsAbsent | agent/post_generator.py:78 | an empty `source_url` gives the same prompt as no `source_url` at all |
| PostGenerator.ExtractPostText | agent/post_generator.py:97-103 | the post is the answer's joined text, stripped: it has whitespace at neither end, is no longer than the joined text, and is empty exactly when that text is all whitespace |
| PostGenerator.ExtractPostTextSkipsToolUse | agent/post_generator.py:100-102 | a `tool_use` block anywhere in the answer does not change the post |
| PostGenerator.ExtractPostTextOfPaddedPost | agent/post_generator.py:103 | a post written with whitespace around it comes back exactly |
| PostGenerator.CountWords | agent/post_generator.py:106-107 | the word count equals the number of word starts, and is zero exactly for blank text |
| PostGenerator.PostAgent | agent/post_generator.py:54-56 | six iterations, output forced after three tool calls, 2048 tokens, the post nudge; three attempts per call; the exhaustion message names 6 iterations; the result is the stripped text |
| PostGenerator.PostRunFacts | agent/post_generator.py:124-188 | a post run succeeds exactly on an `end_turn` answer, with the stripped text; it never fails on the output's format; no response, an API error, a missing tool key and the exhaustion error each happen exactly on the matching last turn |
| PostGenerator.GeneratePost | agent/post_generator.py:124-188 | the post generator's run on an idea's prompt with the real tools is a concluded run of the loop, so it has these same properties |
| SlackFormatter.Tone | agent/slack_formatter.py:52 | the purple circle is used exactly for an absent or unknown tone; a known tone gets its own emoji from the table |
| SlackFormatter.ToneNamesTone | agent/slack_formatter.py:14 | two known tones give the same emoji exactly when they are the same tone |
| SlackFormatter.Format | agent/slack_formatter.py:53 | the format emoji is empty exactly for an absent or unknown format; a known format gets its own emoji from the table |
| SlackFormatter.FormatNamesFormat | agent/slack_formatter.py:15-21 | two known formats give the same emoji exactly when they are the same format |
| SlackFormatter.SourceLabel | agent/slack_formatter.py:54 | a known source is shown by its own label from the table, any other by its raw value |
| SlackFormatter.SourceLabelNamesSource | agent/slack_formatter.py:22-27 | two known sources get the same label exactly when they are the same source |
| SlackFormatter.Prefix | agent/slack_formatter.py:62 | the format emoji, a space, then the tone emoji when the format is known; the tone emoji alone otherwise; it always ends with the tone emoji |
| SlackFormatter.SourceText | agent/slack_formatter.py:55-58 | the pin and the label, with the `<url\|Link>` only when `source_url` is truthy |
| SlackFormatter.ActionId | agent/slack_formatter.py:60-80 | the action id is "ausarbeiten_" followed by the rendered idea id, 0 when the id is absent |
| SlackFormatter.ActionIdNamesIdea | agent/slack_formatter.py:80 | for a non-negative numeric id, the digits after the prefix read back as the id |
| SlackFormatter.IdeaText | agent/slack_formatter.py:68-74 | the section opens with the prefix, the id and the title in bold, and ends with the hook quote, the italic angle and the source line; between them sits the raw `post_format` in backticks, after two spaces, when it is truthy, and nothing otherwise |
| SlackFormatter.IdeaBlock | agent/slack_formatter.py:63-84 | an idea's section shows the idea's text and carries a button labelled "Ausarbeiten ✍️" whose action id and payload name that idea |
| SlackFormatter.IdeasMessage | agent/slack_formatter.py:34-85 | three heading blocks, then exactly two blocks per idea |
| SlackFormatter.IdeasHeading | agent/slack_formatter.py:34-49 | the header with the date, the line with the number of ideas, a divider |
| SlackFormatter.IdeaButtonsInOrder | agent/slack_formatter.py:51-85 | idea `i`, with its text and its button, sits at block `3 + 2i`, followed by a divider, in the order given |
| SlackFormatter.OneButtonPerIdea | agent/slack_formatter.py:51-85 | the overview holds exactly one button per idea |
| SlackFormatter.ResultMessage | agent/slack_formatter.py:93-116 | five blocks: the "Dein LinkedIn Post ist fertig!" header, the title ("?" when absent) with the word count, a divider, the post inside a code block, and the paste hint |
| SlackFormatter.ErrorMessage | agent/slack_formatter.py:135-140 | one section: the cross, a space, then exactly the message |
| SlackFormatter.PostBlocks | agent/slack_formatter.py:143-158 | nothing is posted exactly when the token or the channel is empty; otherwise one `chat.postMessage` with the blocks |
| SlackFormatter.PostIdeas | agent/slack_formatter.py:30-87 | nothing is posted exactly when the token or the channel is missing; otherwise one `chat.postMessage` to that channel with that token, carrying the ideas overview |
| SlackFormatter.PostIdeasCarriesEveryIdea | agent/slack_formatter.py:51-87 | the one post has a section and a button for every idea, in order, and exactly one button per idea |
| SlackFormatter.PostError | agent/slack_formatter.py:135-140 | nothing is posted exactly when the token or the channel is missing; otherwise one `chat.postMessage` to that channel with that token, carrying the error section |
| SlackFormatter.PostErrorNamesMessage | agent/slack_formatter.py:135-140 | with a token and a channel, the message reads back from the post after the cross, so two error posts are equal exactly when their messages are |
| SlackFormatter.PostResult | agent/slack_formatter.py:90-132 | the `response_url` is tried first, without replacing the original, exactly when it is given; the Slack API post is made exactly when there is no URL or the URL failed, and the token and channel are set; every post after the first is that API post, the last one, to that channel with that token; every post carries the result message |
| SlackFormatter.PostResultRoutes | agent/slack_formatter.py:90-132 | nothing is posted exactly when there is no URL and no token or channel; an accepted URL post is the only post; otherwise the posts end with exactly the Slack API post the fallback would make |

## Left out

- `agent/api.py` (the HTTP front door) and `agent/prompts.py` (the system prompts) are not part of this model. The system prompt is not a field of the modelled request.
- The model name and the token-usage log line are not modelled. `max_tokens` is.
- Logging and the two `main()` functions are left out. They only print, log and exit.
- `json.loads` and `json.dumps` are not interpreted. A loaded input or a parsed array is the JSON text it would be given. A tool result is the typed `ToolOutput` value it would serialise.
- The network is an oracle, in `Network` and the client function. So are feedparser, `requests`, the Brave API, DuckDuckGo's HTML, BeautifulSoup's `get_text`, CSS selection and noise removal, and `unquote`.
- The socket-timeout save and restore and the request timeouts are not modelled as such: a timeout is one of the failures the network oracle may return.
- `time.sleep` is not performed. The delays it would be given are returned instead.
- The Berlin clock and `strftime` are not modelled. The formatted date is a parameter.
- JSON values are strings and integers only. Booleans, floats, `null`, lists and nested objects inside an idea or a tool argument are not modelled, and neither are the `AttributeError`s non-string values would cause in `strip()`.
- The Slack API's JSON answer is left out, since only logging depends on its `ok` field. An exception from `requests.post` or `resp.json()` in `_post_blocks` propagates out of all three posting functions to their caller; it is not modelled. Whether the `response_url` post succeeded is an input.
- ResponseParser.ParseIdeas: `json.loads` is not interpreted. A bracketed span that is not valid JSON raises `JSONDecodeError` in the source, but here it is a success carrying that text.
- Inputs.LoadInput: for the same reason, malformed JSON in the argument or the file is not an error here.
- SlackFormatter.IdeaBlock: the button's `value` is kept as the id and the idea, not as the `json.dumps` text.
- Tools.FetchRssMoreItemsExtends: stated for non-negative counts only, because a negative count counts from the end, so `max_items = -1` gives more items than `max_items = 0`.
- Tools.FetchRssTool: a feed entry whose fields are not strings, or an entry that is not a mapping, is not modelled.
- Tools.FetchArticleTool: which element supplies the main text is decided inside the page oracle.
- IdeaGenerator.ItemLines: an item's summary is a string. A non-string truthy summary would fail at `[:200]` in the source.

=== FILE: agent_loop.dfy ===
/**
  The bounded agent loop that both generators run (`run_agent` in the idea
  generator and in the post generator). Each iteration may first inject the
  one-time nudge, then asks the model, with the tool catalogue unless the
  tool-call budget is spent, and then:
    - `end_turn`: hand the response to the generator's finaliser and stop;
    - `tool_use`: run every `tool_use` block in order, append the assistant
      turn and one user turn with all results, and go round again;
    - anything else: stop with the "did not produce output" error.
  The loop is generic in a configuration; the two generators instantiate it.
  The run is returned as the list of its turns, so that the properties of the
  whole history can be stated over it.
*/
module AgentLoop {
  import opened Wrappers
  import opened Text
  import opened Values
  import opened Tools
  import opened Conversation
  import opened Retry

  /**
    What distinguishes the two generators: the iteration cap, the tool-call
    count after which output is forced, the token budget, the attempts per call,
    the nudge text, the start of the exhaustion message, and what is made of
    the final response (Failure carries a ValueError message).
  */
  datatype AgentConfig = AgentConfig(
    maxIterations: nat,
    forceOutputAfter: nat,
    maxTokens: nat,
    maxRetries: int,
    nudge: string,
    failurePrefix: string,
    finalize: seq<Block> -> Result<string, string>)

  /** Why `run_agent` raised. */
  datatype AgentFailure =
    | ApiFailure(error: ApiError)        // re-raised by the retry wrapper
    | NoResponse                         // the wrapper returned None
    | ToolArgumentMissing(key: string)   // KeyError from execute_tool
    | OutputFormat(message: string)      // the finaliser's ValueError
    | RuntimeError(message: string)      // exhausted, or an unexpected stop reason

  /** The arguments of one `messages.create` call; `tools` is None when the key is omitted. */
  datatype Request = Request(messages: seq<Message>, maxTokens: nat, tools: Option<seq<ToolDef>>)

  /**
    One iteration: the tool-call count when it began, the number of the first
    client call it made, the request, and what the retry wrapper gave back
    after `attempts` calls and the listed sleeps.
  */
  datatype Turn = Turn(countBefore: nat, firstCall: nat, request: Request,
                       reply: RetryResult, attempts: nat, delays: seq<nat>)

  function ExhaustedMessage(cfg: AgentConfig): string {
    cfg.failurePrefix + NatToString(cfg.maxIterations) + " iterations"
  }

  function Last(turns: seq<Turn>): Turn
    requires turns != []
  {
    turns[|turns| - 1]
  }

  // ---------------------------------------------------------------------------
  // Running the tool_use blocks of one response
  // ---------------------------------------------------------------------------

  /**
    How the loop runs the `n`-th tool call of a run: `execute_tool` over some
    network; Failure is the KeyError of a missing required argument.
  */
  type Executor = (nat, string, Record) -> Result<ToolOutput, string>

  /** The executor of a real run: `execute_tool` against one network. */
  function NetworkExecutor(net: Network): (exec: Executor)
    ensures forall n: nat, name: string, input: Record :: exec(n, name, input) == ExecuteTool(n, name, input, net)
  {
    (n: nat, name: string, input: Record) => ExecuteTool(n, name, input, net)
  }

  function Exec(n: nat, b: Block, exec: Executor): Result<ToolOutput, string>
    requires b.ToolUseBlock?
  {
    exec(n, b.name, b.input)
  }

  /** The index of the first block whose execution raises, or the number of blocks when none does. */
  function FirstFailure(n: nat, uses: seq<Block>, exec: Executor): (j: nat)
    requires forall i | 0 <= i < |uses| :: uses[i].ToolUseBlock?
    ensures j <= |uses|
    ensures forall i | 0 <= i < j :: Exec(n + i, uses[i], exec).Success?
    ensures j < |uses| ==> Exec(n + j, uses[j], exec).Failure?
    decreases |uses|
  {
    if uses == [] then 0
    else if Exec(n, uses[0], exec).Failure? then 0
    else
      var j := FirstFailure(n + 1, uses[1..], exec);
      assert forall i | 1 <= i < j + 1 :: uses[1..][i - 1] == uses[i] && n + 1 + (i - 1) == n + i;
      j + 1
  }

  /**
    Executes the blocks in order as tool calls number `n`, `n + 1`, ...; the
    first missing required argument aborts the whole response.
  */
  function RunUses(n: nat, uses: seq<Block>, exec: Executor): (r: Result<seq<ToolResult>, string>)
    requires forall j | 0 <= j < |uses| :: uses[j].ToolUseBlock?
    ensures r.Success? <==> FirstFailure(n, uses, exec) == |uses|
    ensures r.Failure? ==> Exec(n + FirstFailure(n, uses, exec), uses[FirstFailure(n, uses, exec)], exec) == Failure(r.error)
    ensures r.Success? ==> |r.value| == |uses|
    ensures r.Success? ==> forall j | 0 <= j < |uses| :: r.value[j] == ToolResult(uses[j].id, Exec(n + j, uses[j], exec).value)
    decreases |uses|
  {
    if uses == [] then Success([])
    else
      match Exec(n, uses[0], exec)
      case Failure(k) => Failure(k)
      case Success(o) =>
        var rest := RunUses(n + 1, uses[1..], exec);
        RunUsesShift(n, uses, exec);
        match rest
        case Failure(k) =>
          var f := FirstFailure(n + 1, uses[1..], exec);
          assert uses[1..][f] == uses[f + 1] && n + 1 + f == n + (f + 1);
          Failure(k)
        case Success(results) =>
          var r := [ToolResult(uses[0].id, o)] + results;
          assert r[0] == ToolResult(uses[0].id, Exec(n + 0, uses[0], exec).value);
          assert forall j | 1 <= j < |uses| :: r[j] == results[j - 1];
          Success(r)
  }

  /** Dropping a first block that runs shifts the indices of the rest by one. */
  lemma RunUsesShift(n: nat, uses: seq<Block>, exec: Executor)
    requires uses != [] && forall j | 0 <= j < |uses| :: uses[j].ToolUseBlock?
    requires Exec(n, uses[0], exec).Success?
    ensures FirstFailure(n, uses, exec) == FirstFailure(n + 1, uses[1..], exec) + 1
    ensures forall j | 1 <= j < |uses| :: uses[1..][j - 1] == uses[j] && n + 1 + (j - 1) == n + j
  {
  }

  /** The results of one `tool_use` response, one per `tool_use` block. */
  function RunTools(n: nat, blocks: seq<Block>, exec: Executor): Result<seq<ToolResult>, string> {
    RunUses(n, ToolUses(blocks), exec)
  }

  // ---------------------------------------------------------------------------
  // One step, and how consecutive turns are related
  // ---------------------------------------------------------------------------

  /** The run stops after this turn with the given result, or (None) goes on. */
  function StepOutcome(cfg: AgentConfig, exec: Executor, t: Turn): (r: Option<Result<string, AgentFailure>>)
    ensures r.None? <==> Resumes(exec, t)
    ensures r == Some(Failure(RuntimeError(ExhaustedMessage(cfg)))) <==>
      t.reply.Answered? && t.reply.response.stopReason != "end_turn" && t.reply.response.stopReason != "tool_use"
    ensures (r.Some? && r.value.Success?) <==>
      t.reply.Answered? && t.reply.response.stopReason == "end_turn" && cfg.finalize(t.reply.response.content).Success?
    ensures r.Some? && r.value.Success? ==> r.value.value == cfg.finalize(t.reply.response.content).value
    ensures r.Some? && r.value.Failure? && r.value.error.OutputFormat? ==>
      t.reply.Answered? && cfg.finalize(t.reply.response.content) == Failure(r.value.error.message)
    ensures r.Some? && r.value.Failure? && r.value.error.RuntimeError? ==> r.value.error.message == ExhaustedMessage(cfg)
  {
    match t.reply
    case ReturnedNone => Some(Failure(NoResponse))
    case Failed(e) => Some(Failure(ApiFailure(e)))
    case Answered(resp) =>
      if resp.stopReason == "end_turn" then
        match cfg.finalize(resp.content)
        case Success(v) => Some(Success(v))
        case Failure(m) => Some(Failure(OutputFormat(m)))
      else if resp.stopReason == "tool_use" then
        match RunTools(t.countBefore, resp.content, exec)
        case Failure(k) => Some(Failure(ToolArgumentMissing(k)))
        case Success(_) => None
      else Some(Failure(RuntimeError(ExhaustedMessage(cfg))))
  }

  /** The turn ended in `tool_use` and every tool ran. */
  predicate Resumes(exec: Executor, t: Turn) {
    && t.reply.Answered?
    && t.reply.response.stopReason == "tool_use"
    && RunTools(t.countBefore, t.reply.response.content, exec).Success?
  }

  /** The history after a resumed turn: its request's messages, the assistant turn, the results turn. */
  function Followup(exec: Executor, t: Turn): seq<Message>
    requires Resumes(exec, t)
  {
    t.request.messages
      + [Assistant(t.reply.response.content), ToolResults(RunTools(t.countBefore, t.reply.response.content, exec).value)]
  }

  /** The nudge goes in exactly when the count first reaches the threshold. */
  function NudgeIf(cfg: AgentConfig, before: int, after: nat): seq<Message> {
    if after >= cfg.forceOutputAfter && before < cfg.forceOutputAfter then [Nudge(cfg.nudge)] else []
  }

  /** The history the first request carries. */
  function Opening(cfg: AgentConfig, prompt: string): seq<Message> {
    [UserPrompt(prompt)] + NudgeIf(cfg, -1, 0)
  }

  /** Tools are offered exactly while the count is below the threshold; the token budget is fixed. */
  predicate Forcing(cfg: AgentConfig, t: Turn) {
    && t.request.tools == (if t.countBefore >= cfg.forceOutputAfter then None else Some(Catalogue))
    && t.request.maxTokens == cfg.maxTokens
  }

  /** Turn `u` follows turn `t`. */
  predicate Continues(cfg: AgentConfig, exec: Executor, t: Turn, u: Turn) {
    && Resumes(exec, t)
    && u.countBefore == t.countBefore + ToolUseCount(t.reply.response.content)
    && u.firstCall == t.firstCall + t.attempts
    && u.request.messages == Followup(exec, t) + NudgeIf(cfg, t.countBefore, u.countBefore)
  }

  /** The retry wrapper's contract holds for every turn. */
  predicate Retried(cfg: AgentConfig, client: nat -> CallOutcome, t: Turn) {
    RetrySpec(client, t.firstCall, cfg.maxRetries, t.reply, t.attempts, t.delays)
  }

  /** A list of turns is a run of the loop begun with `prompt`. */
  predicate IsRun(cfg: AgentConfig, prompt: string, client: nat -> CallOutcome, exec: Executor, turns: seq<Turn>) {
    && |turns| <= cfg.maxIterations
    && (forall k | 0 <= k < |turns| :: Forcing(cfg, turns[k]) && Retried(cfg, client, turns[k]))
    && (turns != [] ==>
          turns[0].countBefore == 0 && turns[0].firstCall == 0 && turns[0].request.messages == Opening(cfg, prompt))
    && (forall k | 0 <= k < |turns| - 1 :: Continues(cfg, exec, turns[k], turns[k + 1]))
  }

  // ---------------------------------------------------------------------------
  // The loop
  // ---------------------------------------------------------------------------

  /** The loop's variables between iterations agree with the turns taken so far. */
  predicate Ready(cfg: AgentConfig, prompt: string, exec: Executor, turns: seq<Turn>,
                  count: nat, calls: nat, messages: seq<Message>, nudgeSent: bool)
  {
    if turns == [] then
      count == 0 && calls == 0 && messages == [UserPrompt(prompt)] && !nudgeSent
    else
      && Resumes(exec, Last(turns))
      && count == Last(turns).countBefore + ToolUseCount(Last(turns).reply.response.content)
      && calls == Last(turns).firstCall + Last(turns).attempts
      && messages == Followup(exec, Last(turns))
      && (nudgeSent <==> Last(turns).countBefore >= cfg.forceOutputAfter)
  }

  /** A turn built from the loop's variables extends the run. */
  lemma ExtendRun(cfg: AgentConfig, prompt: string, client: nat -> CallOutcome, exec: Executor, turns: seq<Turn>,
                  count: nat, calls: nat, messages: seq<Message>, nudgeSent: bool, u: Turn)
    requires IsRun(cfg, prompt, client, exec, turns) && |turns| < cfg.maxIterations
    requires Ready(cfg, prompt, exec, turns, count, calls, messages, nudgeSent)
    requires u.countBefore == count && u.firstCall == calls && Retried(cfg, client, u)
    requires u.request == Request(
      messages + (if count >= cfg.forceOutputAfter && !nudgeSent then [Nudge(cfg.nudge)] else []),
      cfg.maxTokens,
      if count >= cfg.forceOutputAfter then None else Some(Catalogue))
    ensures IsRun(cfg, prompt, client, exec, turns + [u])
  {
    var ts := turns + [u];
    assert forall k | 0 <= k < |turns| :: ts[k] == turns[k];
    if turns == [] {
      assert u.request.messages == Opening(cfg, prompt);
    } else {
      ReadyContinues(cfg, prompt, exec, turns, count, calls, messages, nudgeSent, u);
      assert ts[|turns| - 1] == Last(turns);
    }
  }

  /** A turn built from the loop's variables follows the last turn taken. */
  lemma ReadyContinues(cfg: AgentConfig, prompt: string, exec: Executor, turns: seq<Turn>,
                       count: nat, calls: nat, messages: seq<Message>, nudgeSent: bool, u: Turn)
    requires turns != [] && Ready(cfg, prompt, exec, turns, count, calls, messages, nudgeSent)
    requires u.countBefore == count && u.firstCall == calls
    requires u.request.messages ==
      messages + (if count >= cfg.forceOutputAfter && !nudgeSent then [Nudge(cfg.nudge)] else [])
    ensures Continues(cfg, exec, Last(turns), u)
  {
  }

  /** The nudge has been sent only once the count reached the threshold. */
  lemma NudgeSentBelowCount(cfg: AgentConfig, prompt: string, exec: Executor, turns: seq<Turn>,
                            count: nat, calls: nat, messages: seq<Message>, nudgeSent: bool)
    requires Ready(cfg, prompt, exec, turns, count, calls, messages, nudgeSent)
    ensures nudgeSent ==> count >= cfg.forceOutputAfter
  {
  }

  /** After a turn that resumes, the loop's variables are ready for the next one. */
  lemma ReadyAfterResume(cfg: AgentConfig, prompt: string, exec: Executor, turns: seq<Turn>, u: Turn, nudgeSent: bool)
    requires Resumes(exec, u)
    requires nudgeSent <==> u.countBefore >= cfg.forceOutputAfter
    ensures Ready(cfg, prompt, exec, turns + [u], u.countBefore + ToolUseCount(u.reply.response.content),
                  u.firstCall + u.attempts, Followup(exec, u), nudgeSent)
  {
    assert Last(turns + [u]) == u;
  }

  /**
    How a run ends: with at least one turn; before the cap only because the
    last turn gave an outcome; with that outcome, or else the exhaustion error.
  */
  predicate Concluded(cfg: AgentConfig, exec: Executor, turns: seq<Turn>, result: Result<string, AgentFailure>) {
    && (cfg.maxIterations > 0 ==> turns != [])
    && (|turns| < cfg.maxIterations ==> turns != [] && StepOutcome(cfg, exec, Last(turns)).Some?)
    && result ==
         if turns != [] && StepOutcome(cfg, exec, Last(turns)).Some? then StepOutcome(cfg, exec, Last(turns)).value
         else Failure(RuntimeError(ExhaustedMessage(cfg)))
  }

  /**
    What a concluded run's result says about its last response: a success is
    exactly an `end_turn` answer the finaliser accepts, and carries what the
    finaliser made of it; a format error is the finaliser's own message; a
    runtime error is always the exhaustion message.
  */
  lemma ConcludedResult(cfg: AgentConfig, exec: Executor, turns: seq<Turn>, result: Result<string, AgentFailure>)
    requires Concluded(cfg, exec, turns, result)
    ensures result.Success? <==>
      && turns != []
      && Last(turns).reply.Answered?
      && Last(turns).reply.response.stopReason == "end_turn"
      && cfg.finalize(Last(turns).reply.response.content).Success?
    ensures result.Success? ==> result.value == cfg.finalize(Last(turns).reply.response.content).value
    ensures result.Failure? && result.error.RuntimeError? ==> result.error.message == ExhaustedMessage(cfg)
    ensures result.Failure? && result.error.OutputFormat? ==>
      && turns != [] && Last(turns).reply.Answered?
      && cfg.finalize(Last(turns).reply.response.content) == Failure(result.error.message)
  {
    if turns != [] {
      var o := StepOutcome(cfg, exec, Last(turns));
      assert o.Some? ==> result == o.value;
    }
  }

  /**
    Which failure a concluded run reports, each tied to the last turn: no
    response when the retry wrapper returned None, the API error it re-raised,
    the missing key of a tool call that could not run, and the exhaustion error
    when the cap was reached or the model stopped for a reason other than
    `end_turn` or `tool_use`.
  */
  lemma ConcludedFailure(cfg: AgentConfig, exec: Executor, turns: seq<Turn>, result: Result<string, AgentFailure>)
    requires Concluded(cfg, exec, turns, result)
    ensures result == Failure(NoResponse) <==> turns != [] && Last(turns).reply.ReturnedNone?
    ensures (result.Failure? && result.error.ApiFailure?) <==> turns != [] && Last(turns).reply.Failed?
    ensures result.Failure? && result.error.ApiFailure? ==> result.error.error == Last(turns).reply.error
    ensures (result.Failure? && result.error.ToolArgumentMissing?) <==>
      && turns != [] && Last(turns).reply.Answered?
      && Last(turns).reply.response.stopReason == "tool_use"
      && RunTools(Last(turns).countBefore, Last(turns).reply.response.content, exec).Failure?
    ensures result.Failure? && result.error.ToolArgumentMissing? ==>
      result.error.key == RunTools(Last(turns).countBefore, Last(turns).reply.response.content, exec).error
    ensures (result.Failure? && result.error.RuntimeError?) <==>
      || turns == []
      || Resumes(exec, Last(turns))
      || (&& Last(turns).reply.Answered?
          && Last(turns).reply.response.stopReason != "end_turn"
          && Last(turns).reply.response.stopReason != "tool_use")
  {
    if turns != [] {
      var t := Last(turns);
      var o := StepOutcome(cfg, exec, t);
      assert o.Some? ==> result == o.value;
      assert o.None? ==> result == Failure(RuntimeError(ExhaustedMessage(cfg)));
    }
  }

  /**
    The shape of a concluded run: at least one turn when any is allowed, at
    most `maxIterations`, and tools offered on a turn exactly while fewer than
    `forceOutputAfter` tool calls came before it.
  */
  lemma RunShape(cfg: AgentConfig, prompt: string, client: nat -> CallOutcome, exec: Executor,
                 turns: seq<Turn>, result: Result<string, AgentFailure>)
    requires IsRun(cfg, prompt, client, exec, turns) && Concluded(cfg, exec, turns, result)
    ensures cfg.maxIterations > 0 ==> 1 <= |turns|
    ensures |turns| <= cfg.maxIterations
    ensures forall k | 0 <= k < |turns| ::
      turns[k].request.tools.None? <==> turns[k].countBefore >= cfg.forceOutputAfter
  {
    forall k | 0 <= k < |turns|
      ensures turns[k].request.tools.None? <==> turns[k].countBefore >= cfg.forceOutputAfter
    {
      assert Forcing(cfg, turns[k]);
    }
  }

  /**
    `run_agent`: the turns taken and the result. The run goes on only through
    `tool_use` responses whose tools all ran, even after output was forced; it
    stops early only for a reason (a result, an error, an unexpected stop
    reason), and after `maxIterations` turns it raises the exhaustion error.
  */
  method RunAgent(cfg: AgentConfig, prompt: string, client: nat -> CallOutcome, exec: Executor)
    returns (result: Result<string, AgentFailure>, turns: seq<Turn>)
    ensures IsRun(cfg, prompt, client, exec, turns)
    ensures Concluded(cfg, exec, turns, result)
  {
    var messages := [UserPrompt(prompt)];
    var count: nat := 0;
    var nudgeSent := false;
    var calls: nat := 0;
    var done := false;
    turns := [];
    result := Failure(RuntimeError(ExhaustedMessage(cfg)));
    while |turns| < cfg.maxIterations && !done
      invariant IsRun(cfg, prompt, client, exec, turns)
      invariant !done ==> Ready(cfg, prompt, exec, turns, count, calls, messages, nudgeSent)
      invariant done ==> turns != [] && StepOutcome(cfg, exec, Last(turns)) == Some(result)
      invariant !done ==> result == Failure(RuntimeError(ExhaustedMessage(cfg)))
      decreases cfg.maxIterations - |turns|
    {
      var history, sent := messages, nudgeSent;
      var force := count >= cfg.forceOutputAfter;
      if force && !nudgeSent {
        messages := messages + [Nudge(cfg.nudge)];
        nudgeSent := true;
      }
      var request := Request(messages, cfg.maxTokens, if force then None else Some(Catalogue));
      var reply, attempts, delays := CreateWithRetry(client, calls, cfg.maxRetries);
      var turn := Turn(count, calls, request, reply, attempts, delays);
      ExtendRun(cfg, prompt, client, exec, turns, count, calls, history, sent, turn);
      NudgeSentBelowCount(cfg, prompt, exec, turns, count, calls, history, sent);
      turns := turns + [turn];
      calls := calls + attempts;
      var outcome := StepOutcome(cfg, exec, turn);
      if outcome.Some? {
        result := outcome.value;
        done := true;
      } else {
        var content := reply.response.content;
        messages := messages + [Assistant(content), ToolResults(RunTools(count, content, exec).value)];
        count := count + ToolUseCount(content);
        ReadyAfterResume(cfg, prompt, exec, turns, turn, nudgeSent);
      }
    }
  }

  // ---------------------------------------------------------------------------
  // Properties of every run
  // ---------------------------------------------------------------------------

  /** The tool-call count never decreases from one turn to a later one. */
  lemma {:induction false} CountNeverDecreases(cfg: AgentConfig, prompt: string, client: nat -> CallOutcome,
                                               exec: Executor, turns: seq<Turn>, k: nat, l: nat)
    requires IsRun(cfg, prompt, client, exec, turns)
    requires k <= l < |turns|
    ensures turns[k].countBefore <= turns[l].countBefore
    decreases l - k
  {
    if k < l {
      CountNeverDecreases(cfg, prompt, client, exec, turns, k + 1, l);
      assert Continues(cfg, exec, turns[k], turns[k + 1]);
    }
  }

  /**
    What a `tool_use` round leaves behind: the count rises by the number of
    `tool_use` blocks; the history gains the assistant turn and then one user
    turn holding one result per block, in emission order, each under its
    block's id; at most the nudge follows.
  */
  lemma ToolRoundResults(cfg: AgentConfig, exec: Executor, t: Turn, u: Turn)
    requires Continues(cfg, exec, t, u)
    ensures t.reply.Answered? && t.reply.response.stopReason == "tool_use"
    ensures u.countBefore == t.countBefore + |ToolUses(t.reply.response.content)|
    ensures |t.request.messages| + 2 <= |u.request.messages| <= |t.request.messages| + 3
    ensures u.request.messages[..|t.request.messages|] == t.request.messages
    ensures u.request.messages[|t.request.messages|] == Assistant(t.reply.response.content)
    ensures u.request.messages[|t.request.messages| + 1].ToolResults?
    ensures |u.request.messages[|t.request.messages| + 1].results| == |ToolUses(t.reply.response.content)|
    ensures forall j | 0 <= j < |ToolUses(t.reply.response.content)| ::
      u.request.messages[|t.request.messages| + 1].results[j].toolUseId == ToolUses(t.reply.response.content)[j].id
  {
    var m, n := t.request.messages, u.request.messages;
    var uses := ToolUses(t.reply.response.content);
    var rs := RunUses(t.countBefore, uses, exec).value;
    assert n == m + [Assistant(t.reply.response.content), ToolResults(rs)] + NudgeIf(cfg, t.countBefore, u.countBefore);
    assert n[|m| + 1] == ToolResults(rs);
  }

  /** Once a request omits the tools, every later request of the run omits them too. */
  lemma ToolsStayOmitted(cfg: AgentConfig, prompt: string, client: nat -> CallOutcome,
                         exec: Executor, turns: seq<Turn>, k: nat, l: nat)
    requires IsRun(cfg, prompt, client, exec, turns)
    requires k <= l < |turns| && turns[k].request.tools.None?
    ensures turns[l].request.tools.None?
  {
    CountNeverDecreases(cfg, prompt, client, exec, turns, k, l);
    assert Forcing(cfg, turns[k]) && Forcing(cfg, turns[l]);
  }

  lemma NudgeCountStep(cfg: AgentConfig, msgs: seq<Message>, added: seq<Message>, before: nat, after: nat)
    requires before <= after
    requires forall j | 0 <= j < |added| :: !added[j].Nudge?
    requires NudgeCount(msgs) == if before >= cfg.forceOutputAfter then 1 else 0
    ensures NudgeCount(msgs + added + NudgeIf(cfg, before, after)) == if after >= cfg.forceOutputAfter then 1 else 0
  {
    NudgeCountAppend(msgs, added);
    NudgeCountAppend(msgs + added, NudgeIf(cfg, before, after));
  }

  /**
    Every request carries the nudge exactly once if output is forced at that
    turn and not at all otherwise, so it is sent at most once per run.
  */
  lemma {:induction false} NudgeSentAtMostOnce(cfg: AgentConfig, prompt: string, client: nat -> CallOutcome,
                                               exec: Executor, turns: seq<Turn>, k: nat)
    requires IsRun(cfg, prompt, client, exec, turns)
    requires k < |turns|
    ensures NudgeCount(turns[k].request.messages) == if turns[k].countBefore >= cfg.forceOutputAfter then 1 else 0
    decreases k
  {
    if k == 0 {
      NudgeCountAppend([UserPrompt(prompt)], NudgeIf(cfg, -1, 0));
    } else {
      NudgeSentAtMostOnce(cfg, prompt, client, exec, turns, k - 1);
      var t, u := turns[k - 1], turns[k];
      assert Continues(cfg, exec, t, u);
      var content := t.reply.response.content;
      var added := [Assistant(content), ToolResults(RunTools(t.countBefore, content, exec).value)];
      NudgeCountStep(cfg, t.request.messages, added, t.countBefore, u.countBefore);
    }
  }

  /**
    The history only grows: each request's messages extend every earlier
    request's, by at least the assistant turn and the results turn per
    iteration in between.
  */
  lemma {:induction false} HistoryOnlyGrows(cfg: AgentConfig, prompt: string, client: nat -> CallOutcome,
                                            exec: Executor, turns: seq<Turn>, k: nat, l: nat)
    requires IsRun(cfg, prompt, client, exec, turns)
    requires k <= l < |turns|
    ensures turns[k].request.messages <= turns[l].request.messages
    ensures |turns[l].request.messages| >= |turns[k].request.messages| + 2 * (l - k)
    decreases l - k
  {
    if k < l {
      HistoryOnlyGrows(cfg, prompt, client, exec, turns, k, l - 1);
      assert Continues(cfg, exec, turns[l - 1], turns[l]);
      ContinuesExtends(cfg, exec, turns[l - 1], turns[l]);
      PrefixTransitive(turns[k].request.messages, turns[l - 1].request.messages, turns[l].request.messages);
    }
  }

  /** A resumed turn's successor carries its history, then at least the assistant turn and the results turn. */
  lemma ContinuesExtends(cfg: AgentConfig, exec: Executor, t: Turn, u: Turn)
    requires Continues(cfg, exec, t, u)
    ensures t.request.messages <= u.request.messages
    ensures |u.request.messages| >= |t.request.messages| + 2
  {
    var b, c := t.request.messages, u.request.messages;
    assert c[..|b|] == b;
  }

  lemma PrefixTransitive<T>(a: seq<T>, b: seq<T>, c: seq<T>)
    requires a <= b && b <= c
    ensures a <= c
  {
    assert a == b[..|a|] && b == c[..|b|];
    assert c[..|a|] == c[..|b|][..|a|];
  }

  /** Every request opens with the user prompt. */
  lemma HistoryStartsWithPrompt(cfg: AgentConfig, prompt: string, client: nat -> CallOutcome,
                                exec: Executor, turns: seq<Turn>, l: nat)
    requires IsRun(cfg, prompt, client, exec, turns)
    requires l < |turns|
    ensures |turns[l].request.messages| > 0 && turns[l].request.messages[0] == UserPrompt(prompt)
  {
    HistoryOnlyGrows(cfg, prompt, client, exec, turns, 0, l);
    assert Opening(cfg, prompt)[0] == UserPrompt(prompt);
  }
}

=== FILE: conversation.dfy ===
/**
  The shapes exchanged with the model: content blocks, responses, tool results
  and the message history, with the two ways the agent reads a response (the
  text blocks joined together, the `tool_use` blocks in order).
*/
module Conversation {
  import opened Values
  import opened Tools

  /** A content block of a model response. */
  datatype Block =
    | TextBlock(text: string)
    | ToolUseBlock(id: string, name: string, input: Record)

  /** A model response: why it stopped and what it said (token usage is not modelled). */
  datatype Response = Response(stopReason: string, content: seq<Block>)

  /** One `tool_result` entry of a user turn. */
  datatype ToolResult = ToolResult(toolUseId: string, content: ToolOutput)

  /**
    An entry of the `messages` list. The opening user turn, the nudge and the
    tool-result turns all have role "user"; they are separate constructors so
    the history can be inspected.
  */
  datatype Message =
    | UserPrompt(text: string)
    | Nudge(text: string)
    | Assistant(content: seq<Block>)
    | ToolResults(results: seq<ToolResult>)

  // ---------------------------------------------------------------------------
  // tool_use blocks
  // ---------------------------------------------------------------------------

  /** The `tool_use` blocks of a response, in emission order. */
  function ToolUses(blocks: seq<Block>): (r: seq<Block>)
    ensures |r| <= |blocks|
    ensures forall j | 0 <= j < |r| :: r[j].ToolUseBlock?
  {
    if blocks == [] then []
    else if blocks[0].ToolUseBlock? then [blocks[0]] + ToolUses(blocks[1..])
    else ToolUses(blocks[1..])
  }

  /** The selection holds exactly the `tool_use` blocks of the response. */
  lemma {:induction false} ToolUsesSelects(blocks: seq<Block>)
    ensures forall b :: b in ToolUses(blocks) <==> b in blocks && b.ToolUseBlock?
    decreases |blocks|
  {
    if blocks != [] {
      ToolUsesSelects(blocks[1..]);
      assert forall b :: b in blocks <==> b == blocks[0] || b in blocks[1..];
    }
  }

  function ToolUseCount(blocks: seq<Block>): nat {
    |ToolUses(blocks)|
  }

  /** Selecting tool uses distributes over concatenation, so it keeps emission order. */
  lemma {:induction false} ToolUsesAppend(a: seq<Block>, b: seq<Block>)
    ensures ToolUses(a + b) == ToolUses(a) + ToolUses(b)
    decreases |a|
  {
    if a == [] {
      assert a + b == b;
    } else {
      assert (a + b)[0] == a[0] && (a + b)[1..] == a[1..] + b;
      ToolUsesAppend(a[1..], b);
      if a[0].ToolUseBlock? {
        calc {
          ToolUses(a + b);
          [a[0]] + ToolUses(a[1..] + b);
          [a[0]] + (ToolUses(a[1..]) + ToolUses(b));
          ([a[0]] + ToolUses(a[1..])) + ToolUses(b);
        }
      }
    }
  }

  // ---------------------------------------------------------------------------
  // text blocks
  // ---------------------------------------------------------------------------

  /** All text blocks concatenated, as `full_text += block.text` builds it. */
  function FullText(blocks: seq<Block>): (r: string)
    ensures (forall j | 0 <= j < |blocks| :: blocks[j].ToolUseBlock?) ==> r == []
    ensures |blocks| == 1 && blocks[0].TextBlock? ==> r == blocks[0].text
  {
    if blocks == [] then []
    else (if blocks[0].TextBlock? then blocks[0].text else []) + FullText(blocks[1..])
  }

  /** The text of a concatenation of responses is the concatenation of their texts. */
  lemma {:induction false} FullTextAppend(a: seq<Block>, b: seq<Block>)
    ensures FullText(a + b) == FullText(a) + FullText(b)
    decreases |a|
  {
    if a == [] {
      assert a + b == b;
    } else {
      assert (a + b)[0] == a[0] && (a + b)[1..] == a[1..] + b;
      FullTextAppend(a[1..], b);
      var h := if a[0].TextBlock? then a[0].text else [];
      assert FullText(a + b) == h + FullText(a[1..] + b);
      assert FullText(a) == h + FullText(a[1..]);
    }
  }

  /** A block that is not text contributes nothing, wherever it sits. */
  lemma FullTextSkipsNonText(a: seq<Block>, blk: Block, b: seq<Block>)
    requires !blk.TextBlock?
    ensures FullText(a + [blk] + b) == FullText(a) + FullText(b)
  {
    var u := [blk];
    assert FullText(u) == [];
    FullTextAppend(a, u);
    FullTextAppend(a + u, b);
  }

  // ---------------------------------------------------------------------------
  // the history
  // ---------------------------------------------------------------------------

  /** How many nudge messages a history holds. */
  function NudgeCount(msgs: seq<Message>): (n: nat)
    ensures n <= |msgs|
    ensures n == 0 <==> forall j | 0 <= j < |msgs| :: !msgs[j].Nudge?
  {
    if msgs == [] then 0
    else (if msgs[0].Nudge? then 1 else 0) + NudgeCount(msgs[1..])
  }

  lemma {:induction false} NudgeCountAppend(a: seq<Message>, b: seq<Message>)
    ensures NudgeCount(a + b) == NudgeCount(a) + NudgeCount(b)
    decreases |a|
  {
    if a == [] {
      assert a + b == b;
    } else {
      assert (a + b)[0] == a[0] && (a + b)[1..] == a[1..] + b;
      NudgeCountAppend(a[1..], b);
    }
  }
}

=== FILE: idea_generator.dfy ===
/**
  The idea generator (`main.py`): the prompt built from the day's sources,
  and the agent run that ends in a JSON array of ten post ideas. Today's date
  is a parameter (the script formats the Berlin clock); the array text is what
  `json.loads` would be handed.
*/
module IdeaGenerator {
  import opened Wrappers
  import opened Text
  import opened Values
  import opened Tools
  import opened Conversation
  import opened Retry
  import opened AgentLoop
  import opened ResponseParser

  const MaxIterations: nat := 10
  const ForceOutputAfter: nat := 6
  const MaxTokens: nat := 4096

  /** Newsletter characters kept, feed items kept per feed, summary characters kept. */
  const EmailCap: nat := 4000
  const FeedItemCap: nat := 6
  const FeedSummaryCap: nat := 200

  const DefaultSubject := "Startup Insider Daily"
  const OpenaiHeading := "## OpenAI Blog (neueste Artikel)"
  const AnthropicHeading := "## Anthropic Blog (neueste Artikel)"
  const Instruction :=
    "Analysiere die Quellen. Nutze fetch_article um interessante Artikel vollständig zu lesen "
    + "und web_search für deutschen Kontext oder aktuelle Reaktionen.\n"
    + "Erstelle dann genau 10 LinkedIn-Post-Ideen als JSON-Array. "
    + "Denke immer: Was ist der autofyn-Winkel? Nicht reporten – Standpunkt nehmen."
  const NudgeText :=
    "Du hast genug recherchiert. Erstelle jetzt die 10 LinkedIn-Post-Ideen "
    + "als JSON-Array. Nur das Array, kein Text drumherum."
  const ExhaustionPrefix := "Agent did not produce output after "

  /** A feed item of the input; an absent or empty summary is "". */
  datatype BlogItem = BlogItem(title: Value, link: Value, summary: string)

  /** The input object; absent keys are "" and []. */
  datatype IdeaInput = IdeaInput(
    emailContent: string,
    emailSubject: string,
    rssOpenai: seq<BlogItem>,
    rssAnthropic: seq<BlogItem>)

  // ---------------------------------------------------------------------------
  // The prompt
  // ---------------------------------------------------------------------------

  function Header(today: string): string {
    "Heute ist " + today + ". Hier sind die Content-Quellen für heute:\n"
  }

  /** The newsletter block: present only when the stripped content is non-empty, content capped. */
  function NewsletterSection(content: string, subject: string): (r: seq<string>)
    ensures r == [] <==> AllSpace(content)
    ensures r != [] ==>
      && |r| == 3 && r[2] == ""
      && r[0] == "## Newsletter: " + (if AllSpace(subject) then DefaultSubject else Strip(subject))
      && r[1] != [] && |r[1]| <= EmailCap && r[1] <= Strip(content)
      && (|Strip(content)| <= EmailCap ==> r[1] == Strip(content))
      && r[1] == Take(Strip(content), EmailCap)
  {
    var body := Strip(content);
    var title := Strip(subject);
    if body == [] then []
    else ["## Newsletter: " + (if title != [] then title else DefaultSubject), Take(body, EmailCap), ""]
  }

  /** The lines of one feed item: its markdown link, then its summary when it has one. */
  function ItemLines(item: BlogItem): (r: seq<string>)
    ensures |r| == if item.summary == "" then 1 else 2
    ensures r[0] == "- [" + Render(item.title) + "](" + Render(item.link) + ")"
    ensures |r| == 2 ==>
      && StartsWith(r[1], "  ") && |r[1]| <= 2 + FeedSummaryCap
      && r[1][2..] <= item.summary
      && (|item.summary| <= FeedSummaryCap ==> r[1][2..] == item.summary)
      && r[1] == "  " + Take(item.summary, FeedSummaryCap)
  {
    var link := "- [" + Render(item.title) + "](" + Render(item.link) + ")";
    if item.summary == "" then [link]
    else
      var line := "  " + Take(item.summary, FeedSummaryCap);
      assert line[2..] == Take(item.summary, FeedSummaryCap);
      [link, line]
  }

  function FeedLines(items: seq<BlogItem>): (r: seq<string>)
    ensures |items| <= |r| <= 2 * |items|
  {
    if items == [] then [] else ItemLines(items[0]) + FeedLines(items[1..])
  }

  /** One feed's block: omitted for an empty feed, at most six items. */
  function FeedSection(heading: string, items: seq<BlogItem>): (r: seq<string>)
    ensures r == [] <==> items == []
    ensures r != [] ==> r[0] == heading && r[|r| - 1] == "" && 3 <= |r| <= 2 + 2 * FeedItemCap
    ensures r != [] ==> r == [heading] + FeedLines(Take(items, FeedItemCap)) + [""]
  {
    if items == [] then [] else [heading] + FeedLines(Take(items, FeedItemCap)) + [""]
  }

  /** Every line of the prompt, before joining. */
  function IdeaPromptLines(today: string, input: IdeaInput): (r: seq<string>)
    ensures 2 <= |r| <= 2 + 3 + 2 * (2 + 2 * FeedItemCap)
    ensures r[0] == Header(today) && r[|r| - 1] == Instruction
    ensures r == [Header(today)]
      + NewsletterSection(input.emailContent, input.emailSubject)
      + FeedSection(OpenaiHeading, input.rssOpenai)
      + FeedSection(AnthropicHeading, input.rssAnthropic)
      + [Instruction]
  {
    [Header(today)]
      + NewsletterSection(input.emailContent, input.emailSubject)
      + FeedSection(OpenaiHeading, input.rssOpenai)
      + FeedSection(AnthropicHeading, input.rssAnthropic)
      + [Instruction]
  }

  /** `build_user_message`: the lines joined by newlines; it opens with the date and ends with the instruction. */
  function BuildIdeaPrompt(today: string, input: IdeaInput): (r: string)
    ensures StartsWith(r, Header(today) + "\n")
    ensures |Instruction| <= |r| && r[|r| - |Instruction|..] == Instruction
    ensures r == Join("\n", IdeaPromptLines(today, input))
  {
    var lines := IdeaPromptLines(today, input);
    JoinFrame("\n", lines, Header(today), Instruction);
    Join("\n", lines)
  }

  // ---------------------------------------------------------------------------
  // Properties of the prompt
  // ---------------------------------------------------------------------------

  /** Each of the first items of a feed contributes its link line. */
  lemma {:induction false} FeedLinesListItem(items: seq<BlogItem>, i: nat)
    requires i < |items|
    ensures ItemLines(items[i])[0] in FeedLines(items)
    decreases i
  {
    if i == 0 {
      assert FeedLines(items)[0] == ItemLines(items[0])[0];
    } else {
      FeedLinesListItem(items[1..], i - 1);
      assert items[1..][i - 1] == items[i];
      assert FeedLines(items) == ItemLines(items[0]) + FeedLines(items[1..]);
    }
  }

  /** Every one of a feed's first six items is listed in its section. */
  lemma FeedSectionListsItem(heading: string, items: seq<BlogItem>, i: nat)
    requires i < |items| && i < FeedItemCap
    ensures ItemLines(items[i])[0] in FeedSection(heading, items)
  {
    var kept := Take(items, FeedItemCap);
    assert kept[i] == items[i];
    FeedLinesListItem(kept, i);
  }

  /** The lines of a concatenation of feeds are the lines of each feed in turn. */
  lemma {:induction false} FeedLinesAppend(a: seq<BlogItem>, b: seq<BlogItem>)
    ensures FeedLines(a + b) == FeedLines(a) + FeedLines(b)
    decreases |a|
  {
    if a == [] {
      assert a + b == b;
    } else {
      FeedLinesStep(a, b);
      FeedLinesAppend(a[1..], b);
      AppendAssoc(ItemLines(a[0]), FeedLines(a[1..]), FeedLines(b));
    }
  }

  lemma FeedLinesStep(a: seq<BlogItem>, b: seq<BlogItem>)
    requires a != []
    ensures FeedLines(a + b) == ItemLines(a[0]) + FeedLines(a[1..] + b)
    ensures FeedLines(a) == ItemLines(a[0]) + FeedLines(a[1..])
  {
    assert (a + b)[1..] == a[1..] + b;
  }

  lemma AppendAssoc(x: seq<string>, y: seq<string>, z: seq<string>)
    ensures x + (y + z) == (x + y) + z
  {
  }

  /** Item `i` contributes exactly its own lines, between those of the items before and after it. */
  lemma FeedLinesAt(items: seq<BlogItem>, i: nat)
    requires i < |items|
    ensures FeedLines(items) == FeedLines(items[..i]) + ItemLines(items[i]) + FeedLines(items[i + 1..])
  {
    var pre, one, post := items[..i], items[i..i + 1], items[i + 1..];
    ThreeSlices(items, i, i + 1);
    FeedLinesAppend(pre + one, post);
    FeedLinesAppend(pre, one);
    FeedLinesStep(one, []);
    assert one[0] == items[i] && one[1..] == [];
    var mid := ItemLines(items[i]);
    assert FeedLines(one) == mid;
    assert FeedLines(pre + one) == FeedLines(pre) + mid;
    assert FeedLines(items) == FeedLines(pre + one) + FeedLines(post);
  }

  /** Every line of each of a feed's first six items, summary included, is a line of its section. */
  lemma FeedSectionHasItemLines(heading: string, items: seq<BlogItem>, i: nat)
    requires i < |items| && i < FeedItemCap
    ensures forall line | line in ItemLines(items[i]) :: line in FeedSection(heading, items)
  {
    var kept := Take(items, FeedItemCap);
    assert kept[i] == items[i];
    FeedLinesAt(kept, i);
  }

  /** The capped newsletter text, under its heading, is part of the prompt. */
  lemma PromptCarriesNewsletter(today: string, input: IdeaInput)
    requires !AllSpace(input.emailContent)
    ensures var section := NewsletterSection(input.emailContent, input.emailSubject);
      && Contains(BuildIdeaPrompt(today, input), section[0])
      && Contains(BuildIdeaPrompt(today, input), Take(Strip(input.emailContent), EmailCap))
  {
    var lines := IdeaPromptLines(today, input);
    var section := NewsletterSection(input.emailContent, input.emailSubject);
    assert lines[1] == section[0] && lines[2] == section[1];
    JoinContainsPart("\n", lines, 1);
    JoinContainsPart("\n", lines, 2);
  }

  /** Every line of each of the first six items of either feed is part of the prompt. */
  lemma PromptListsFeedItems(today: string, input: IdeaInput, i: nat)
    requires i < FeedItemCap
    ensures i < |input.rssOpenai| ==>
      forall line | line in ItemLines(input.rssOpenai[i]) :: Contains(BuildIdeaPrompt(today, input), line)
    ensures i < |input.rssAnthropic| ==>
      forall line | line in ItemLines(input.rssAnthropic[i]) :: Contains(BuildIdeaPrompt(today, input), line)
  {
    var lines := IdeaPromptLines(today, input);
    if i < |input.rssOpenai| {
      FeedSectionHasItemLines(OpenaiHeading, input.rssOpenai, i);
      forall line | line in ItemLines(input.rssOpenai[i])
        ensures Contains(BuildIdeaPrompt(today, input), line)
      {
        JoinContainsLine("\n", lines, line);
      }
    }
    if i < |input.rssAnthropic| {
      FeedSectionHasItemLines(AnthropicHeading, input.rssAnthropic, i);
      forall line | line in ItemLines(input.rssAnthropic[i])
        ensures Contains(BuildIdeaPrompt(today, input), line)
      {
        JoinContainsLine("\n", lines, line);
      }
    }
  }

  /** Items after the sixth never reach the prompt. */
  lemma FeedSectionIgnoresLaterItems(heading: string, items: seq<BlogItem>, more: seq<BlogItem>)
    requires |items| >= FeedItemCap
    ensures FeedSection(heading, items + more) == FeedSection(heading, items)
  {
    assert (items + more)[..FeedItemCap] == items[..FeedItemCap];
  }

  /** Whitespace around the newsletter or its subject does not change the prompt. */
  lemma PromptIgnoresEmailPadding(today: string, input: IdeaInput, w1: string, w2: string, w3: string, w4: string)
    requires AllSpace(w1) && AllSpace(w2) && AllSpace(w3) && AllSpace(w4)
    ensures BuildIdeaPrompt(today, input.(emailContent := w1 + input.emailContent + w2,
                                          emailSubject := w3 + input.emailSubject + w4))
         == BuildIdeaPrompt(today, input)
  {
    StripIgnoresPadding(w1, input.emailContent, w2);
    StripIgnoresPadding(w3, input.emailSubject, w4);
  }

  // ---------------------------------------------------------------------------
  // The run
  // ---------------------------------------------------------------------------

  /** `run_agent` of the idea generator: ten iterations, output forced after six tool calls. */
  function IdeaAgent(): (cfg: AgentConfig)
    ensures cfg.maxIterations == MaxIterations && cfg.forceOutputAfter == ForceOutputAfter
    ensures cfg.maxTokens == MaxTokens && cfg.nudge == NudgeText
    ensures cfg.forceOutputAfter < cfg.maxIterations
    ensures cfg.maxRetries == DefaultMaxRetries
    ensures ExhaustedMessage(cfg) == "Agent did not produce output after 10 iterations"
    ensures forall blocks :: cfg.finalize(blocks) == ParseIdeas(blocks)
  {
    assert NatToString(10) == "10" by {
      assert NatToString(1) == "1";
    }
    AgentConfig(MaxIterations, ForceOutputAfter, MaxTokens, DefaultMaxRetries, NudgeText, ExhaustionPrefix, ParseIdeas)
  }

  /**
    What any run of the idea generator's loop guarantees, whatever its prompt
    and tools: between one and ten turns; tools offered exactly until six tool
    rounds have passed; a success is the bracketed array text of the final
    answer; running out of turns, or an unexpected stop reason, gives the
    exhaustion error; a final answer without any `[`...`]` is the ValueError of
    the parser.
  */
  lemma IdeaRunFacts(prompt: string, client: nat -> CallOutcome, exec: Executor,
                     result: Result<string, AgentFailure>, turns: seq<Turn>)
    requires IsRun(IdeaAgent(), prompt, client, exec, turns)
    requires Concluded(IdeaAgent(), exec, turns, result)
    ensures 1 <= |turns| <= MaxIterations
    ensures forall k | 0 <= k < |turns| :: turns[k].request.tools.None? <==> turns[k].countBefore >= ForceOutputAfter
    ensures result.Success? <==>
      && Last(turns).reply.Answered?
      && Last(turns).reply.response.stopReason == "end_turn"
      && ParseIdeas(Last(turns).reply.response.content).Success?
    ensures result.Success? ==>
      && result.value == ParseIdeas(Last(turns).reply.response.content).value
      && Bracketed(FullText(Last(turns).reply.response.content), result.value)
    ensures result.Failure? && result.error.RuntimeError? ==>
      result.error.message == "Agent did not produce output after 10 iterations"
    ensures result.Failure? && result.error.OutputFormat? ==>
      && Last(turns).reply.Answered?
      && Last(turns).reply.response.stopReason == "end_turn"
      && !HasBracketPair(FullText(Last(turns).reply.response.content))
    ensures result == Failure(NoResponse) <==> Last(turns).reply.ReturnedNone?
    ensures (result.Failure? && result.error.ApiFailure?) <==> Last(turns).reply.Failed?
    ensures (result.Failure? && result.error.ToolArgumentMissing?) <==>
      && Last(turns).reply.Answered?
      && Last(turns).reply.response.stopReason == "tool_use"
      && RunTools(Last(turns).countBefore, Last(turns).reply.response.content, exec).Failure?
    ensures (result.Failure? && result.error.RuntimeError?) <==>
      || Resumes(exec, Last(turns))
      || (&& Last(turns).reply.Answered?
          && Last(turns).reply.response.stopReason != "end_turn"
          && Last(turns).reply.response.stopReason != "tool_use")
  {
    var cfg := IdeaAgent();
    RunShape(cfg, prompt, client, exec, turns, result);
    ConcludedResult(cfg, exec, turns, result);
    ConcludedFailure(cfg, exec, turns, result);
  }

  /** The idea generator's run on the prompt of the day, with the real tools. */
  method GenerateIdeas(today: string, input: IdeaInput, client: nat -> CallOutcome, net: Network)
    returns (result: Result<string, AgentFailure>, turns: seq<Turn>)
    ensures IsRun(IdeaAgent(), BuildIdeaPrompt(today, input), client, NetworkExecutor(net), turns)
    ensures Concluded(IdeaAgent(), NetworkExecutor(net), turns, result)
    ensures 1 <= |turns| <= MaxIterations
    ensures forall k | 0 <= k < |turns| :: turns[k].request.tools.None? <==> turns[k].countBefore >= ForceOutputAfter
    ensures result.Success? <==>
      && Last(turns).reply.Answered?
      && Last(turns).reply.response.stopReason == "end_turn"
      && ParseIdeas(Last(turns).reply.response.content).Success?
    ensures result.Success? ==>
      && result.value == ParseIdeas(Last(turns).reply.response.content).value
      && Bracketed(FullText(Last(turns).reply.response.content), result.value)
    ensures result.Failure? && result.error.RuntimeError? ==>
      result.error.message == "Agent did not produce output after 10 iterations"
    ensures result.Failure? && result.error.OutputFormat? ==>
      && Last(turns).reply.Answered?
      && !HasBracketPair(FullText(Last(turns).reply.response.content))
  {
    var prompt := BuildIdeaPrompt(today, input);
    var exec := NetworkExecutor(net);
    result, turns := RunAgent(IdeaAgent(), prompt, client, exec);
    IdeaRunFacts(prompt, client, exec, result, turns);
  }
}

=== FILE: inputs.dfy ===
/**
  `load_input`, identical in both command-line scripts: the argument, once
  stripped, is a file path when it starts with "/" or "./" and inline JSON
  otherwise. The file system is an oracle from path to contents; `json.loads`
  is not interpreted, so the result is the JSON text it would be given.
*/
module Inputs {
  import opened Wrappers
  import opened Text

  const NotFoundPrefix := "Input file not found: "

  /** Where the JSON comes from. */
  datatype InputSource = FilePath(path: string) | Inline(json: string)

  /** The stripped argument is read as a path (checked character by character). */
  predicate NamesFile(t: string) {
    (|t| >= 1 && t[0] == '/') || (|t| >= 2 && t[0] == '.' && t[1] == '/')
  }

  function Classify(arg: string): (r: InputSource)
    ensures r.FilePath? <==> NamesFile(Strip(arg))
    ensures r.FilePath? ==> r.path == Strip(arg) && Trimmed(r.path)
    ensures r.Inline? ==> r.json == Strip(arg) && Trimmed(r.json)
  {
    var t := Strip(arg);
    if StartsWith(t, "/") || StartsWith(t, "./") then FilePath(t) else Inline(t)
  }

  /**
    The JSON text to decode, or the FileNotFoundError message. `files(p)` is
    None when `Path(p).exists()` is false.
  */
  function LoadInput(arg: string, files: string -> Option<string>): (r: Result<string, string>)
    ensures r.Failure? <==> NamesFile(Strip(arg)) && files(Strip(arg)).None?
    ensures r.Failure? ==> r.error == NotFoundPrefix + Strip(arg)
    ensures r.Success? && NamesFile(Strip(arg)) ==> files(Strip(arg)) == Some(r.value)
    ensures r.Success? && !NamesFile(Strip(arg)) ==> r.value == Strip(arg)
  {
    match Classify(arg)
    case FilePath(p) =>
      (match files(p)
       case None => Failure(NotFoundPrefix + p)
       case Some(text) => Success(text))
    case Inline(j) => Success(j)
  }

  /** Whitespace around the argument changes nothing: the same file, the same JSON, the same error. */
  lemma LoadInputIgnoresPadding(w1: string, arg: string, w2: string, files: string -> Option<string>)
    requires AllSpace(w1) && AllSpace(w2)
    ensures LoadInput(w1 + arg + w2, files) == LoadInput(arg, files)
  {
    StripIgnoresPadding(w1, arg, w2);
  }

  /** An argument that opens a JSON object is never looked up as a file. */
  lemma InlineObjectNeedsNoFile(arg: string, files: string -> Option<string>)
    requires Strip(arg) != [] && Strip(arg)[0] == '{'
    ensures LoadInput(arg, files) == Success(Strip(arg))
  {
  }
}

=== FILE: post_generator.dfy ===
/**
  The post generator (`post_generator.py`): the prompt for one idea, which of
  the three research hints it ends with, and the agent run whose final text,
  stripped, is the post.
*/
module PostGenerator {
  import opened Wrappers
  import opened Text
  import opened Values
  import opened Tools
  import opened Conversation
  import opened Retry
  import opened AgentLoop

  const MaxIterations: nat := 6
  const ForceOutputAfter: nat := 3
  const MaxTokens: nat := 2048

  const Opening := "Schreibe einen vollständigen LinkedIn-Post basierend auf dieser Idee:\n"
  const FetchHint :=
    "\nNutze fetch_article um den Quell-Artikel zu lesen und konkrete Details "
    + "(Zahlen, Zitate, spezifische Features) in den Post einzubauen. "
    + "Dann schreibe den fertigen Post."
  const SearchHint :=
    "\nNutze web_search um aktuelle Details zu diesem Thema zu finden. "
    + "Dann schreibe den fertigen Post."
  const DirectHint := "\nSchreibe direkt den fertigen Post basierend auf dem Hook und dem Winkel."
  const NudgeText :=
    "Du hast genug recherchiert. Schreibe jetzt den vollständigen LinkedIn-Post. "
    + "Nur den fertigen Post-Text, kein JSON, keine Erklärungen."
  const ExhaustionPrefix := "Post generator did not produce output after "

  /** The keys the prompt reads; every other key of an idea is ignored. */
  const PromptKeys: set<string> := {"title", "hook", "angle", "source", "source_url", "source_title"}

  // ---------------------------------------------------------------------------
  // The prompt
  // ---------------------------------------------------------------------------

  /** Which research the prompt asks for. */
  datatype Research = ReadSource | SearchWeb | WriteDirectly

  /** A truthy `source_url` wins; otherwise a `source` of exactly "web_research" asks for a search. */
  function ResearchFor(idea: Record): (r: Research)
    ensures r == ReadSource <==> "source_url" in idea && Truthy(idea["source_url"])
    ensures r == SearchWeb <==> !HasTruthy(idea, "source_url") && "source" in idea && idea["source"] == Str("web_research")
  {
    if HasTruthy(idea, "source_url") then ReadSource
    else if "source" in idea && idea["source"] == Str("web_research") then SearchWeb
    else WriteDirectly
  }

  function Field(idea: Record, key: string): string {
    Render(Get(idea, key, Str("")))
  }

  /** The lines of the prompt: the four fixed ones, the source lines when there is a URL, the hint. */
  function PostPromptLines(idea: Record): (r: seq<string>)
    ensures |r| == if ResearchFor(idea) == ReadSource then 7 else 5
    ensures r[0] == Opening
    ensures r[1] == "**Titel**: " + Field(idea, "title")
    ensures r[2] == "**Hook (erste Zeile)**: " + Field(idea, "hook")
    ensures r[3] == "**Winkel / Kernaussage**: " + Field(idea, "angle")
    ensures ResearchFor(idea) == ReadSource ==>
      && r[4] == "**Quell-URL**: " + Render(idea["source_url"])
      && r[5] == "**Quelle**: " + Render(Get(idea, "source_title", Get(idea, "source", Str(""))))
    ensures r[|r| - 1] == match ResearchFor(idea)
      case ReadSource => FetchHint
      case SearchWeb => SearchHint
      case WriteDirectly => DirectHint
  {
    var fixed := [
      Opening,
      "**Titel**: " + Field(idea, "title"),
      "**Hook (erste Zeile)**: " + Field(idea, "hook"),
      "**Winkel / Kernaussage**: " + Field(idea, "angle")];
    match ResearchFor(idea)
    case ReadSource =>
      fixed + [
        "**Quell-URL**: " + Render(idea["source_url"]),
        "**Quelle**: " + Render(Get(idea, "source_title", Get(idea, "source", Str("")))),
        FetchHint]
    case SearchWeb => fixed + [SearchHint]
    case WriteDirectly => fixed + [DirectHint]
  }

  /** `build_user_message`: the lines joined by newlines; the prompt ends with the chosen hint. */
  function BuildPostPrompt(idea: Record): (r: string)
    ensures StartsWith(r, Opening + "\n")
    ensures var hint := PostPromptLines(idea)[|PostPromptLines(idea)| - 1];
      |hint| <= |r| && r[|r| - |hint|..] == hint
    ensures r == Join("\n", PostPromptLines(idea))
  {
    var lines := PostPromptLines(idea);
    JoinFrame("\n", lines, Opening, lines[|lines| - 1]);
    Join("\n", lines)
  }

  /** The idea's title, hook and angle, and its source lines when it has a URL, all reach the prompt. */
  lemma PostPromptCarriesIdea(idea: Record)
    ensures Contains(BuildPostPrompt(idea), "**Titel**: " + Field(idea, "title"))
    ensures Contains(BuildPostPrompt(idea), "**Hook (erste Zeile)**: " + Field(idea, "hook"))
    ensures Contains(BuildPostPrompt(idea), "**Winkel / Kernaussage**: " + Field(idea, "angle"))
    ensures ResearchFor(idea) == ReadSource ==>
      && Contains(BuildPostPrompt(idea), "**Quell-URL**: " + Render(idea["source_url"]))
      && Contains(BuildPostPrompt(idea), "**Quelle**: " + Render(Get(idea, "source_title", Get(idea, "source", Str("")))))
  {
    var lines := PostPromptLines(idea);
    JoinContainsPart("\n", lines, 1);
    JoinContainsPart("\n", lines, 2);
    JoinContainsPart("\n", lines, 3);
    if ResearchFor(idea) == ReadSource {
      JoinContainsPart("\n", lines, 4);
      JoinContainsPart("\n", lines, 5);
    }
  }

  /** Only the six keys the prompt reads matter: any other key may be added or changed. */
  lemma PostPromptIgnoresOtherKeys(idea: Record, key: string, v: Value)
    requires key !in PromptKeys
    ensures BuildPostPrompt(idea[key := v]) == BuildPostPrompt(idea)
  {
    var idea2 := idea[key := v];
    assert forall k | k in PromptKeys :: (k in idea2 <==> k in idea) && (k in idea ==> idea2[k] == idea[k]);
    assert PostPromptLines(idea2) == PostPromptLines(idea);
  }

  /** An empty `source_url` counts as no URL at all. */
  lemma EmptySourceUrlIsAbsent(idea: Record)
    ensures BuildPostPrompt(idea["source_url" := Str("")]) == BuildPostPrompt(idea - {"source_url"})
  {
    var a, b := idea["source_url" := Str("")], idea - {"source_url"};
    assert forall k | k in PromptKeys - {"source_url"} :: (k in a <==> k in b) && (k in a ==> a[k] == b[k]);
    assert PostPromptLines(a) == PostPromptLines(b);
  }

  // ---------------------------------------------------------------------------
  // The result
  // ---------------------------------------------------------------------------

  /** `extract_post_text`: the text blocks joined and stripped. */
  function ExtractPostText(blocks: seq<Block>): (r: string)
    ensures r == Strip(FullText(blocks))
    ensures Trimmed(r)
    ensures r == [] <==> AllSpace(FullText(blocks))
    ensures |r| <= |FullText(blocks)|
  {
    Strip(FullText(blocks))
  }

  /** The tool_use blocks of the answer do not contribute to the post. */
  lemma {:induction false} ExtractPostTextSkipsToolUse(a: seq<Block>, b: seq<Block>, id: string, name: string, input: Record)
    ensures ExtractPostText(a + [ToolUseBlock(id, name, input)] + b) == ExtractPostText(a + b)
  {
    FullTextSkipsNonText(a, ToolUseBlock(id, name, input), b);
    FullTextAppend(a, b);
  }

  /** A post written with surrounding whitespace comes back exactly. */
  lemma ExtractPostTextOfPaddedPost(w1: string, post: string, w2: string)
    requires AllSpace(w1) && AllSpace(w2) && Trimmed(post)
    ensures ExtractPostText([TextBlock(w1 + post + w2)]) == post
  {
    StripPadded(w1, post, w2);
  }

  /** `count_words`: the number of whitespace-separated words, i.e. of places where a word starts. */
  function CountWords(text: string): (n: nat)
    ensures n == WordStarts(text)
    ensures n == 0 <==> AllSpace(text)
  {
    WordsCountStarts(text);
    |Words(text)|
  }

  // ---------------------------------------------------------------------------
  // The run
  // ---------------------------------------------------------------------------

  function FinishPost(blocks: seq<Block>): (r: Result<string, string>)
    ensures r.Success? && r.value == ExtractPostText(blocks)
  {
    Success(ExtractPostText(blocks))
  }

  /** `run_agent` of the post generator: six iterations, output forced after three tool calls. */
  function PostAgent(): (cfg: AgentConfig)
    ensures cfg.maxIterations == MaxIterations && cfg.forceOutputAfter == ForceOutputAfter
    ensures cfg.maxTokens == MaxTokens && cfg.nudge == NudgeText
    ensures cfg.forceOutputAfter < cfg.maxIterations
    ensures cfg.maxRetries == DefaultMaxRetries
    ensures ExhaustedMessage(cfg) == "Post generator did not produce output after 6 iterations"
    ensures forall blocks :: cfg.finalize(blocks) == Success(ExtractPostText(blocks))
  {
    AgentConfig(MaxIterations, ForceOutputAfter, MaxTokens, DefaultMaxRetries, NudgeText, ExhaustionPrefix, FinishPost)
  }

  /**
    What any run of the post generator's loop guarantees, whatever its prompt
    and tools: every `end_turn` answer is accepted, so the run never fails on
    the output's format; a success is the stripped text of the last answer.
  */
  lemma PostRunFacts(prompt: string, client: nat -> CallOutcome, exec: Executor,
                     result: Result<string, AgentFailure>, turns: seq<Turn>)
    requires IsRun(PostAgent(), prompt, client, exec, turns)
    requires Concluded(PostAgent(), exec, turns, result)
    ensures 1 <= |turns| <= MaxIterations
    ensures forall k | 0 <= k < |turns| :: turns[k].request.tools.None? <==> turns[k].countBefore >= ForceOutputAfter
    ensures result.Success? <==> Last(turns).reply.Answered? && Last(turns).reply.response.stopReason == "end_turn"
    ensures result.Success? ==> result.value == ExtractPostText(Last(turns).reply.response.content) && Trimmed(result.value)
    ensures result.Failure? ==> !result.error.OutputFormat?
    ensures result.Failure? && result.error.RuntimeError? ==>
      result.error.message == "Post generator did not produce output after 6 iterations"
    ensures result == Failure(NoResponse) <==> Last(turns).reply.ReturnedNone?
    ensures (result.Failure? && result.error.ApiFailure?) <==> Last(turns).reply.Failed?
    ensures (result.Failure? && result.error.ToolArgumentMissing?) <==>
      && Last(turns).reply.Answered?
      && Last(turns).reply.response.stopReason == "tool_use"
      && RunTools(Last(turns).countBefore, Last(turns).reply.response.content, exec).Failure?
    ensures (result.Failure? && result.error.RuntimeError?) <==>
      || Resumes(exec, Last(turns))
      || (&& Last(turns).reply.Answered?
          && Last(turns).reply.response.stopReason != "end_turn"
          && Last(turns).reply.response.stopReason != "tool_use")
  {
    var cfg := PostAgent();
    RunShape(cfg, prompt, client, exec, turns, result);
    ConcludedResult(cfg, exec, turns, result);
    ConcludedFailure(cfg, exec, turns, result);
  }

  /** The post generator's run on the prompt of one idea, with the real tools. */
  method GeneratePost(idea: Record, client: nat -> CallOutcome, net: Network)
    returns (result: Result<string, AgentFailure>, turns: seq<Turn>)
    ensures IsRun(PostAgent(), BuildPostPrompt(idea), client, NetworkExecutor(net), turns)
    ensures Concluded(PostAgent(), NetworkExecutor(net), turns, result)
    ensures 1 <= |turns| <= MaxIterations
    ensures forall k | 0 <= k < |turns| :: turns[k].request.tools.None? <==> turns[k].countBefore >= ForceOutputAfter
    ensures result.Success? <==> Last(turns).reply.Answered? && Last(turns).reply.response.stopReason == "end_turn"
    ensures result.Success? ==> result.value == ExtractPostText(Last(turns).reply.response.content) && Trimmed(result.value)
    ensures result.Failure? ==> !result.error.OutputFormat?
    ensures result.Failure? && result.error.RuntimeError? ==>
      result.error.message == "Post generator did not produce output after 6 iterations"
  {
    var prompt := BuildPostPrompt(idea);
    var exec := NetworkExecutor(net);
    result, turns := RunAgent(PostAgent(), prompt, client, exec);
    PostRunFacts(prompt, client, exec, result, turns);
  }
}

=== FILE: response_parser.dfy ===
/**
  `parse_ideas_from_response`: which part of the model's final text is handed
  to `json.loads`. First the leftmost match of the fenced-block pattern
  ```` ```(?:json)?\s*(\[[\s\S]*?\])\s*``` ```` (its group), otherwise the
  greedy span `(\[[\s\S]*\])` from the first `[` to the last `]`, otherwise a
  ValueError quoting at most 500 characters of the text. JSON decoding itself
  is not modelled: the parser returns the selected text.
*/
module ResponseParser {
  import opened Wrappers
  import opened Text
  import opened Conversation

  const Fence: string := "```"

  // ---------------------------------------------------------------------------
  // The fenced pattern
  // ---------------------------------------------------------------------------

  /**
    Where the bracket must stand for a fence opening at `s`: after the three
    backticks, the optional `json` label and the whitespace run. Matching is
    deterministic up to here: `(?:json)?` first tries the label, and without
    it the next character would have to be whitespace or `[`, which `j` is
    not; `\s*` takes the whole run because `[` is not whitespace.
  */
  function ArrayStartAfter(text: string, s: nat): (q: nat)
    requires OccursAt(text, Fence, s)
    ensures s + |Fence| <= q <= |text|
    ensures q < |text| ==> !IsSpace(text[q])
    ensures var p := if OccursAt(text, "json", s + 3) then s + 7 else s + 3;
      p <= q && forall k | p <= k < q :: IsSpace(text[k])
  {
    var p := if OccursAt(text, "json", s + 3) then s + 7 else s + 3;
    var n := LeadingSpaces(text[p..]);
    assert forall k | p <= k < p + n :: text[k] == text[p..][..n][k - p];
    p + n
  }

  /** From position `i`: optional whitespace, then a closing fence (`\s*````). */
  predicate ClosesAt(text: string, i: nat)
    requires i <= |text|
  {
    OccursAt(text, Fence, i + LeadingSpaces(text[i..]))
  }

  /** The pattern matches from position `s` with the array group ending at the `]` at `e`. */
  predicate FenceMatch(text: string, s: nat, e: nat) {
    && OccursAt(text, Fence, s)
    && ArrayStartAfter(text, s) < e < |text|
    && text[ArrayStartAfter(text, s)] == '['
    && text[e] == ']'
    && ClosesAt(text, e + 1)
  }

  /** The least `i` in `[from, bound)` with `p(i)`: how a regular-expression search scans positions. */
  function FirstWhere(p: nat -> bool, from: nat, bound: nat): (r: Option<nat>)
    ensures r.Some? ==> from <= r.value < bound && p(r.value)
    ensures forall i | from <= i < (if r.Some? then r.value else bound) :: !p(i)
    decreases bound - from
  {
    if from >= bound then None
    else if p(from) then Some(from)
    else FirstWhere(p, from + 1, bound)
  }

  /** Any position satisfying `p` with none before it is the one found. */
  lemma FirstWhereFinds(p: nat -> bool, from: nat, bound: nat, i: nat)
    requires from <= i < bound && p(i)
    requires forall j | from <= j < i :: !p(j)
    ensures FirstWhere(p, from, bound) == Some(i)
  {
    var r := FirstWhere(p, from, bound);
    assert r.Some? && !(r.value < i) && !(i < r.value);
  }

  /** The lazy `[\s\S]*?`: the smallest `e` that completes a match from `s`. */
  function CloseFrom(text: string, s: nat): Option<nat> {
    FirstWhere((e: nat) => FenceMatch(text, s, e), 0, |text|)
  }

  /** `re.search`: the leftmost start with a match, and the match the lazy group finds there. */
  function FenceFrom(text: string): (r: Option<(nat, nat)>)
    ensures r.Some? ==> r.value.0 < |text| && CloseFrom(text, r.value.0) == Some(r.value.1)
  {
    match FirstWhere((i: nat) => CloseFrom(text, i).Some?, 0, |text|)
    case None => None
    case Some(i) => Some((i, CloseFrom(text, i).value))
  }

  /** The match found by the lazy group at `s` is one, and the first. */
  lemma CloseFromSpec(text: string, s: nat)
    ensures CloseFrom(text, s).Some? ==> FenceMatch(text, s, CloseFrom(text, s).value)
    ensures forall e | 0 <= e < (if CloseFrom(text, s).Some? then CloseFrom(text, s).value else |text|)
      :: !FenceMatch(text, s, e)
  {
    var p := (e: nat) => FenceMatch(text, s, e);
    var r := FirstWhere(p, 0, |text|);
    forall e | 0 <= e < (if r.Some? then r.value else |text|) ensures !FenceMatch(text, s, e) {
      assert !p(e);
    }
  }

  /**
    The search finds a match, with the first `]` that completes one from its
    start, and no earlier start has any match.
  */
  lemma FenceFromSpec(text: string)
    ensures FenceFrom(text).Some? ==>
      && FenceMatch(text, FenceFrom(text).value.0, FenceFrom(text).value.1)
      && forall e | 0 <= e < FenceFrom(text).value.1 :: !FenceMatch(text, FenceFrom(text).value.0, e)
    ensures forall i, e | 0 <= i < (if FenceFrom(text).Some? then FenceFrom(text).value.0 else |text|) && 0 <= e < |text|
      :: !FenceMatch(text, i, e)
  {
    var p := (i: nat) => CloseFrom(text, i).Some?;
    var r := FirstWhere(p, 0, |text|);
    if r.Some? {
      CloseFromSpec(text, r.value);
    }
    forall i, e | 0 <= i < (if r.Some? then r.value else |text|) && 0 <= e < |text| ensures !FenceMatch(text, i, e) {
      assert !p(i);
      CloseFromSpec(text, i);
    }
  }

  /** The group of the first fenced match, if there is one. */
  function FencedArray(text: string): (r: Option<string>)
    ensures r.Some? ==> Bracketed(text, r.value)
  {
    match FenceFrom(text)
    case None => None
    case Some((s, e)) =>
      FenceFromSpec(text);
      FencedSelection(text, s, e);
      Some(text[ArrayStartAfter(text, s)..e + 1])
  }

  /** There is no fenced array exactly when the pattern matches nowhere. */
  lemma FencedArrayNone(text: string)
    ensures FencedArray(text).None? <==> forall s, e | 0 <= s < |text| && 0 <= e < |text| :: !FenceMatch(text, s, e)
  {
    FenceFromSpec(text);
  }

  // ---------------------------------------------------------------------------
  // The greedy pattern
  // ---------------------------------------------------------------------------

  /** Index of the first `c` in `text`, or `|text|`. */
  function FirstIndex(text: string, c: char): (i: nat)
    ensures i <= |text| && (i < |text| ==> text[i] == c)
    ensures forall j | 0 <= j < i :: text[j] != c
  {
    if text == [] then 0
    else if text[0] == c then 0
    else 1 + FirstIndex(text[1..], c)
  }

  /** Index of the last `c` in `text`, or -1. */
  function LastIndex(text: string, c: char): (i: int)
    ensures -1 <= i < |text| && (i >= 0 ==> text[i] == c)
    ensures forall j | i < j < |text| :: text[j] != c
  {
    if text == [] then -1
    else if text[|text| - 1] == c then |text| - 1
    else LastIndex(text[..|text| - 1], c)
  }

  /** Some `[` stands before some `]`. */
  predicate HasBracketPair(text: string) {
    exists i, j | 0 <= i < j < |text| :: text[i] == '[' && text[j] == ']'
  }

  /**
    `re.search(r"(\[[\s\S]*\])", text)`: the leftmost `[` that has a `]`
    after it is the first `[`, and the greedy body runs to the last `]`.
  */
  function ArraySpan(text: string): (r: Option<string>)
    ensures r.Some? <==> HasBracketPair(text)
    ensures r.Some? ==> r.value == text[FirstIndex(text, '[')..LastIndex(text, ']') + 1]
  {
    var a := FirstIndex(text, '[');
    var b := LastIndex(text, ']');
    if a < b then Some(text[a..b + 1]) else None
  }

  // ---------------------------------------------------------------------------
  // The parser
  // ---------------------------------------------------------------------------

  const ParseErrorPrefix: string := "Could not parse JSON array from response. Raw text (first 500 chars):\n"
  const ExcerptCap: nat := 500

  /** A fenced match is itself a bracket pair, so the fallback never fails after a fence matched. */
  lemma FenceImpliesBracketPair(text: string, s: nat, e: nat)
    requires FenceMatch(text, s, e)
    ensures HasBracketPair(text)
  {
    var q := ArrayStartAfter(text, s);
    assert text[q] == '[' && text[e] == ']';
  }

  /** `a` is a piece of `text` that opens with `[` and closes with `]`. */
  predicate Bracketed(text: string, a: string) {
    && |a| >= 2 && a[0] == '[' && a[|a| - 1] == ']'
    && HasBracketPair(text)
    && exists i | 0 <= i <= |text| - |a| :: OccursAt(text, a, i)
  }

  /** A slice running from a `[` to a later `]` is a bracketed piece of the text. */
  lemma BracketedSlice(text: string, x: nat, y: nat)
    requires x < y < |text| && text[x] == '[' && text[y] == ']'
    ensures Bracketed(text, text[x..y + 1])
  {
    assert OccursAt(text, text[x..y + 1], x);
  }

  /** The fenced group is a bracketed piece of the text. */
  lemma FencedSelection(text: string, s: nat, e: nat)
    requires FenceMatch(text, s, e)
    ensures Bracketed(text, text[ArrayStartAfter(text, s)..e + 1])
  {
    BracketedSlice(text, ArrayStartAfter(text, s), e);
  }

  /** The greedy fallback and the error. */
  function Fallback(text: string): (r: Result<string, string>)
    ensures r.Success? ==> ArraySpan(text).Some? && r.value == ArraySpan(text).value && Bracketed(text, r.value)
    ensures r.Failure? <==> !HasBracketPair(text)
    ensures r.Failure? ==> r.error == ParseErrorPrefix + Take(text, ExcerptCap)
    ensures r.Failure? ==> |r.error| <= |ParseErrorPrefix| + ExcerptCap
  {
    match ArraySpan(text)
    case Some(a) =>
      BracketedSlice(text, FirstIndex(text, '['), LastIndex(text, ']'));
      Success(a)
    case None => Failure(ParseErrorPrefix + Take(text, ExcerptCap))
  }

  /**
    The text `json.loads` would receive, or the ValueError message. The
    selection is a piece of the text that opens with `[` and closes with `]`;
    the fenced array wins whenever there is one; the parser fails exactly when
    no `[` stands before a `]`.
  */
  function SelectArray(text: string): (r: Result<string, string>)
    ensures FencedArray(text).Some? ==> r == Success(FencedArray(text).value)
    ensures FencedArray(text).None? ==> r == Fallback(text)
    ensures r.Failure? <==> !HasBracketPair(text)
    ensures r.Success? ==> Bracketed(text, r.value)
    ensures r.Failure? ==> r.error == ParseErrorPrefix + Take(text, ExcerptCap)
  {
    match FencedArray(text)
    case Some(a) => Success(a)
    case None => Fallback(text)
  }

  /** `parse_ideas_from_response`: the selection made from all text blocks of the response. */
  function ParseIdeas(blocks: seq<Block>): (r: Result<string, string>)
    ensures r.Failure? <==> !HasBracketPair(FullText(blocks))
    ensures r.Success? ==> Bracketed(FullText(blocks), r.value)
  {
    SelectArray(FullText(blocks))
  }

  // ---------------------------------------------------------------------------
  // The two shapes the model is asked to produce
  // ---------------------------------------------------------------------------

  predicate NoChar(s: string, c: char) {
    forall i | 0 <= i < |s| :: s[i] != c
  }

  /**
    A reply that puts the array in a ```` ```json ```` fence (after text free of
    backticks) yields exactly that array, whatever brackets follow the fence.
  */
  lemma FencedArrayWins(pre: string, ws1: string, body: string, ws2: string, post: string)
    requires NoChar(pre, '`') && NoChar(body, ']') && AllSpace(ws1) && AllSpace(ws2)
    ensures var text := pre + Fence + "json" + ws1 + "[" + body + "]" + ws2 + Fence + post;
      FencedArray(text) == Some("[" + body + "]")
  {
    var text := pre + Fence + "json" + ws1 + "[" + body + "]" + ws2 + Fence + post;
    var q := |pre| + 7 + |ws1|;
    var e := q + 1 + |body|;
    FencedShape(pre, ws1, body, ws2, post, text);
    FencedFound(text, pre, ws1, body, ws2, |pre|, q, e);
    FencedArrayOf(text, |pre|, e);
    BracketSlice(text, q, e, body);
  }

  lemma FencedArrayOf(text: string, s: nat, e: nat)
    requires FenceFrom(text) == Some((s, e))
    ensures FenceMatch(text, s, e)
    ensures FencedArray(text) == Some(text[ArrayStartAfter(text, s)..e + 1])
  {
    FenceFromSpec(text);
  }

  lemma BracketSlice(text: string, q: nat, e: nat, body: string)
    requires q < e < |text| && text[q] == '[' && text[q + 1..e] == body && text[e] == ']'
    ensures text[q..e + 1] == "[" + body + "]"
  {
    assert text[q..e + 1] == [text[q]] + text[q + 1..e] + [text[e]];
  }

  /** The same, stated on the positions of the pieces rather than on the concatenation. */
  lemma FencedFound(text: string, pre: string, ws1: string, body: string, ws2: string, s: nat, q: nat, e: nat)
    requires NoChar(pre, '`') && NoChar(body, ']') && AllSpace(ws1) && AllSpace(ws2)
    requires s == |pre| && q == s + 7 + |ws1| && e == q + 1 + |body| && e + 1 + |ws2| + 3 <= |text|
    requires text[s..s + 3] == Fence && text[s + 3..s + 7] == "json" && text[s + 7..q] == ws1
    requires text[q] == '[' && text[q + 1..e] == body && text[e] == ']'
    requires text[e + 1..e + 1 + |ws2|] == ws2 && text[e + 1 + |ws2|..e + 1 + |ws2| + 3] == Fence
    requires text[..s] == pre
    ensures FenceFrom(text) == Some((s, e)) && ArrayStartAfter(text, s) == q
  {
    FenceMatchParts(text, s, q, e, |ws1|, |ws2|);
    NoFenceBefore(text, pre);
    NoEarlierClose(text, s, q, e, body);
    FenceFromFinds(text, s, e);
  }

  /** Text free of backticks cannot hold the start of a match. */
  lemma NoFenceBefore(text: string, pre: string)
    requires NoChar(pre, '`') && pre <= text
    ensures forall i, e | 0 <= i < |pre| && 0 <= e < |text| :: !FenceMatch(text, i, e)
  {
    forall i, e | 0 <= i < |pre| && 0 <= e < |text| ensures !FenceMatch(text, i, e) {
      assert text[i] == pre[i];
    }
  }

  /** With no `]` in the body, no `]` before the one closing it can end the lazy group. */
  lemma NoEarlierClose(text: string, s: nat, q: nat, e: nat, body: string)
    requires FenceMatch(text, s, e) && q == ArrayStartAfter(text, s)
    requires e == q + 1 + |body| && text[q + 1..e] == body && NoChar(body, ']')
    ensures forall e' | 0 <= e' < e :: !FenceMatch(text, s, e')
  {
    forall e' | 0 <= e' < e ensures !FenceMatch(text, s, e') {
      if q < e' {
        assert text[e'] == body[e' - q - 1];
      }
    }
  }

  /** The positions of the pieces of a fenced reply. */
  lemma FencedShape(pre: string, ws1: string, body: string, ws2: string, post: string, text: string)
    requires text == pre + Fence + "json" + ws1 + "[" + body + "]" + ws2 + Fence + post
    ensures var s := |pre|; var q := s + 7 + |ws1|; var e := q + 1 + |body|;
      && e + 1 + |ws2| + 3 <= |text|
      && text[s..s + 3] == Fence && text[s + 3..s + 7] == "json" && text[s + 7..q] == ws1
      && text[q] == '[' && text[q + 1..e] == body && text[e] == ']'
      && text[e + 1..e + 1 + |ws2|] == ws2 && text[e + 1 + |ws2|..e + 1 + |ws2| + 3] == Fence
      && text[..s] == pre
  {
  }

  /** The match at `s` follows from the pieces: label, whitespace runs, brackets, closing fence. */
  lemma FenceMatchParts(text: string, s: nat, q: nat, e: nat, w1: nat, w2: nat)
    requires s + 7 + w1 == q && q < e && e + 1 + w2 + 3 <= |text|
    requires text[s..s + 3] == Fence && text[s + 3..s + 7] == "json"
    requires AllSpace(text[s + 7..q]) && text[q] == '['
    requires text[e] == ']' && AllSpace(text[e + 1..e + 1 + w2]) && text[e + 1 + w2..e + 1 + w2 + 3] == Fence
    ensures FenceMatch(text, s, e) && ArrayStartAfter(text, s) == q
  {
    OpeningParts(text, s, q);
    ClosingParts(text, e + 1, w2);
  }

  /** A fence, the `json` label and a whitespace run put the array's `[` at `q`. */
  lemma OpeningParts(text: string, s: nat, q: nat)
    requires s + 7 <= q < |text|
    requires text[s..s + 3] == Fence && text[s + 3..s + 7] == "json"
    requires AllSpace(text[s + 7..q]) && text[q] == '['
    ensures OccursAt(text, Fence, s) && ArrayStartAfter(text, s) == q
  {
    assert OccursAt(text, "json", s + 3);
    var u := text[s + 7..];
    assert u == text[s + 7..q] + text[q..];
    LeadingSpacesOfPadded(text[s + 7..q], text[q..]);
  }

  /** A whitespace run of length `w` and then a fence close the match from `i`. */
  lemma ClosingParts(text: string, i: nat, w: nat)
    requires i + w + 3 <= |text|
    requires AllSpace(text[i..i + w]) && text[i + w..i + w + 3] == Fence
    ensures ClosesAt(text, i)
  {
    var v, u := text[i..], text[i + w..];
    assert v == text[i..i + w] + u;
    assert u[0] == Fence[0] == '`';
    LeadingSpacesOfPadded(text[i..i + w], u);
  }

  /** The search finds the match at `(s, e)` when nothing earlier matches. */
  lemma FenceFromFinds(text: string, s: nat, e: nat)
    requires FenceMatch(text, s, e)
    requires forall i, e' | 0 <= i < s && 0 <= e' < |text| :: !FenceMatch(text, i, e')
    requires forall e' | 0 <= e' < e :: !FenceMatch(text, s, e')
    ensures FenceFrom(text) == Some((s, e))
  {
    var m := (e': nat) => FenceMatch(text, s, e');
    FirstWhereFinds(m, 0, |text|, e);
    var p := (i: nat) => CloseFrom(text, i).Some?;
    forall i | 0 <= i < s ensures !p(i) {
      CloseFromSpec(text, i);
    }
    FirstWhereFinds(p, 0, |text|, s);
  }

  /**
    Without a fence, the text from the first `[` to the last `]` is selected,
    whatever brackets stand in between.
  */
  lemma GreedySpanOfBareArray(pre: string, mid: string, post: string)
    requires NoChar(pre, '[') && NoChar(post, ']')
    ensures ArraySpan(pre + "[" + mid + "]" + post) == Some("[" + mid + "]")
  {
    var text := pre + "[" + mid + "]" + post;
    var a, b := |pre|, |pre| + 1 + |mid|;
    assert text[a] == '[' && text[b] == ']';
    assert forall j | 0 <= j < a :: text[j] == pre[j];
    assert forall j | b < j < |text| :: text[j] == post[j - b - 1];
    assert FirstIndex(text, '[') == a;
    assert LastIndex(text, ']') == b;
    assert text[a..b + 1] == "[" + mid + "]";
  }
}

=== FILE: retry.dfy ===
/**
  `_create_with_retry`: call the model, and on an "overloaded" status (529)
  wait and try again, at most `max_retries` attempts in all. The client is an
  oracle indexed by the running number of the call; `time.sleep` is replaced by
  the list of delays it would have been asked for.
*/
module Retry {
  import opened Conversation

  datatype ApiError = StatusError(status: int) | ConnectionError(message: string)

  /** What one `client.messages.create` call does. */
  datatype CallOutcome = Returned(response: Response) | Raised(error: ApiError)

  /**
    What the wrapper hands back: a response, the error it re-raised, or Python's
    implicit `None` when the attempt loop runs zero times.
  */
  datatype RetryResult = Answered(response: Response) | Failed(error: ApiError) | ReturnedNone

  const OverloadedStatus: int := 529
  const DefaultMaxRetries: int := 3

  function Pow2(n: nat): (p: nat)
    ensures p >= 1
  {
    if n == 0 then 1 else 2 * Pow2(n - 1)
  }

  /** Seconds slept after the failed attempt number `attempt` (counting from 0). */
  function BackoffDelay(attempt: nat): nat {
    20 * Pow2(attempt)
  }

  /** The outcome is an overload and attempts remain, so the wrapper sleeps and retries. */
  predicate Retryable(o: CallOutcome, attempt: nat, maxRetries: int) {
    o.Raised? && o.error.StatusError? && o.error.status == OverloadedStatus && attempt < maxRetries - 1
  }

  /** The result the wrapper gives for the outcome that ended the attempts. */
  function Settle(o: CallOutcome): RetryResult {
    match o
    case Returned(resp) => Answered(resp)
    case Raised(e) => Failed(e)
  }

  /**
    The whole contract of the wrapper, starting at call number `start`: no call
    and `None` when `maxRetries <= 0`; otherwise every attempt but the last was a
    retryable overload followed by a sleep of `BackoffDelay(attempt)`, and the
    last attempt's outcome is returned or re-raised.
  */
  predicate RetrySpec(client: nat -> CallOutcome, start: nat, maxRetries: int,
                      r: RetryResult, calls: nat, delays: seq<nat>)
  {
    && (maxRetries <= 0 <==> r.ReturnedNone?)
    && (maxRetries <= 0 ==> calls == 0 && delays == [])
    && (maxRetries > 0 ==>
          && 1 <= calls <= maxRetries
          && |delays| == calls - 1
          && (forall i | 0 <= i < |delays| :: delays[i] == BackoffDelay(i) && Retryable(client(start + i), i, maxRetries))
          && !Retryable(client(start + calls - 1), calls - 1, maxRetries)
          && r == Settle(client(start + calls - 1)))
  }

  method CreateWithRetry(client: nat -> CallOutcome, start: nat, maxRetries: int)
    returns (r: RetryResult, calls: nat, delays: seq<nat>)
    ensures RetrySpec(client, start, maxRetries, r, calls, delays)
  {
    calls := 0;
    delays := [];
    r := ReturnedNone;
    var attempt := 0;
    while attempt < maxRetries
      invariant 0 <= attempt && (attempt == 0 || attempt < maxRetries)
      invariant calls == attempt && |delays| == attempt
      invariant forall i | 0 <= i < attempt :: delays[i] == BackoffDelay(i) && Retryable(client(start + i), i, maxRetries)
      invariant r == ReturnedNone
      decreases maxRetries - attempt
    {
      var o := client(start + attempt);
      calls := calls + 1;
      if Retryable(o, attempt, maxRetries) {
        delays := delays + [BackoffDelay(attempt)];
        attempt := attempt + 1;
      } else {
        r := Settle(o);
        return;
      }
    }
  }

  /**
    With the default of three attempts the wrapper sleeps at most twice, 20 then
    40 seconds, never more than 60 seconds in all.
  */
  lemma DefaultRetryWaitsAtMostSixty(client: nat -> CallOutcome, start: nat, r: RetryResult, calls: nat, delays: seq<nat>)
    requires RetrySpec(client, start, DefaultMaxRetries, r, calls, delays)
    ensures calls <= 3 && delays <= [20, 40]
  {
    assert BackoffDelay(1) == 40 by {
      assert Pow2(1) == 2;
    }
    assert |delays| <= 2;
    if |delays| >= 1 {
      assert delays[0] == 20;
    }
  }
}

=== FILE: slack_formatter.dfy ===
/**
  The Slack messages (`slack_formatter.py`): the ideas overview with one
  "Ausarbeiten" button per idea, the finished post, the error notice, and
  which HTTP posts are made to deliver them. The date in the header is a
  parameter; `json.dumps` of a button's payload is not interpreted, so the
  payload is kept as its parts; the HTTP calls are returned as a list instead
  of being sent, and whether the `response_url` post succeeded is an input.
*/
module SlackFormatter {
  import opened Text
  import opened Values
  import PostGenerator

  // ---------------------------------------------------------------------------
  // Lookup tables
  // ---------------------------------------------------------------------------

  const DefaultTone := "🟣"

  const ToneEmoji: map<string, string> :=
    map["direkt" := "🎯", "ironisch" := "😏", "pragmatisch" := "🔧", "thought_leader" := "💡"]

  const FormatEmoji: map<string, string> :=
    map["story" := "📖", "erklärer" := "📚", "hot_take" := "🔥", "zahlen_analyse" := "📊", "mini_framework" := "🔧"]

  const SourceLabels: map<string, string> :=
    map["rss_openai" := "OpenAI Blog", "rss_anthropic" := "Anthropic News",
        "email_podcast" := "Startup Insider", "web_research" := "Web-Recherche"]

  /** `table.get(v, default)`: only a string can be a key of these tables. */
  function Lookup(table: map<string, string>, v: Value, default: string): string {
    if v.Str? && v.s in table then table[v.s] else default
  }

  predicate Known(table: map<string, string>, v: Value) {
    v.Str? && v.s in table
  }

  /** The tone emoji; the purple circle for an absent or unknown tone, and only then. */
  function Tone(idea: Record): (r: string)
    ensures r == DefaultTone <==> !Known(ToneEmoji, Get(idea, "estimated_tone", Str("")))
    ensures Known(ToneEmoji, Get(idea, "estimated_tone", Str(""))) ==> r in ToneEmoji.Values
    ensures var v := Get(idea, "estimated_tone", Str("")); Known(ToneEmoji, v) ==> r == ToneEmoji[v.s]
  {
    Lookup(ToneEmoji, Get(idea, "estimated_tone", Str("")), DefaultTone)
  }

  /** The format emoji; empty exactly for an absent or unknown format. */
  function Format(idea: Record): (r: string)
    ensures r == "" <==> !Known(FormatEmoji, Get(idea, "post_format", Str("")))
    ensures r != "" ==> r in FormatEmoji.Values
    ensures var v := Get(idea, "post_format", Str("")); Known(FormatEmoji, v) ==> r == FormatEmoji[v.s]
  {
    Lookup(FormatEmoji, Get(idea, "post_format", Str("")), "")
  }

  /** The source's display name: the label of a known source, the raw value otherwise. */
  function SourceLabel(idea: Record): (r: string)
    ensures !Known(SourceLabels, Get(idea, "source", Str(""))) ==> r == Render(Get(idea, "source", Str("")))
    ensures Known(SourceLabels, Get(idea, "source", Str(""))) ==> r in SourceLabels.Values
    ensures var v := Get(idea, "source", Str("")); Known(SourceLabels, v) ==> r == SourceLabels[v.s]
  {
    var source := Get(idea, "source", Str(""));
    Lookup(SourceLabels, source, Render(source))
  }

  /** Distinct keys of the table have distinct entries, so an entry names its key. */
  predicate Injective(table: map<string, string>) {
    forall a, b | a in table && b in table && table[a] == table[b] :: a == b
  }

  lemma ToneEmojiInjective()
    ensures Injective(ToneEmoji)
  {
  }

  lemma FormatEmojiInjective()
    ensures Injective(FormatEmoji)
  {
  }

  lemma SourceLabelsInjective()
    ensures Injective(SourceLabels)
  {
  }

  /** Two known values look up the same entry exactly when they are the same value. */
  lemma LookupNamesKey(table: map<string, string>, v: Value, w: Value, default: string)
    requires Injective(table) && Known(table, v) && Known(table, w)
    ensures Lookup(table, v, default) == Lookup(table, w, default) <==> v == w
  {
  }

  /** Two ideas with known tones get the same tone emoji exactly when they have the same tone. */
  lemma ToneNamesTone(a: Record, b: Record)
    requires Known(ToneEmoji, Get(a, "estimated_tone", Str("")))
    requires Known(ToneEmoji, Get(b, "estimated_tone", Str("")))
    ensures Tone(a) == Tone(b) <==> Get(a, "estimated_tone", Str("")) == Get(b, "estimated_tone", Str(""))
  {
    ToneEmojiInjective();
    LookupNamesKey(ToneEmoji, Get(a, "estimated_tone", Str("")), Get(b, "estimated_tone", Str("")), DefaultTone);
  }

  /** Two ideas with known formats get the same format emoji exactly when they have the same format. */
  lemma FormatNamesFormat(a: Record, b: Record)
    requires Known(FormatEmoji, Get(a, "post_format", Str("")))
    requires Known(FormatEmoji, Get(b, "post_format", Str("")))
    ensures Format(a) == Format(b) <==> Get(a, "post_format", Str("")) == Get(b, "post_format", Str(""))
  {
    FormatEmojiInjective();
    LookupNamesKey(FormatEmoji, Get(a, "post_format", Str("")), Get(b, "post_format", Str("")), "");
  }

  /** Two ideas from known sources get the same label exactly when they have the same source. */
  lemma SourceLabelNamesSource(a: Record, b: Record)
    requires Known(SourceLabels, Get(a, "source", Str("")))
    requires Known(SourceLabels, Get(b, "source", Str("")))
    ensures SourceLabel(a) == SourceLabel(b) <==> Get(a, "source", Str("")) == Get(b, "source", Str(""))
  {
    SourceLabelsInjective();
    var sa, sb := Get(a, "source", Str("")), Get(b, "source", Str(""));
    assert SourceLabel(a) == SourceLabels[sa.s] && SourceLabel(b) == SourceLabels[sb.s];
  }

  /** The emoji before the title: "format tone" when the format is known, the tone alone otherwise. */
  function Prefix(idea: Record): (r: string)
    ensures Format(idea) == "" ==> r == Tone(idea)
    ensures Format(idea) != "" ==> r == Format(idea) + " " + Tone(idea)
    ensures |Tone(idea)| <= |r| && r[|r| - |Tone(idea)|..] == Tone(idea)
  {
    var f := Format(idea);
    if f != "" then f + " " + Tone(idea) else Tone(idea)
  }

  /** The source line: the pin and the label, then the link when the idea has a URL. */
  function SourceText(idea: Record): (r: string)
    ensures StartsWith(r, "📌 " + SourceLabel(idea))
    ensures HasTruthy(idea, "source_url") ==> r == "📌 " + SourceLabel(idea) + " · <" + Render(idea["source_url"]) + "|Link>"
    ensures !HasTruthy(idea, "source_url") ==> r == "📌 " + SourceLabel(idea)
  {
    var base := "📌 " + SourceLabel(idea);
    if HasTruthy(idea, "source_url") then base + " · <" + Render(idea["source_url"]) + "|Link>" else base
  }

  // ---------------------------------------------------------------------------
  // Block Kit blocks
  // ---------------------------------------------------------------------------

  /**
    The blocks the messages use. `IdeaSection` is a section with its button:
    the button carries `idea_id` and the whole idea as its value.
  */
  datatype SlackBlock =
    | HeaderBlock(text: string)
    | ContextBlock(text: string)
    | Divider
    | SectionBlock(text: string)
    | IdeaSection(text: string, buttonText: string, actionId: string, ideaId: Value, idea: Record)

  const ActionPrefix := "ausarbeiten_"
  const ButtonText := "Ausarbeiten ✍️"

  function IdeaId(idea: Record): Value {
    Get(idea, "id", Num(0))
  }

  /** The button's `action_id`: the prefix and the rendered id (0 when absent). */
  function ActionId(idea: Record): (r: string)
    ensures StartsWith(r, ActionPrefix) && r[|ActionPrefix|..] == Render(IdeaId(idea))
  {
    ActionPrefix + Render(IdeaId(idea))
  }

  /** The handler can read a non-negative numeric id back out of the `action_id`. */
  lemma ActionIdNamesIdea(idea: Record, n: nat)
    requires IdeaId(idea) == Num(n)
    ensures IsDigits(ActionId(idea)[|ActionPrefix|..])
    ensures DigitsValue(ActionId(idea)[|ActionPrefix|..]) == n
  {
    NatToStringRoundTrip(n);
  }

  /** The bold title line of an idea's section, before the format badge. */
  function IdeaHead(idea: Record): string {
    Prefix(idea) + " *" + Render(IdeaId(idea)) + ". " + Render(Get(idea, "title", Str(""))) + "*"
  }

  /** The hook quote, the angle in italics and the source line, after the format badge. */
  function IdeaTail(idea: Record): string {
    "\n> " + Render(Get(idea, "hook", Str(""))) + "\n_" + Render(Get(idea, "angle", Str(""))) + "_\n" + SourceText(idea)
  }

  /**
    The text of an idea's section: title line, then the raw `post_format` in
    backticks when it is truthy and nothing otherwise, then hook quote, angle
    in italics and source line.
  */
  function IdeaText(idea: Record): (r: string)
    ensures |IdeaHead(idea)| + |IdeaTail(idea)| <= |r|
    ensures StartsWith(r, IdeaHead(idea))
    ensures r[|r| - |IdeaTail(idea)|..] == IdeaTail(idea)
    ensures var fmt := Get(idea, "post_format", Str(""));
      !Truthy(fmt) ==> |r| == |IdeaHead(idea)| + |IdeaTail(idea)|
    ensures var fmt := Get(idea, "post_format", Str(""));
      Truthy(fmt) ==> r[|IdeaHead(idea)|..|r| - |IdeaTail(idea)|] == "  `" + Render(fmt) + "`"
  {
    var formatLabel := Get(idea, "post_format", Str(""));
    var head, tail := IdeaHead(idea), IdeaTail(idea);
    var badge := if Truthy(formatLabel) then "  `" + Render(formatLabel) + "`" else "";
    var r := head + badge + tail;
    assert r[..|head|] == head;
    assert r[|head|..|r| - |tail|] == badge;
    assert r[|r| - |tail|..] == tail;
    r
  }

  function IdeaBlock(idea: Record): (b: SlackBlock)
    ensures b.IdeaSection? && b.actionId == ActionId(idea) && b.ideaId == IdeaId(idea) && b.idea == idea
    ensures b.text == IdeaText(idea) && b.buttonText == ButtonText
  {
    IdeaSection(IdeaText(idea), ButtonText, ActionId(idea), IdeaId(idea), idea)
  }

  /** Each element followed by a separator: `[x0, d, x1, d, ...]`. */
  function Interleave<T>(xs: seq<T>, d: T): (r: seq<T>)
    ensures |r| == 2 * |xs|
  {
    if xs == [] then [] else [xs[0], d] + Interleave(xs[1..], d)
  }

  /** Element `i` sits at index `2 i`, with the separator right after it. */
  lemma {:induction false} InterleaveAt<T>(xs: seq<T>, d: T, i: nat)
    requires i < |xs|
    ensures Interleave(xs, d)[2 * i] == xs[i] && Interleave(xs, d)[2 * i + 1] == d
    decreases i
  {
    if i > 0 {
      InterleaveAt(xs[1..], d, i - 1);
      assert xs[1..][i - 1] == xs[i];
    }
  }

  /** One section with its button per idea, each followed by a divider. */
  function IdeaBlocks(ideas: seq<Record>): (r: seq<SlackBlock>)
    ensures |r| == 2 * |ideas|
  {
    Interleave(seq(|ideas|, i requires 0 <= i < |ideas| => IdeaBlock(ideas[i])), Divider)
  }

  /** Idea `i` is at block `2 i`, followed by its divider. */
  lemma IdeaBlocksAt(ideas: seq<Record>, i: nat)
    requires i < |ideas|
    ensures IdeaBlocks(ideas)[2 * i] == IdeaBlock(ideas[i]) && IdeaBlocks(ideas)[2 * i + 1] == Divider
  {
    InterleaveAt(seq(|ideas|, i requires 0 <= i < |ideas| => IdeaBlock(ideas[i])), Divider, i);
  }

  /**
    `post_ideas_to_slack`'s message: header, count line, divider, and then one
    section with its button and one divider per idea.
  */
  function IdeasMessage(ideas: seq<Record>, today: string): (r: seq<SlackBlock>)
    ensures |r| == 3 + 2 * |ideas|
    ensures r[..3] == IdeasHeading(|ideas|, today)
    ensures r[3..] == IdeaBlocks(ideas)
  {
    IdeasHeading(|ideas|, today) + IdeaBlocks(ideas)
  }

  /** The three blocks above the ideas: title with the date, the count line, a divider. */
  function IdeasHeading(count: nat, today: string): (r: seq<SlackBlock>)
    ensures |r| == 3
    ensures r[0] == HeaderBlock("🟣 LinkedIn Post Ideen – " + today)
    ensures r[1] == ContextBlock(NatToString(count) + " Ideen · Klicke *Ausarbeiten* für einen vollständigen Post")
    ensures r[2] == Divider
  {
    [HeaderBlock("🟣 LinkedIn Post Ideen – " + today),
     ContextBlock(NatToString(count) + " Ideen · Klicke *Ausarbeiten* für einen vollständigen Post"),
     Divider]
  }

  /** The ideas appear in the given order: idea `i`, with its button, at block `3 + 2 i`, then a divider. */
  lemma IdeaButtonsInOrder(ideas: seq<Record>, today: string, i: nat)
    requires i < |ideas|
    ensures var m := IdeasMessage(ideas, today);
      && m[3 + 2 * i].IdeaSection? && m[3 + 2 * i].idea == ideas[i]
      && m[3 + 2 * i].text == IdeaText(ideas[i]) && m[3 + 2 * i].buttonText == ButtonText
      && m[3 + 2 * i].actionId == ActionPrefix + Render(IdeaId(ideas[i]))
      && m[4 + 2 * i] == Divider
  {
    var m := IdeasMessage(ideas, today);
    IdeaBlocksAt(ideas, i);
    assert m[3 + 2 * i] == m[3..][2 * i] && m[4 + 2 * i] == m[3..][2 * i + 1];
  }

  /** The number of buttons is the number of ideas. */
  function ButtonCount(blocks: seq<SlackBlock>): nat {
    if blocks == [] then 0 else (if blocks[0].IdeaSection? then 1 else 0) + ButtonCount(blocks[1..])
  }

  lemma {:induction false} ButtonCountOfInterleave(xs: seq<SlackBlock>)
    requires forall k | 0 <= k < |xs| :: xs[k].IdeaSection?
    ensures ButtonCount(Interleave(xs, Divider)) == |xs|
    decreases |xs|
  {
    if xs != [] {
      ButtonCountOfInterleave(xs[1..]);
      var rest := Interleave(xs[1..], Divider);
      var all := [xs[0], Divider] + rest;
      assert all[1..][1..] == rest;
    }
  }

  lemma ButtonCountOfIdeaBlocks(ideas: seq<Record>)
    ensures ButtonCount(IdeaBlocks(ideas)) == |ideas|
  {
    ButtonCountOfInterleave(seq(|ideas|, i requires 0 <= i < |ideas| => IdeaBlock(ideas[i])));
  }

  /** The overview holds exactly one button per idea. */
  lemma OneButtonPerIdea(ideas: seq<Record>, today: string)
    ensures ButtonCount(IdeasMessage(ideas, today)) == |ideas|
  {
    HeadingAddsNoButton(IdeasHeading(|ideas|, today), IdeaBlocks(ideas));
    ButtonCountOfIdeaBlocks(ideas);
  }

  lemma HeadingAddsNoButton(h: seq<SlackBlock>, body: seq<SlackBlock>)
    requires |h| == 3 && h[2] == Divider && h[0].HeaderBlock? && h[1].ContextBlock?
    ensures ButtonCount(h + body) == ButtonCount(body)
  {
    ButtonCountNone(h);
    ButtonCountAppend(h, body);
  }

  lemma {:induction false} ButtonCountNone(blocks: seq<SlackBlock>)
    requires forall k | 0 <= k < |blocks| :: !blocks[k].IdeaSection?
    ensures ButtonCount(blocks) == 0
    decreases |blocks|
  {
    if blocks != [] {
      ButtonCountNone(blocks[1..]);
    }
  }

  lemma {:induction false} ButtonCountAppend(a: seq<SlackBlock>, b: seq<SlackBlock>)
    ensures ButtonCount(a + b) == ButtonCount(a) + ButtonCount(b)
    decreases |a|
  {
    if a == [] {
      assert a + b == b;
    } else {
      assert (a + b)[1..] == a[1..] + b;
      ButtonCountAppend(a[1..], b);
    }
  }

  const ResultHeader := "✍️ Dein LinkedIn Post ist fertig!"
  const PasteHint := "_Kopiere den Text oben und paste ihn direkt in LinkedIn_ 👆"

  /**
    `post_result_to_slack`'s message: header, the idea's title ("?" when
    absent) with the word count, divider, the post in a code block, hint.
  */
  function ResultMessage(postText: string, idea: Record): (r: seq<SlackBlock>)
    ensures |r| == 5 && r[2] == Divider
    ensures r[0] == HeaderBlock(ResultHeader) && r[4] == ContextBlock(PasteHint)
    ensures r[1] == SectionBlock("*Idee:* " + Render(Get(idea, "title", Str("?"))) + " · "
                                 + NatToString(PostGenerator.CountWords(postText)) + " Wörter")
    ensures r[3] == SectionBlock("```\n" + postText + "\n```")
  {
    var words := PostGenerator.CountWords(postText);
    [HeaderBlock(ResultHeader),
     SectionBlock("*Idee:* " + Render(Get(idea, "title", Str("?"))) + " · " + NatToString(words) + " Wörter"),
     Divider,
     SectionBlock("```\n" + postText + "\n```"),
     ContextBlock(PasteHint)]
  }

  /** `post_error_to_slack`'s message: one section with the cross and the message. */
  function ErrorMessage(message: string): (r: seq<SlackBlock>)
    ensures |r| == 1 && r[0].SectionBlock? && StartsWith(r[0].text, "❌ ")
    ensures r[0].text[|"❌ "|..] == message
  {
    [SectionBlock("❌ " + message)]
  }

  // ---------------------------------------------------------------------------
  // Delivery
  // ---------------------------------------------------------------------------

  /** An HTTP post the formatter makes. */
  datatype Post =
    | ChatPostMessage(token: string, channel: string, blocks: seq<SlackBlock>)
    | ResponseUrlPost(url: string, blocks: seq<SlackBlock>, replaceOriginal: bool)

  /** `_post_blocks`: nothing is sent without both a token and a channel. */
  function PostBlocks(blocks: seq<SlackBlock>, token: string, channel: string): (r: seq<Post>)
    ensures r == [] <==> token == "" || channel == ""
    ensures r != [] ==> r == [ChatPostMessage(token, channel, blocks)]
  {
    if token == "" || channel == "" then [] else [ChatPostMessage(token, channel, blocks)]
  }

  /** `post_ideas_to_slack`: the overview goes out in one post, unless the token or the channel is missing. */
  function PostIdeas(ideas: seq<Record>, today: string, token: string, channel: string): (r: seq<Post>)
    ensures |r| <= 1
    ensures r == [] <==> token == "" || channel == ""
    ensures r != [] ==> r == [ChatPostMessage(token, channel, IdeasMessage(ideas, today))]
    ensures r != [] ==> |r[0].blocks| == 3 + 2 * |ideas|
  {
    PostBlocks(IdeasMessage(ideas, today), token, channel)
  }

  /** The posted overview carries every idea's button, in the order of the ideas, and no other button. */
  lemma PostIdeasCarriesEveryIdea(ideas: seq<Record>, today: string, token: string, channel: string, i: nat)
    requires token != "" && channel != "" && i < |ideas|
    ensures var r := PostIdeas(ideas, today, token, channel);
      && |r| == 1
      && r[0].blocks[3 + 2 * i].IdeaSection? && r[0].blocks[3 + 2 * i].idea == ideas[i]
      && r[0].blocks[3 + 2 * i].actionId == ActionPrefix + Render(IdeaId(ideas[i]))
      && ButtonCount(r[0].blocks) == |ideas|
  {
    IdeaButtonsInOrder(ideas, today, i);
    OneButtonPerIdea(ideas, today);
  }

  /** `post_error_to_slack`: the error section goes out in one post, unless the token or the channel is missing. */
  function PostError(message: string, token: string, channel: string): (r: seq<Post>)
    ensures |r| <= 1
    ensures r != [] ==> r[0].ChatPostMessage? && r[0].blocks == ErrorMessage(message)
    ensures r == [] <==> token == "" || channel == ""
    ensures r != [] ==> r == [ChatPostMessage(token, channel, ErrorMessage(message))]
  {
    PostBlocks(ErrorMessage(message), token, channel)
  }

  /**
    With a token and a channel, the error post carries the message itself: the
    message reads back from the section after the cross, so two error posts are
    the same exactly when their messages are.
  */
  lemma PostErrorNamesMessage(m1: string, m2: string, token: string, channel: string)
    requires token != "" && channel != ""
    ensures var r := PostError(m1, token, channel);
      |r| == 1 && r[0].token == token && r[0].channel == channel
      && r[0].blocks[0].text[|"❌ "|..] == m1
    ensures PostError(m1, token, channel) == PostError(m2, token, channel) <==> m1 == m2
  {
    var r1, r2 := PostError(m1, token, channel), PostError(m2, token, channel);
    if r1 == r2 {
      assert r1[0].blocks[0].text == r2[0].blocks[0].text;
    }
  }

  /**
    `post_result_to_slack`: the `response_url` is tried first when given,
    without replacing the original message; the Slack API is the fallback
    when there is no URL or the post to it failed (`urlAccepted` false).
  */
  function PostResult(postText: string, idea: Record, responseUrl: string, urlAccepted: bool,
                      token: string, channel: string): (r: seq<Post>)
    ensures |r| <= 2
    ensures responseUrl != "" <==> r != [] && r[0].ResponseUrlPost?
    ensures r != [] && r[0].ResponseUrlPost? ==> r[0] == ResponseUrlPost(responseUrl, ResultMessage(postText, idea), false)
    ensures (exists i | 0 <= i < |r| :: r[i].ChatPostMessage?) <==>
      (responseUrl == "" || !urlAccepted) && token != "" && channel != ""
    ensures forall i | 0 <= i < |r| :: r[i].blocks == ResultMessage(postText, idea)
    ensures forall i | 0 <= i < |r| && r[i].ChatPostMessage? ::
      i == |r| - 1 && r[i] == ChatPostMessage(token, channel, ResultMessage(postText, idea))
    ensures forall i | 0 < i < |r| :: r[i].ChatPostMessage?
  {
    var blocks := ResultMessage(postText, idea);
    var fallback := PostBlocks(blocks, token, channel);
    if responseUrl != "" then
      var r := [ResponseUrlPost(responseUrl, blocks, false)] + (if urlAccepted then [] else fallback);
      assert fallback != [] && !urlAccepted ==> r[1].ChatPostMessage?;
      r
    else
      assert fallback != [] ==> fallback[0].ChatPostMessage?;
      fallback
  }

  /**
    The result is delivered somewhere unless both routes are closed: nothing is
    posted exactly when there is no `response_url` and the token or the channel
    is missing. An accepted `response_url` post is the only post; otherwise the
    API fallback is exactly what `_post_blocks` sends for the same message.
  */
  lemma PostResultRoutes(postText: string, idea: Record, responseUrl: string, urlAccepted: bool,
                         token: string, channel: string)
    ensures var r := PostResult(postText, idea, responseUrl, urlAccepted, token, channel);
      r == [] <==> responseUrl == "" && (token == "" || channel == "")
    ensures var r := PostResult(postText, idea, responseUrl, urlAccepted, token, channel);
      responseUrl != "" && urlAccepted ==> |r| == 1
    ensures var r := PostResult(postText, idea, responseUrl, urlAccepted, token, channel);
      var fallback := PostBlocks(ResultMessage(postText, idea), token, channel);
      responseUrl == "" || !urlAccepted ==>
        |fallback| <= |r| && r[|r| - |fallback|..] == fallback
  {
    var r := PostResult(postText, idea, responseUrl, urlAccepted, token, channel);
    var fallback := PostBlocks(ResultMessage(postText, idea), token, channel);
    if responseUrl != "" && !urlAccepted {
      assert r == [r[0]] + fallback;
    }
  }
}

=== FILE: text.dfy ===
/**
  The Python string primitives the agent relies on: `str.isspace`, `strip`,
  `split()` with and without a separator, `s[:n]`, list slicing with a
  possibly negative stop, `str(int)`, and the run-collapsing substitutions
  `re.sub(r"c{m,}", c * (m - 1), s)` used to clean scraped article text.
*/
module Text {

  // ---------------------------------------------------------------------------
  // Whitespace
  // ---------------------------------------------------------------------------

  /** Python's `str.isspace` for one character; `\s` in a `re` pattern on `str` agrees with it. */
  predicate IsSpace(c: char) {
    ('\t' <= c <= '\r') || ('\U{1C}' <= c <= '\U{1F}') || c == ' ' || c == '\U{85}' || c == '\U{A0}'
    || c == '\U{1680}' || ('\U{2000}' <= c <= '\U{200A}') || c == '\U{2028}' || c == '\U{2029}'
    || c == '\U{202F}' || c == '\U{205F}' || c == '\U{3000}'
  }

  predicate AllSpace(s: string) {
    forall i | 0 <= i < |s| :: IsSpace(s[i])
  }

  predicate NoSpace(s: string) {
    forall i | 0 <= i < |s| :: !IsSpace(s[i])
  }

  /** Neither starts nor ends with whitespace. */
  predicate Trimmed(s: string) {
    s == [] || (!IsSpace(s[0]) && !IsSpace(s[|s| - 1]))
  }

  /** Length of the whitespace run that opens `s`. */
  function LeadingSpaces(s: string): (n: nat)
    ensures n <= |s| && AllSpace(s[..n])
    ensures n < |s| ==> !IsSpace(s[n])
  {
    if |s| > 0 && IsSpace(s[0]) then
      var k := LeadingSpaces(s[1..]);
      assert s[..k + 1] == [s[0]] + s[1..][..k];
      AllSpaceConcat([s[0]], s[1..][..k]);
      assert k + 1 < |s| ==> s[k + 1] == s[1..][k];
      1 + k
    else 0
  }

  /** Length of the whitespace run that closes `s`. */
  function TrailingSpaces(s: string): (n: nat)
    ensures n <= |s| && AllSpace(s[|s| - n..])
    ensures n < |s| ==> !IsSpace(s[|s| - n - 1])
  {
    if |s| > 0 && IsSpace(s[|s| - 1]) then
      var p := s[..|s| - 1];
      var k := TrailingSpaces(p);
      var tail := s[|s| - (k + 1)..];
      forall j | 0 <= j < |tail| ensures IsSpace(tail[j]) {
        if j < k {
          var i := |p| - k + j;
          assert tail[j] == s[i] == p[i];
          assert p[i] == p[|p| - k..][j];
        } else {
          assert tail[j] == s[|s| - 1];
        }
      }
      assert k + 1 < |s| ==> s[|s| - (k + 1) - 1] == p[|p| - k - 1];
      1 + k
    else 0
  }

  lemma AllSpaceConcat(x: string, y: string)
    requires AllSpace(x) && AllSpace(y)
    ensures AllSpace(x + y)
  {
    forall i | 0 <= i < |x + y| ensures IsSpace((x + y)[i]) {
      if i < |x| { assert (x + y)[i] == x[i]; } else { assert (x + y)[i] == y[i - |x|]; }
    }
  }

  /**
    Python's `s.strip()`: the result is the part of `s` between its leading and
    trailing whitespace runs.
  */
  function Strip(s: string): (r: string)
    ensures |r| <= |s| && Trimmed(r)
    ensures LeadingSpaces(s) + |r| <= |s|
    ensures r == s[LeadingSpaces(s)..LeadingSpaces(s) + |r|]
    ensures AllSpace(s[LeadingSpaces(s) + |r|..])
    ensures r == [] <==> AllSpace(s)
  {
    var a := LeadingSpaces(s);
    var t := s[a..];
    var b := TrailingSpaces(t);
    var r := s[a..|s| - b];
    StripRest(s, a, t, b, r);
    StripEnds(s, a, t, b, r);
    StripBlank(s, a, t, b, r);
    r
  }

  /**
    Cutting a whitespace run of length `a` from the front of `s` and one of
    length `b` from the back of the rest `t` leaves `r` followed by whitespace.
  */
  lemma StripRest(s: string, a: nat, t: string, b: nat, r: string)
    requires a <= |s| && t == s[a..] && b <= |t| && r == s[a..|s| - b]
    requires AllSpace(t[|t| - b..])
    ensures |r| <= |s| && a + |r| <= |s|
    ensures r == s[a..a + |r|] && AllSpace(s[a + |r|..])
  {
    assert a + |r| == |s| - b;
    assert s[a + |r|..] == t[|t| - b..];
  }

  /** When each cut run stops at a non-whitespace character, what is left is trimmed. */
  lemma StripEnds(s: string, a: nat, t: string, b: nat, r: string)
    requires a <= |s| && t == s[a..] && b <= |t| && r == s[a..|s| - b]
    requires a < |s| ==> !IsSpace(s[a])
    requires b < |t| ==> !IsSpace(t[|t| - b - 1])
    ensures Trimmed(r)
  {
    if r != [] {
      assert r[0] == s[a];
      assert r[|r| - 1] == t[|t| - b - 1];
    }
  }

  /** Nothing is left exactly when `s` is all whitespace. */
  lemma StripBlank(s: string, a: nat, t: string, b: nat, r: string)
    requires a <= |s| && t == s[a..] && b <= |t| && r == s[a..|s| - b]
    requires AllSpace(s[..a]) && (a < |s| ==> !IsSpace(s[a]))
    requires AllSpace(t[|t| - b..]) && (b < |t| ==> !IsSpace(t[|t| - b - 1]))
    ensures r == [] <==> AllSpace(s)
  {
    if a + b == |s| {
      assert t[|t| - b..] == t;
      assert s == s[..a] + t;
      AllSpaceConcat(s[..a], t);
    } else {
      assert r[0] == s[a];
    }
  }

  /** Padding a trimmed text with whitespace on both sides does not change what `strip` returns. */
  lemma {:induction false} StripPadded(w1: string, t: string, w2: string)
    requires AllSpace(w1) && AllSpace(w2) && Trimmed(t)
    ensures Strip(w1 + t + w2) == t
  {
    var s := w1 + t + w2;
    if t == [] {
      assert s == w1 + w2;
      AllSpaceConcat(w1, w2);
    } else {
      assert s == w1 + (t + w2);
      LeadingSpacesOfPadded(w1, t + w2);
      assert s[|w1|..] == t + w2;
      TrailingSpacesOfPadded(t, w2);
      assert s[|w1|..|s| - |w2|] == t;
    }
  }

  lemma {:induction false} TrailingSpacesOfPadded(u: string, w: string)
    requires AllSpace(w) && u != [] && !IsSpace(u[|u| - 1])
    ensures TrailingSpaces(u + w) == |w|
    decreases |w|
  {
    if w == [] {
      assert u + w == u;
    } else {
      var v := u + w;
      assert v[..|v| - 1] == u + w[..|w| - 1];
      assert v[|v| - 1] == w[|w| - 1];
      TrailingSpacesOfPadded(u, w[..|w| - 1]);
    }
  }

  lemma {:induction false} LeadingSpacesOfPadded(w: string, u: string)
    requires AllSpace(w) && u != [] && !IsSpace(u[0])
    ensures LeadingSpaces(w + u) == |w|
    decreases |w|
  {
    if w == [] {
      assert w + u == u;
    } else {
      assert (w + u)[1..] == w[1..] + u;
      LeadingSpacesOfPadded(w[1..], u);
    }
  }

  /** `strip` is idempotent. */
  lemma StripIdempotent(s: string)
    ensures Strip(Strip(s)) == Strip(s)
  {
    StripPadded([], Strip(s), []);
    assert [] + Strip(s) + [] == Strip(s);
  }

  lemma Regroup(w1: string, u1: string, r: string, u2: string, w2: string)
    ensures w1 + (u1 + r + u2) + w2 == (w1 + u1) + r + (u2 + w2)
  {
  }

  /** Surrounding whitespace never influences what `strip` returns. */
  lemma StripIgnoresPadding(w1: string, s: string, w2: string)
    requires AllSpace(w1) && AllSpace(w2)
    ensures Strip(w1 + s + w2) == Strip(s)
  {
    var a := LeadingSpaces(s);
    var r := Strip(s);
    var u1 := s[..a];
    var u2 := s[a + |r|..];
    ThreeSlices(s, a, a + |r|);
    Regroup(w1, u1, r, u2, w2);
    AllSpaceConcat(w1, u1);
    AllSpaceConcat(u2, w2);
    StripPadded(w1 + u1, r, u2 + w2);
  }

  // ---------------------------------------------------------------------------
  // Whitespace tokens: `s.split()`
  // ---------------------------------------------------------------------------

  /** Length of the run of non-whitespace characters that opens `s`. */
  function WordLength(s: string): (n: nat)
    ensures n <= |s| && NoSpace(s[..n])
    ensures n < |s| ==> IsSpace(s[n])
  {
    if |s| > 0 && !IsSpace(s[0]) then
      var k := WordLength(s[1..]);
      assert forall i | 1 <= i < k + 1 :: s[i] == s[1..][i - 1];
      1 + k
    else 0
  }

  /**
    Python's `s.split()` with no separator: the maximal runs of non-whitespace
    characters, in order.
  */
  function Words(s: string): (r: seq<string>)
    ensures r == [] <==> AllSpace(s)
    decreases |s|
  {
    var a := LeadingSpaces(s);
    var t := s[a..];
    if t == [] then
      assert s[..a] == s;
      []
    else
      var n := WordLength(t);
      [t[..n]] + Words(t[n..])
  }

  /** Every piece `split()` returns is a non-empty run of non-whitespace characters. */
  lemma {:induction false} WordsAreTokens(s: string)
    ensures forall k | 0 <= k < |Words(s)| :: Words(s)[k] != [] && NoSpace(Words(s)[k])
    decreases |s|
  {
    var a := LeadingSpaces(s);
    var t := s[a..];
    if t != [] {
      var n := WordLength(t);
      assert s[a] == t[0];
      assert n > 0;
      var w, rest := t[..n], Words(t[n..]);
      WordsAreTokens(t[n..]);
      var ws := [w] + rest;
      assert Words(s) == ws;
      forall k | 0 <= k < |ws| ensures ws[k] != [] && NoSpace(ws[k]) {
        if k > 0 {
          assert ws[k] == rest[k - 1];
        }
      }
    }
  }

  /**
    An independent count of whitespace-separated tokens: the positions holding a
    non-whitespace character that is first or follows whitespace.
  */
  function CountStarts(s: string, afterSpace: bool): nat
    decreases |s|
  {
    if s == [] then 0
    else if !IsSpace(s[0]) && afterSpace then 1 + CountStarts(s[1..], false)
    else CountStarts(s[1..], IsSpace(s[0]))
  }

  function WordStarts(s: string): nat {
    CountStarts(s, true)
  }

  lemma {:induction false} SkipSpaces(s: string, k: nat)
    requires k <= |s| && AllSpace(s[..k])
    ensures CountStarts(s, true) == CountStarts(s[k..], true)
    decreases k
  {
    if k > 0 {
      assert IsSpace(s[..k][0]);
      assert s[1..][..k - 1] == s[..k][1..];
      SkipSpaces(s[1..], k - 1);
      assert s[1..][k - 1..] == s[k..];
    }
  }

  lemma {:induction false} SkipWord(s: string, k: nat)
    requires k <= |s| && NoSpace(s[..k])
    ensures CountStarts(s, false) == CountStarts(s[k..], false)
    decreases k
  {
    if k > 0 {
      assert !IsSpace(s[..k][0]);
      assert s[1..][..k - 1] == s[..k][1..];
      SkipWord(s[1..], k - 1);
      assert s[1..][k - 1..] == s[k..];
    }
  }

  /** `count_words` (`len(text.split())`) equals the number of token starts. */
  lemma {:induction false} WordsCountStarts(s: string)
    ensures |Words(s)| == WordStarts(s)
    decreases |s|
  {
    var a := LeadingSpaces(s);
    var t := s[a..];
    SkipSpaces(s, a);
    if t != [] {
      var n := WordLength(t);
      assert CountStarts(t, true) == 1 + CountStarts(t[1..], false);
      assert t[1..][..n - 1] == t[..n][1..];
      SkipWord(t[1..], n - 1);
      var u := t[n..];
      assert t[1..][n - 1..] == u;
      if u != [] {
        assert IsSpace(u[0]);
      }
      assert CountStarts(u, false) == CountStarts(u, true);
      WordsCountStarts(u);
    }
  }

  // ---------------------------------------------------------------------------
  // Prefixes, slices, substrings
  // ---------------------------------------------------------------------------

  /** Python's `s[:n]` for a non-negative `n`. */
  function Take<T>(s: seq<T>, n: nat): (r: seq<T>)
    ensures |r| <= n && |r| <= |s|
    ensures r == s[..|r|]
    ensures |s| <= n ==> r == s
    ensures n <= |s| ==> |r| == n
  {
    if n < |s| then s[..n] else s
  }

  /** The stop index Python uses for `xs[:stop]` on a list of length `len`. */
  function SliceStop(len: nat, stop: int): (k: nat)
    ensures k <= len
    ensures stop >= 0 ==> k <= stop
    ensures 0 <= stop <= len ==> k == stop
    ensures stop >= len ==> k == len
    ensures stop < 0 ==> k == if len + stop < 0 then 0 else len + stop
  {
    if stop >= 0 then (if stop < len then stop else len)
    else if len + stop < 0 then 0 else len + stop
  }

  predicate StartsWith(s: string, p: string) {
    |p| <= |s| && s[..|p|] == p
  }

  /** `t` occurs in `s` starting at index `i`. */
  predicate OccursAt(s: string, t: string, i: int) {
    0 <= i && i + |t| <= |s| && s[i..i + |t|] == t
  }

  /** Python's `t in s`. */
  predicate Contains(s: string, t: string) {
    exists i | 0 <= i <= |s| - |t| :: OccursAt(s, t, i)
  }

  /** An occurrence inside a slice is an occurrence in the whole text. */
  lemma OccursInSlice(s: string, t: string, a: nat, b: nat, i: int)
    requires a <= b <= |s| && OccursAt(s[a..b], t, i)
    ensures OccursAt(s, t, a + i)
  {
    var u := s[a..b];
    var w := s[a + i..a + i + |t|];
    assert forall k | 0 <= k < |t| :: w[k] == u[i + k];
    assert w == u[i..i + |t|];
  }

  /** A text without an occurrence of `t` has none in any of its slices. */
  lemma SliceAvoids(s: string, t: string, a: nat, b: nat)
    requires a <= b <= |s| && !Contains(s, t)
    ensures !Contains(s[a..b], t)
  {
    if Contains(s[a..b], t) {
      var i :| 0 <= i <= |s[a..b]| - |t| && OccursAt(s[a..b], t, i);
      OccursInSlice(s, t, a, b, i);
    }
  }

  /** Smallest index `i >= from` where `t` occurs in `s`, or -1 when there is none. */
  function Find(s: string, t: string, from: nat): (i: int)
    ensures i == -1 || (from <= i && OccursAt(s, t, i))
    decreases |s| - from
  {
    if from + |t| > |s| then -1
    else if s[from..from + |t|] == t then from
    else Find(s, t, from + 1)
  }

  /** No occurrence starts between `from` and the one `Find` reports (or anywhere after `from`, when none). */
  lemma {:induction false} FindFirst(s: string, t: string, from: nat, j: nat)
    requires from <= j && (Find(s, t, from) == -1 || j < Find(s, t, from))
    ensures !OccursAt(s, t, j)
    decreases |s| - from
  {
    if from + |t| <= |s| && s[from..from + |t|] != t && from < j {
      FindFirst(s, t, from + 1, j);
    }
  }

  /** `Find` from the start succeeds exactly when `t` occurs: `t in s`. */
  lemma FindIffContains(s: string, t: string)
    ensures Find(s, t, 0) >= 0 <==> Contains(s, t)
  {
    var i := Find(s, t, 0);
    if i >= 0 {
      assert OccursAt(s, t, i);
    } else if Contains(s, t) {
      var j :| 0 <= j <= |s| - |t| && OccursAt(s, t, j);
      FindFirst(s, t, 0, j);
    }
  }

  /** Python's `s.split(sep)` for a non-empty separator. */
  function SplitOn(s: string, sep: string): (parts: seq<string>)
    requires sep != []
    ensures |parts| >= 1
    decreases |s|
  {
    var i := Find(s, sep, 0);
    if i < 0 then [s] else [s[..i]] + SplitOn(s[i + |sep|..], sep)
  }

  /** The text before the first occurrence of `sep` holds no occurrence of it. */
  lemma BeforeFindAvoids(s: string, sep: string, i: nat)
    requires sep != [] && i == Find(s, sep, 0)
    ensures !Contains(s[..i], sep)
  {
    var head := s[..i];
    if Contains(head, sep) {
      var j :| 0 <= j <= |head| - |sep| && OccursAt(head, sep, j);
      assert s[0..i] == head;
      OccursInSlice(s, sep, 0, i, j);
      FindFirst(s, sep, 0, j);
    }
  }

  /** No piece of a split holds the separator. */
  lemma {:induction false} SplitPiecesAvoid(s: string, sep: string)
    requires sep != []
    ensures forall k | 0 <= k < |SplitOn(s, sep)| :: !Contains(SplitOn(s, sep)[k], sep)
    decreases |s|
  {
    var i := Find(s, sep, 0);
    if i < 0 {
      FindIffContains(s, sep);
      assert SplitOn(s, sep) == [s];
    } else {
      var rest := s[i + |sep|..];
      BeforeFindAvoids(s, sep, i);
      SplitPiecesAvoid(rest, sep);
      var parts, tail := SplitOn(s, sep), SplitOn(rest, sep);
      assert parts == [s[..i]] + tail;
      forall k | 0 <= k < |parts| ensures !Contains(parts[k], sep) {
        if k > 0 {
          assert parts[k] == tail[k - 1];
        }
      }
    }
  }

  /** Python's `sep.join(parts)`. */
  function Join(sep: string, parts: seq<string>): string {
    if parts == [] then []
    else if |parts| == 1 then parts[0]
    else parts[0] + sep + Join(sep, parts[1..])
  }

  /** `split` then `join` with the same separator gives back the original text. */
  lemma {:induction false} SplitJoin(s: string, sep: string)
    requires sep != []
    ensures Join(sep, SplitOn(s, sep)) == s
    decreases |s|
  {
    var i := Find(s, sep, 0);
    if i >= 0 {
      var rest := s[i + |sep|..];
      SplitJoin(rest, sep);
      SplitJoinStep(s, sep, i, s[..i], rest, SplitOn(rest, sep));
    }
  }

  lemma SplitJoinStep(s: string, sep: string, i: nat, head: string, rest: string, tail: seq<string>)
    requires sep != [] && i + |sep| <= |s| && s[i..i + |sep|] == sep
    requires head == s[..i] && rest == s[i + |sep|..]
    requires tail != [] && Join(sep, tail) == rest
    ensures Join(sep, [head] + tail) == s
  {
    var parts := [head] + tail;
    assert parts[0] == head && parts[1..] == tail;
    assert Join(sep, parts) == head + sep + rest;
    ThreeSlices(s, i, i + |sep|);
  }

  /** A sequence is the concatenation of its three slices at `i` and `j`. */
  lemma ThreeSlices<T>(s: seq<T>, i: nat, j: nat)
    requires i <= j <= |s|
    ensures s == s[..i] + s[i..j] + s[j..]
  {
    var r := s[..i] + s[i..j] + s[j..];
    forall k | 0 <= k < |s| ensures r[k] == s[k] {
      if k < i {
        assert r[k] == s[..i][k];
      } else if k < j {
        assert r[k] == s[i..j][k - i];
      } else {
        assert r[k] == s[j..][k - j];
      }
    }
  }

  /** The last piece of a join is a suffix of the joined text, preceded by the separator when there are several. */
  lemma {:induction false} JoinEndsWithLast(sep: string, parts: seq<string>)
    requires |parts| >= 1
    ensures var j := Join(sep, parts); var l := parts[|parts| - 1];
      |l| <= |j| && j[|j| - |l|..] == l
      && (|parts| >= 2 ==> |l| + |sep| <= |j| && j[|j| - |l| - |sep|..|j| - |l|] == sep)
    decreases |parts|
  {
    if |parts| >= 2 {
      JoinEndsWithLast(sep, parts[1..]);
      var rest := Join(sep, parts[1..]);
      var j := Join(sep, parts);
      assert j == parts[0] + sep + rest;
      var l := parts[|parts| - 1];
      assert l == parts[1..][|parts[1..]| - 1];
      assert j[|j| - |l|..] == rest[|rest| - |l|..];
      if |parts| == 2 {
        assert rest == l;
        assert j[|j| - |l| - |sep|..|j| - |l|] == sep;
      } else {
        assert j[|j| - |l| - |sep|..|j| - |l|] == rest[|rest| - |l| - |sep|..|rest| - |l|];
      }
    }
  }

  /** In a text joined from several parts, the last part is preceded by the separator and ends the text. */
  lemma JoinLastPiece(s: string, sep: string, parts: seq<string>, l: string)
    requires |parts| >= 2 && Join(sep, parts) == s && l == parts[|parts| - 1]
    ensures EndsAfter(s, sep, l)
  {
    JoinEndsWithLast(sep, parts);
  }

  /** The split has several pieces exactly when `sep` occurs. */
  lemma SplitSeveralPieces(s: string, sep: string)
    requires sep != []
    ensures |SplitOn(s, sep)| >= 2 <==> Contains(s, sep)
  {
    FindIffContains(s, sep);
  }

  /** `l` ends `s`, right after an occurrence of `sep`. */
  predicate EndsAfter(s: string, sep: string, l: string) {
    && |l| + |sep| <= |s|
    && s[|s| - |l|..] == l
    && OccursAt(s, sep, |s| - |l| - |sep|)
  }

  /** Every part of a join occurs in the joined text. */
  lemma {:induction false} JoinContainsPart(sep: string, parts: seq<string>, i: nat)
    requires i < |parts|
    ensures Contains(Join(sep, parts), parts[i])
    decreases i
  {
    var j := Join(sep, parts);
    if i == 0 {
      if |parts| > 1 {
        assert j == parts[0] + sep + Join(sep, parts[1..]);
        assert j[..|parts[0]|] == parts[0];
      }
      assert OccursAt(j, parts[0], 0);
    } else {
      var rest := Join(sep, parts[1..]);
      JoinContainsPart(sep, parts[1..], i - 1);
      assert parts[1..][i - 1] == parts[i];
      var k :| 0 <= k <= |rest| - |parts[i]| && OccursAt(rest, parts[i], k);
      var a := |parts[0] + sep|;
      assert j == parts[0] + sep + rest;
      assert j[a..|j|] == rest;
      OccursInSlice(j, parts[i], a, |j|, k);
    }
  }

  /** A line among the parts of a join occurs in the joined text. */
  lemma JoinContainsLine(sep: string, parts: seq<string>, line: string)
    requires line in parts
    ensures Contains(Join(sep, parts), line)
  {
    var i :| 0 <= i < |parts| && parts[i] == line;
    JoinContainsPart(sep, parts, i);
  }

  /** A join of several parts opens with the first part and the separator and closes with the last part. */
  lemma JoinFrame(sep: string, parts: seq<string>, first: string, last: string)
    requires |parts| >= 2 && parts[0] == first && parts[|parts| - 1] == last
    ensures var j := Join(sep, parts);
      && StartsWith(j, first + sep)
      && |last| <= |j| && j[|j| - |last|..] == last
  {
    JoinEndsWithLast(sep, parts);
    var j := Join(sep, parts);
    assert j == first + sep + Join(sep, parts[1..]);
    assert j[..|first + sep|] == first + sep;
  }

  // ---------------------------------------------------------------------------
  // Integers as text: `str(n)`
  // ---------------------------------------------------------------------------

  predicate IsDigits(s: string) {
    forall i | 0 <= i < |s| :: '0' <= s[i] <= '9'
  }

  function DigitChar(d: nat): (c: char)
    requires d < 10
    ensures '0' <= c <= '9' && (c as int) - ('0' as int) == d
  {
    ('0' as int + d) as char
  }

  /** Decimal rendering of a natural number, as `str(n)` produces it. */
  function NatToString(n: nat): (r: string)
    ensures |r| >= 1 && IsDigits(r)
    ensures |r| > 1 ==> r[0] != '0'
    decreases n
  {
    if n < 10 then [DigitChar(n)] else NatToString(n / 10) + [DigitChar(n % 10)]
  }

  /** The value a string of decimal digits denotes. */
  function DigitsValue(s: string): nat
    requires IsDigits(s)
  {
    if s == [] then 0 else 10 * DigitsValue(s[..|s| - 1]) + ((s[|s| - 1] as int) - ('0' as int))
  }

  /** Reading the rendered digits back gives the number: `int(str(n)) == n`. */
  lemma {:induction false} NatToStringRoundTrip(n: nat)
    ensures DigitsValue(NatToString(n)) == n
    decreases n
  {
    if n >= 10 {
      NatToStringRoundTrip(n / 10);
      var r := NatToString(n);
      assert r[..|r| - 1] == NatToString(n / 10);
    }
  }

  /** `str(i)` for any integer. */
  function IntToString(i: int): string {
    if i < 0 then "-" + NatToString(-i) else NatToString(i)
  }

  // ---------------------------------------------------------------------------
  // Collapsing runs of one character: re.sub(r"c{m,}", c * (m - 1), s)
  // ---------------------------------------------------------------------------

  function Rep(c: char, n: nat): (r: string)
    ensures |r| == n && forall i | 0 <= i < n :: r[i] == c
  {
    seq(n, _ => c)
  }

  /** Length of the run of `c` that opens `s`. */
  function RunLength(s: string, c: char): (n: nat)
    ensures n <= |s| && s[..n] == Rep(c, n)
    ensures n < |s| ==> s[n] != c
  {
    if |s| > 0 && s[0] == c then
      var k := RunLength(s[1..], c);
      assert s[..k + 1] == [c] + s[1..][..k];
      1 + k
    else 0
  }

  /**
    `re.sub(r"c{m,}", c * (m - 1), s)`: every maximal run of at least `m`
    copies of `c` becomes exactly `m - 1` copies; shorter runs are kept.
  */
  function Collapse(s: string, c: char, m: nat): string
    requires m >= 2
    decreases |s|
  {
    if s == [] then []
    else if s[0] != c then [s[0]] + Collapse(s[1..], c, m)
    else
      var n := RunLength(s, c);
      (if n >= m then Rep(c, m - 1) else s[..n]) + Collapse(s[n..], c, m)
  }

  /**
    Scanning `s` with `cur` copies of `c` already seen, no run of `c` reaches
    length `m`.
  */
  predicate RunsBelow(s: string, c: char, m: nat, cur: nat)
    decreases |s|
  {
    s == [] || (if s[0] == c then cur + 1 < m && RunsBelow(s[1..], c, m, cur + 1) else RunsBelow(s[1..], c, m, 0))
  }

  lemma RunsBelowReset(s: string, c: char, m: nat, cur: nat)
    requires s == [] || s[0] != c
    ensures RunsBelow(s, c, m, cur) == RunsBelow(s, c, m, 0)
  {
  }

  lemma {:induction false} RunsBelowAfterRun(k: nat, rest: string, c: char, m: nat, cur: nat)
    requires cur + k < m && RunsBelow(rest, c, m, cur + k)
    ensures RunsBelow(Rep(c, k) + rest, c, m, cur)
    decreases k
  {
    if k > 0 {
      var s := Rep(c, k) + rest;
      assert s[0] == c;
      assert s[1..] == Rep(c, k - 1) + rest;
      RunsBelowAfterRun(k - 1, rest, c, m, cur + 1);
    } else {
      assert Rep(c, 0) + rest == rest;
    }
  }

  lemma {:induction false} CollapseHead(s: string, c: char, m: nat)
    requires m >= 2 && (s == [] || s[0] != c)
    ensures Collapse(s, c, m) == [] || Collapse(s, c, m)[0] != c
  {
  }

  /** After collapsing, no run of `c` reaches length `m`. */
  lemma {:induction false} CollapseRunsBelow(s: string, c: char, m: nat)
    requires m >= 2
    ensures RunsBelow(Collapse(s, c, m), c, m, 0)
    decreases |s|
  {
    if s != [] {
      if s[0] != c {
        CollapseRunsBelow(s[1..], c, m);
        var r := Collapse(s, c, m);
        assert r[1..] == Collapse(s[1..], c, m);
      } else {
        var n := RunLength(s, c);
        var j := if n >= m then m - 1 else n;
        var rest := Collapse(s[n..], c, m);
        assert Collapse(s, c, m) == Rep(c, j) + rest;
        CollapseRunsBelow(s[n..], c, m);
        CollapseHead(s[n..], c, m);
        RunsBelowReset(rest, c, m, j);
        RunsBelowAfterRun(j, rest, c, m, 0);
      }
    }
  }

  lemma {:induction false} RunsBelowThroughOthers(x: string, rest: string, d: char, m: nat, cur: nat)
    requires |x| > 0 && forall k | 0 <= k < |x| :: x[k] != d
    ensures RunsBelow(x + rest, d, m, cur) == RunsBelow(rest, d, m, 0)
    decreases |x|
  {
    var s := x + rest;
    assert s[0] == x[0];
    assert s[1..] == x[1..] + rest;
    if |x| > 1 {
      RunsBelowThroughOthers(x[1..], rest, d, m, 0);
    } else {
      assert x[1..] + rest == rest;
    }
  }

  /** Collapsing runs of `c` cannot create a run of another character `d`. */
  lemma {:induction false} CollapseKeepsOtherRuns(s: string, c: char, m: nat, d: char, m2: nat, cur: nat)
    requires m >= 2 && c != d && RunsBelow(s, d, m2, cur)
    ensures RunsBelow(Collapse(s, c, m), d, m2, cur)
    decreases |s|
  {
    if s != [] {
      var r := Collapse(s, c, m);
      if s[0] != c {
        assert r[0] == s[0] && r[1..] == Collapse(s[1..], c, m);
        if s[0] == d {
          CollapseKeepsOtherRuns(s[1..], c, m, d, m2, cur + 1);
        } else {
          CollapseKeepsOtherRuns(s[1..], c, m, d, m2, 0);
        }
      } else {
        var n := RunLength(s, c);
        var j := if n >= m then m - 1 else n;
        assert r == Rep(c, j) + Collapse(s[n..], c, m);
        assert s == s[..n] + s[n..];
        RunsBelowThroughOthers(s[..n], s[n..], d, m2, cur);
        CollapseKeepsOtherRuns(s[n..], c, m, d, m2, 0);
        RunsBelowThroughOthers(Rep(c, j), Collapse(s[n..], c, m), d, m2, cur);
      }
    }
  }

  /** Text with no run of `c` of length `m` is left unchanged by the collapse. */
  lemma {:induction false} CollapseFixpoint(s: string, c: char, m: nat)
    requires m >= 2 && RunsBelow(s, c, m, 0)
    ensures Collapse(s, c, m) == s
    decreases |s|
  {
    if s != [] {
      if s[0] != c {
        CollapseFixpoint(s[1..], c, m);
      } else {
        var n := RunLength(s, c);
        var rest := s[n..];
        assert s == Rep(c, n) + rest;
        RunsBelowPrefixRun(n, rest, c, m);
        RunsBelowReset(rest, c, m, n);
        CollapseFixpoint(rest, c, m);
      }
    }
  }

  lemma {:induction false} RunsBelowPrefixRun(k: nat, rest: string, c: char, m: nat)
    requires RunsBelow(Rep(c, k) + rest, c, m, 0)
    ensures k < m || (k == 0)
    ensures RunsBelow(rest, c, m, k)
  {
    RunsBelowPrefixRunFrom(k, rest, c, m, 0);
  }

  lemma {:induction false} RunsBelowPrefixRunFrom(k: nat, rest: string, c: char, m: nat, cur: nat)
    requires RunsBelow(Rep(c, k) + rest, c, m, cur)
    ensures k == 0 || cur + k < m
    ensures RunsBelow(rest, c, m, cur + k)
    decreases k
  {
    if k == 0 {
      assert Rep(c, 0) + rest == rest;
    } else {
      var s := Rep(c, k) + rest;
      assert s[0] == c;
      assert s[1..] == Rep(c, k - 1) + rest;
      RunsBelowPrefixRunFrom(k - 1, rest, c, m, cur + 1);
    }
  }

  /** Collapsing twice is the same as collapsing once. */
  lemma CollapseIdempotent(s: string, c: char, m: nat)
    requires m >= 2
    ensures Collapse(Collapse(s, c, m), c, m) == Collapse(s, c, m)
  {
    CollapseRunsBelow(s, c, m);
    CollapseFixpoint(Collapse(s, c, m), c, m);
  }

  /** The scanning predicate means the text holds no `m` consecutive copies of `c`. */
  lemma {:induction false} RunsBelowNoRep(s: string, c: char, m: nat, cur: nat)
    requires cur < m && RunsBelow(s, c, m, cur)
    ensures forall i :: !OccursAt(s, Rep(c, m), i)
    ensures |s| >= m - cur ==> s[..m - cur] != Rep(c, m - cur)
    decreases |s|
  {
    if s != [] {
      var rest := s[1..];
      if s[0] == c {
        RunsBelowNoRep(rest, c, m, cur + 1);
        if |s| >= m - cur {
          assert s[..m - cur] == [c] + rest[..m - cur - 1];
          assert Rep(c, m - cur) == [c] + Rep(c, m - cur - 1);
        }
      } else {
        RunsBelowNoRep(rest, c, m, 0);
        if |s| >= m - cur {
          assert s[..m - cur][0] == s[0];
        }
      }
      NoRepFromTail(s, c, m, cur);
    }
  }

  /**
    A text whose first `m - cur` characters are not all `c`, and whose tail has
    no run of `m`, has no run of `m` either.
  */
  lemma NoRepFromTail(s: string, c: char, m: nat, cur: nat)
    requires s != [] && cur < m
    requires |s| >= m - cur ==> s[..m - cur] != Rep(c, m - cur)
    requires forall i :: !OccursAt(s[1..], Rep(c, m), i)
    ensures forall i :: !OccursAt(s, Rep(c, m), i)
  {
    forall i ensures !OccursAt(s, Rep(c, m), i) {
      if i == 0 && |s| >= m {
        assert s[..m - cur] == s[0..m][..m - cur];
        assert Rep(c, m)[..m - cur] == Rep(c, m - cur);
      } else if i > 0 && OccursAt(s, Rep(c, m), i) {
        OccursInTail(s, Rep(c, m), i);
      }
    }
  }

  lemma OccursInTail(s: string, t: string, i: int)
    requires i > 0 && OccursAt(s, t, i)
    ensures OccursAt(s[1..], t, i - 1)
  {
    var w := s[1..][i - 1..i - 1 + |t|];
    var v := s[i..i + |t|];
    assert forall k | 0 <= k < |t| :: w[k] == v[k];
    assert w == v;
  }

  /** Text whose runs of `c` stay below `m` does not contain `m` consecutive copies of `c`. */
  lemma RunsBelowExcludesRep(s: string, c: char, m: nat)
    requires m >= 2 && RunsBelow(s, c, m, 0)
    ensures !Contains(s, Rep(c, m))
  {
    RunsBelowNoRep(s, c, m, 0);
  }

  /** After collapsing, the text does not contain `m` consecutive copies of `c`. */
  lemma CollapsedHasNoRun(s: string, c: char, m: nat)
    requires m >= 2
    ensures !Contains(Collapse(s, c, m), Rep(c, m))
  {
    CollapseRunsBelow(s, c, m);
    RunsBelowExcludesRep(Collapse(s, c, m), c, m);
  }

  /** `s` with every copy of `c` removed. */
  function Without(s: string, c: char): (r: string)
    ensures |r| <= |s|
  {
    if s == [] then [] else (if s[0] == c then [] else [s[0]]) + Without(s[1..], c)
  }

  lemma {:induction false} WithoutAppend(a: string, b: string, c: char)
    ensures Without(a + b, c) == Without(a, c) + Without(b, c)
    decreases |a|
  {
    if a != [] {
      assert (a + b)[1..] == a[1..] + b;
      WithoutAppend(a[1..], b, c);
    } else {
      assert a + b == b;
    }
  }

  lemma {:induction false} WithoutRep(c: char, k: nat)
    ensures Without(Rep(c, k), c) == []
    decreases k
  {
    if k > 0 {
      assert Rep(c, k)[1..] == Rep(c, k - 1);
      WithoutRep(c, k - 1);
    }
  }

  /** The collapse only touches copies of `c`: every other character is kept, in order. */
  lemma {:induction false} CollapseOnlyTouchesRuns(s: string, c: char, m: nat)
    requires m >= 2
    ensures Without(Collapse(s, c, m), c) == Without(s, c)
    decreases |s|
  {
    if s != [] {
      if s[0] != c {
        WithoutAppend([s[0]], Collapse(s[1..], c, m), c);
        CollapseOnlyTouchesRuns(s[1..], c, m);
      } else {
        var n := RunLength(s, c);
        var piece := if n >= m then Rep(c, m - 1) else Rep(c, n);
        assert Collapse(s, c, m) == piece + Collapse(s[n..], c, m);
        WithoutAppend(piece, Collapse(s[n..], c, m), c);
        WithoutRep(c, if n >= m then m - 1 else n);
        CollapseOnlyTouchesRuns(s[n..], c, m);
        assert s == Rep(c, n) + s[n..];
        WithoutAppend(Rep(c, n), s[n..], c);
        WithoutRep(c, n);
      }
    }
  }

  /** Appending text that does not continue the closing run leaves the opening run as it is. */
  lemma {:induction false} RunLengthAppend(x: string, y: string, c: char)
    requires RunLength(x, c) < |x| || y == [] || y[0] != c
    ensures RunLength(x + y, c) == RunLength(x, c)
    decreases |x|
  {
    if x == [] {
      assert x + y == y;
    } else if x[0] == c {
      assert (x + y)[0] == c;
      assert (x + y)[1..] == x[1..] + y;
      RunLengthAppend(x[1..], y, c);
    } else {
      assert (x + y)[0] == x[0];
    }
  }

  /**
    The collapse works run by run, from the left. A maximal run of `k` copies of
    `c` opening the text becomes `m - 1` copies when `k >= m` and is kept when
    shorter; the rest is collapsed on its own. With `CollapseOpeningOther` and the
    empty text, this determines the collapse of every text.
  */
  lemma {:induction false} CollapseOpeningRun(k: nat, y: string, c: char, m: nat)
    requires m >= 2 && k > 0
    requires y == [] || y[0] != c
    ensures Collapse(Rep(c, k) + y, c, m) == Rep(c, if k >= m then m - 1 else k) + Collapse(y, c, m)
  {
    var run := Rep(c, k);
    var s := run + y;
    assert RunLength(run, c) == k;
    RunLengthAppend(run, y, c);
    assert s[0] == c;
    assert s[..k] == run && s[k..] == y;
  }

  /** A character other than `c` opening the text is kept, ahead of the rest collapsed. */
  lemma CollapseOpeningOther(d: char, y: string, c: char, m: nat)
    requires m >= 2 && d != c
    ensures Collapse([d] + y, c, m) == [d] + Collapse(y, c, m)
  {
    assert ([d] + y)[1..] == y;
  }
}

=== FILE: tools.dfy ===
/**
  The tool layer: the catalogue offered to the model, the dispatcher that turns a
  `tool_use` block into a call, and the three tools. Every network answer
  (feedparser, requests, the search backends) and every foreign text step
  (BeautifulSoup's `get_text`, `unquote`) comes from a `Network` value; what is
  modelled is the decision logic and the string steps around those calls.
  Tool failures are values (`ToolOutput` cases carrying an `error` field),
  never exceptions; only a missing required argument raises.
*/
module Tools {
  import opened Wrappers
  import opened Text
  import opened Values

  // ---------------------------------------------------------------------------
  // The catalogue (TOOL_DEFINITIONS)
  // ---------------------------------------------------------------------------

  datatype ParamKind = StringParam | IntegerParam

  /** One input property of a tool schema, with its schema default if it has one. */
  datatype Param = Param(name: string, kind: ParamKind, default: Option<int>)

  datatype ToolDef = ToolDef(name: string, params: seq<Param>, required: seq<string>)

  const DefaultMaxItems: int := 8
  const DefaultMaxResults: int := 5

  /** The catalogue every request offers, in the order the model sees it. */
  const Catalogue: seq<ToolDef> := [
    ToolDef("fetch_rss",
      [Param("url", StringParam, None), Param("max_items", IntegerParam, Some(DefaultMaxItems))],
      ["url"]),
    ToolDef("fetch_article",
      [Param("url", StringParam, None)],
      ["url"]),
    ToolDef("web_search",
      [Param("query", StringParam, None), Param("max_results", IntegerParam, Some(DefaultMaxResults))],
      ["query"])
  ]

  /** The schema registered under `name`, if any. */
  function Schema(name: string): (r: Option<ToolDef>)
    ensures r.Some? ==> r.value in Catalogue && r.value.name == name
    ensures r.None? <==> forall k | 0 <= k < |Catalogue| :: Catalogue[k].name != name
  {
    if name == "fetch_rss" then Some(Catalogue[0])
    else if name == "fetch_article" then Some(Catalogue[1])
    else if name == "web_search" then Some(Catalogue[2])
    else None
  }

  /** Some field the schema marks as required is absent from `input`. */
  predicate MissingRequired(def: ToolDef, input: Record) {
    exists k | 0 <= k < |def.required| :: def.required[k] !in input
  }

  /** The value a parameter takes: the given argument, else the schema default. */
  function Resolve(p: Param, input: Record): Value
    requires p.name in input || p.default.Some?
  {
    if p.name in input then input[p.name] else Num(p.default.value)
  }

  // ---------------------------------------------------------------------------
  // Dispatch (execute_tool)
  // ---------------------------------------------------------------------------

  datatype ToolCall =
    | FetchRss(url: Value, maxItems: Value)
    | FetchArticle(url: Value)
    | WebSearch(query: Value, maxResults: Value)

  datatype Route = Call(call: ToolCall) | UnknownTool(name: string)

  function ToolNameOf(c: ToolCall): string {
    match c
    case FetchRss(_, _) => "fetch_rss"
    case FetchArticle(_) => "fetch_article"
    case WebSearch(_, _) => "web_search"
  }

  /** The call's arguments in the order of its schema's properties. */
  function Arguments(c: ToolCall): seq<Value> {
    match c
    case FetchRss(u, m) => [u, m]
    case FetchArticle(u) => [u]
    case WebSearch(q, m) => [q, m]
  }

  /**
    Routes a `tool_use` block by exact name. A required key is read with
    `tool_input[key]`, so its absence raises `KeyError(key)` (the Failure case);
    optional keys fall back to the schema defaults; any other name is routed to
    the "Unknown tool" error value.
  */
  function Dispatch(name: string, input: Record): (r: Result<Route, string>)
    ensures r.Failure? <==> Schema(name).Some? && MissingRequired(Schema(name).value, input)
    ensures r.Failure? ==> r.error !in input && r.error in Schema(name).value.required
    ensures r == Success(UnknownTool(name)) <==> Schema(name).None?
    ensures r.Success? && r.value.Call? ==>
      var def := Schema(name).value;
      && ToolNameOf(r.value.call) == name
      && |Arguments(r.value.call)| == |def.params|
      && forall j | 0 <= j < |def.params| ::
           (def.params[j].name in input || def.params[j].default.Some?)
           && Arguments(r.value.call)[j] == Resolve(def.params[j], input)
  {
    if name == "fetch_rss" then
      if "url" !in input then
        assert Catalogue[0].required[0] == "url";
        Failure("url")
      else Success(Call(FetchRss(input["url"], Get(input, "max_items", Num(DefaultMaxItems)))))
    else if name == "fetch_article" then
      if "url" !in input then
        assert Catalogue[1].required[0] == "url";
        Failure("url")
      else Success(Call(FetchArticle(input["url"])))
    else if name == "web_search" then
      if "query" !in input then
        assert Catalogue[2].required[0] == "query";
        Failure("query")
      else Success(Call(WebSearch(input["query"], Get(input, "max_results", Num(DefaultMaxResults)))))
    else
      Success(UnknownTool(name))
  }

  // ---------------------------------------------------------------------------
  // What the outside world answers
  // ---------------------------------------------------------------------------

  /** One feedparser entry; None marks a key the entry does not have. */
  datatype RssEntry = RssEntry(
    title: Option<string>, link: Option<string>, summary: Option<string>, description: Option<string>,
    published: Option<string>, updated: Option<string>, author: Option<string>)

  datatype FeedFetch =
    | ParsedFeed(bozo: bool, entries: seq<RssEntry>, feedTitle: Option<string>)
    | FeedRaised(message: string)

  /** A fetched page: its `<title>` and the text of the first matching content element. */
  datatype PageFetch = Page(title: Option<string>, mainText: string) | PageRaised(message: string)

  datatype BraveItem = BraveItem(title: Option<string>, url: Option<string>, description: Option<string>)

  /** The `.result__title a` element of a DuckDuckGo result: its text and `href` ("" when absent). */
  datatype DdgLink = DdgLink(text: string, href: string)

  datatype DdgEntry = DdgEntry(link: Option<DdgLink>, snippet: Option<string>)

  /**
    The network and the foreign libraries, indexed by the running number of the
    tool call so that repeated calls may see different answers.
  */
  datatype Network = Network(
    feed: (nat, Value) -> FeedFetch,
    page: (nat, Value) -> PageFetch,
    brave: (nat, Value, Value) -> Result<seq<BraveItem>, string>,
    duckduckgo: (nat, Value) -> Result<seq<DdgEntry>, string>,
    braveKey: string,
    htmlText: string -> string,
    unquote: string -> string)

  // ---------------------------------------------------------------------------
  // Tool results (the JSON objects the tools serialise)
  // ---------------------------------------------------------------------------

  datatype RssItem = RssItem(title: string, link: string, summary: string, published: string, author: string)

  datatype SearchHit = SearchHit(title: string, url: string, snippet: string)

  datatype ToolOutput =
    | FeedItems(feedTitle: Value, items: seq<RssItem>)
    | FeedError(error: string)
    | Article(url: Value, title: string, text: string, charCount: nat)
    | ArticleError(error: string, url: Value)
    | SearchResults(query: Value, results: seq<SearchHit>, viaDuckDuckGo: bool)
    | SearchError(error: string, query: Value)
    | UnknownToolError(name: string)

  /** The serialised object carries an `error` key. */
  predicate IsErrorOutput(o: ToolOutput) {
    o.FeedError? || o.ArticleError? || o.SearchError? || o.UnknownToolError?
  }

  /** The text under the `error` key. */
  function ErrorText(o: ToolOutput): string
    requires IsErrorOutput(o)
  {
    match o
    case UnknownToolError(name) => "Unknown tool: " + name
    case FeedError(e) => e
    case ArticleError(e, _) => e
    case SearchError(e, _) => e
  }

  /** What Python raises when a slice bound is not an integer. */
  const SliceTypeError := "slice indices must be integers or None or have an __index__ method"

  // ---------------------------------------------------------------------------
  // fetch_rss
  // ---------------------------------------------------------------------------

  const SummaryCap: nat := 500

  /** The HTML an item's summary is cleaned from: `summary`, else `description`, else "". */
  function SummarySource(e: RssEntry): string {
    if e.summary.Some? then e.summary.value else e.description.GetOr("")
  }

  /** The item's date: `published`, else `updated`, else "". */
  function PublishedOf(e: RssEntry): string {
    if e.published.Some? then e.published.value else e.updated.GetOr("")
  }

  /**
    One feed item: the entry's title stripped, its link, the text of its
    summary HTML cut to 500 characters and stripped, its date and author.
  */
  function RssItemOf(e: RssEntry, htmlText: string -> string): (it: RssItem)
    ensures it.title == Strip(e.title.GetOr("")) && Trimmed(it.title)
    ensures it.link == e.link.GetOr("")
    ensures it.summary == Strip(Take(htmlText(SummarySource(e)), SummaryCap))
    ensures |it.summary| <= SummaryCap && Trimmed(it.summary)
    ensures it.published == PublishedOf(e) && it.author == e.author.GetOr("")
  {
    RssItem(Strip(e.title.GetOr("")), e.link.GetOr(""), Strip(Take(htmlText(SummarySource(e)), SummaryCap)),
            PublishedOf(e), e.author.GetOr(""))
  }

  /**
    An entry's own `summary` and `published` win: its `description` and
    `updated` never reach the item then.
  */
  lemma RssItemPrefersSummaryAndPublished(e: RssEntry, description: Option<string>, updated: Option<string>,
                                          htmlText: string -> string)
    requires e.summary.Some? && e.published.Some?
    ensures RssItemOf(e.(description := description, updated := updated), htmlText) == RssItemOf(e, htmlText)
  {
  }

  /** Whitespace around a title never reaches the item. */
  lemma RssItemIgnoresTitlePadding(e: RssEntry, w1: string, t: string, w2: string, htmlText: string -> string)
    requires AllSpace(w1) && AllSpace(w2) && e.title == Some(t)
    ensures RssItemOf(e.(title := Some(w1 + t + w2)), htmlText).title == RssItemOf(e, htmlText).title
  {
    StripIgnoresPadding(w1, t, w2);
  }

  function RssItems(entries: seq<RssEntry>, htmlText: string -> string): (items: seq<RssItem>)
    ensures |items| == |entries|
    ensures forall j | 0 <= j < |items| :: items[j] == RssItemOf(entries[j], htmlText)
  {
    seq(|entries|, j requires 0 <= j < |entries| => RssItemOf(entries[j], htmlText))
  }

  /**
    `fetch_rss(url, max_items)`: a feed that failed to parse and has no entries,
    a raised fetch, or a non-integer `max_items` give an error object; otherwise
    the first `max_items` entries (Python slice semantics) in feed order.
  */
  function FetchRssTool(n: nat, url: Value, maxItems: Value, net: Network): (r: ToolOutput)
    ensures r.FeedItems? || r.FeedError?
    ensures r.FeedError? <==>
      (net.feed(n, url).FeedRaised?
       || (net.feed(n, url).bozo && net.feed(n, url).entries == [])
       || !maxItems.Num?)
    ensures r.FeedError? && net.feed(n, url).FeedRaised? ==> r.error == net.feed(n, url).message
    ensures net.feed(n, url).ParsedFeed? && net.feed(n, url).bozo && net.feed(n, url).entries == [] ==>
      r.error == "Failed to parse RSS feed: " + Render(url)
    ensures r.FeedItems? ==>
      var entries := net.feed(n, url).entries;
      && r.feedTitle == (if net.feed(n, url).feedTitle.Some? then Str(net.feed(n, url).feedTitle.value) else url)
      && |r.items| == SliceStop(|entries|, maxItems.n)
      && |r.items| <= |entries|
      && (maxItems.n >= 0 ==> |r.items| <= maxItems.n)
      && (0 <= maxItems.n <= |entries| ==> |r.items| == maxItems.n)
      && (maxItems.n >= |entries| ==> |r.items| == |entries|)
      && (forall j | 0 <= j < |r.items| ::
            && r.items[j] == RssItemOf(entries[j], net.htmlText)
            && r.items[j].title == Strip(entries[j].title.GetOr(""))
            && r.items[j].link == entries[j].link.GetOr("")
            && |r.items[j].summary| <= SummaryCap)
  {
    match net.feed(n, url)
    case FeedRaised(msg) => FeedError(msg)
    case ParsedFeed(bozo, entries, title) =>
      if bozo && entries == [] then FeedError("Failed to parse RSS feed: " + Render(url))
      else if !maxItems.Num? then FeedError(SliceTypeError)
      else
        var kept := entries[..SliceStop(|entries|, maxItems.n)];
        FeedItems(if title.Some? then Str(title.value) else url, RssItems(kept, net.htmlText))
  }

  /**
    Asking for more items, from a non-negative count, only adds items at the
    end. (A negative count counts from the end, so it is not covered.)
  */
  lemma FetchRssMoreItemsExtends(n: nat, url: Value, a: int, b: int, net: Network)
    requires 0 <= a <= b
    requires FetchRssTool(n, url, Num(a), net).FeedItems?
    ensures FetchRssTool(n, url, Num(b), net).FeedItems?
    ensures FetchRssTool(n, url, Num(a), net).items <= FetchRssTool(n, url, Num(b), net).items
  {
    var entries := net.feed(n, url).entries;
    var ra, rb := FetchRssTool(n, url, Num(a), net), FetchRssTool(n, url, Num(b), net);
    var ka, kb := SliceStop(|entries|, a), SliceStop(|entries|, b);
    assert ka <= kb;
    assert forall j | 0 <= j < |ra.items| :: ra.items[j] == rb.items[j];
  }

  // ---------------------------------------------------------------------------
  // fetch_article
  // ---------------------------------------------------------------------------

  const ArticleCap: nat := 3000

  /**
    The cleaning `fetch_article` applies to scraped text: runs of three or more
    newlines become two, runs of two or more spaces become one, then the text is
    stripped and cut to 3000 characters.
  */
  function ArticleText(raw: string): (r: string)
    ensures var cleaned := Strip(Collapse(Collapse(raw, '\n', 3), ' ', 2));
      && r <= cleaned
      && |r| == if |cleaned| <= ArticleCap then |cleaned| else ArticleCap
    ensures |r| <= ArticleCap
    ensures !Contains(r, "\n\n\n") && !Contains(r, "  ")
  {
    var lines := Collapse(raw, '\n', 3);
    var spaced := Collapse(lines, ' ', 2);
    var stripped := Strip(spaced);
    CleanAfterCollapse(raw, lines, spaced);
    StrippedStaysClean(spaced, stripped);
    SliceAvoids(stripped, "\n\n\n", 0, |Take(stripped, ArticleCap)|);
    SliceAvoids(stripped, "  ", 0, |Take(stripped, ArticleCap)|);
    Take(stripped, ArticleCap)
  }

  /** The two collapses leave no run of three newlines and no run of two spaces. */
  lemma CleanAfterCollapse(raw: string, lines: string, spaced: string)
    requires lines == Collapse(raw, '\n', 3) && spaced == Collapse(lines, ' ', 2)
    ensures !Contains(spaced, "\n\n\n") && !Contains(spaced, "  ")
  {
    CollapseRunsBelow(raw, '\n', 3);
    CollapseKeepsOtherRuns(lines, ' ', 2, '\n', 3, 0);
    CollapseRunsBelow(lines, ' ', 2);
    RunsBelowExcludesRep(spaced, '\n', 3);
    RunsBelowExcludesRep(spaced, ' ', 2);
    assert Rep('\n', 3) == "\n\n\n";
    assert Rep(' ', 2) == "  ";
  }

  /** Stripping takes a slice, so it cannot introduce either pattern. */
  lemma StrippedStaysClean(spaced: string, stripped: string)
    requires stripped == Strip(spaced)
    requires !Contains(spaced, "\n\n\n") && !Contains(spaced, "  ")
    ensures !Contains(stripped, "\n\n\n") && !Contains(stripped, "  ")
  {
    var a := LeadingSpaces(spaced);
    SliceAvoids(spaced, "\n\n\n", a, a + |stripped|);
    SliceAvoids(spaced, "  ", a, a + |stripped|);
  }

  /** Text that is already clean, trimmed and short comes back unchanged. */
  lemma ArticleTextKeepsCleanText(raw: string)
    requires RunsBelow(raw, '\n', 3, 0) && RunsBelow(raw, ' ', 2, 0)
    requires Trimmed(raw) && |raw| <= ArticleCap
    ensures ArticleText(raw) == raw
  {
    CollapseFixpoint(raw, '\n', 3);
    CollapseFixpoint(raw, ' ', 2);
    StripPadded([], raw, []);
    assert [] + raw + [] == raw;
  }

  /** `fetch_article(url)`: a raised fetch becomes an error object with empty text. */
  function FetchArticleTool(n: nat, url: Value, net: Network): (r: ToolOutput)
    ensures r.Article? || r.ArticleError?
    ensures r.ArticleError? <==> net.page(n, url).PageRaised?
    ensures r.ArticleError? ==> r.url == url && r.error == net.page(n, url).message
    ensures r.Article? ==>
      && r.url == url
      && |r.text| <= ArticleCap && r.charCount == |r.text|
      && !Contains(r.text, "\n\n\n") && !Contains(r.text, "  ")
      && Trimmed(r.title)
    ensures r.Article? ==>
      && r.text == ArticleText(net.page(n, url).mainText)
      && r.title == Strip(net.page(n, url).title.GetOr(""))
  {
    match net.page(n, url)
    case PageRaised(msg) => ArticleError(msg, url)
    case Page(title, text) =>
      var t := ArticleText(text);
      Article(url, Strip(title.GetOr("")), t, |t|)
  }

  // ---------------------------------------------------------------------------
  // web_search
  // ---------------------------------------------------------------------------

  /** The part of `s` after the last occurrence of `sep`: `s.split(sep)[-1]`. */
  function AfterLast(s: string, sep: string): (r: string)
    requires sep != [] && Contains(s, sep)
    ensures EndsAfter(s, sep, r)
    ensures !Contains(r, sep)
  {
    var parts := SplitOn(s, sep);
    SplitSeveralPieces(s, sep);
    SplitJoin(s, sep);
    JoinLastPiece(s, sep, parts, parts[|parts| - 1]);
    SplitPiecesAvoid(s, sep);
    parts[|parts| - 1]
  }

  /** The part of `s` before the first occurrence of `sep`: `s.split(sep)[0]`. */
  function BeforeFirst(s: string, sep: string): (r: string)
    requires sep != []
    ensures |r| <= |s| && r == s[..|r|]
    ensures !Contains(r, sep)
    ensures |r| == |s| || OccursAt(s, sep, |r|)
  {
    var i := Find(s, sep, 0);
    var parts := SplitOn(s, sep);
    SplitPiecesAvoid(s, sep);
    assert parts[0] == if i < 0 then s else s[..i];
    parts[0]
  }

  /**
    DuckDuckGo wraps result links as redirects; the target (before unquoting) is
    the text after the last `uddg=` up to the first `&` that follows it.
  */
  function UddgTarget(href: string): (r: string)
    requires Contains(href, "uddg=")
    ensures var tail := AfterLast(href, "uddg=");
      |r| <= |tail| && r == tail[..|r|] && !Contains(r, "&") && (|r| == |tail| || tail[|r|] == '&')
  {
    var tail := AfterLast(href, "uddg=");
    var r := BeforeFirst(tail, "&");
    assert |r| < |tail| ==> tail[|r|..|r| + 1] == "&";
    r
  }

  /** The URL reported for one DuckDuckGo result. */
  function DdgUrl(href: string, unquote: string -> string): string {
    if Contains(href, "uddg=") then unquote(UddgTarget(href)) else href
  }

  /** The number of results that have a title link. */
  function Linked(entries: seq<DdgEntry>): (k: nat)
    ensures k <= |entries|
  {
    if entries == [] then 0 else (if entries[0].link.Some? then 1 else 0) + Linked(entries[1..])
  }

  /** The hit reported for a result with a title link: stripped title, real URL, stripped snippet. */
  function HitOf(e: DdgEntry, unquote: string -> string): SearchHit
    requires e.link.Some?
  {
    SearchHit(Strip(e.link.value.text), DdgUrl(e.link.value.href, unquote), Strip(e.snippet.GetOr("")))
  }

  /** Results whose title element is missing are skipped; every other one gives a hit. */
  function DdgHits(entries: seq<DdgEntry>, unquote: string -> string): (hits: seq<SearchHit>)
    ensures |hits| == Linked(entries)
    ensures (forall j | 0 <= j < |entries| :: entries[j].link.Some?) ==> |hits| == |entries|
  {
    if entries == [] then []
    else
      var rest := DdgHits(entries[1..], unquote);
      if entries[0].link.Some? then [HitOf(entries[0], unquote)] + rest else rest
  }

  /**
    The hits keep the order of the results: the result at `j`, when it has a
    title link, gives the hit numbered by the linked results before it.
  */
  lemma {:induction false} DdgHitsAt(entries: seq<DdgEntry>, unquote: string -> string, j: nat)
    requires j < |entries| && entries[j].link.Some?
    ensures Linked(entries[..j]) < |DdgHits(entries, unquote)|
    ensures DdgHits(entries, unquote)[Linked(entries[..j])] == HitOf(entries[j], unquote)
    decreases j
  {
    if j == 0 {
      assert entries[..j] == [];
      assert DdgHits(entries, unquote) == [HitOf(entries[0], unquote)] + DdgHits(entries[1..], unquote);
    } else {
      var tail := entries[1..];
      DdgHitsAt(tail, unquote, j - 1);
      assert tail[j - 1] == entries[j];
      DdgHitsShift(entries, unquote, j);
    }
  }

  /** A hit of the later results keeps its place behind the hit of the first result, if any. */
  lemma DdgHitsShift(entries: seq<DdgEntry>, unquote: string -> string, j: nat)
    requires 0 < j < |entries|
    requires Linked(entries[1..][..j - 1]) < |DdgHits(entries[1..], unquote)|
    ensures Linked(entries[..j]) < |DdgHits(entries, unquote)|
    ensures DdgHits(entries, unquote)[Linked(entries[..j])]
         == DdgHits(entries[1..], unquote)[Linked(entries[1..][..j - 1])]
  {
    var rest := DdgHits(entries[1..], unquote);
    var head := if entries[0].link.Some? then [HitOf(entries[0], unquote)] else [];
    assert DdgHits(entries, unquote) == head + rest;
    LinkedOfPrefix(entries, j);
    AppendedAt(head, rest, Linked(entries[1..][..j - 1]));
  }

  /** Behind a prefix, the element at `i` of the rest sits at `|head| + i`. */
  lemma AppendedAt<T>(head: seq<T>, rest: seq<T>, i: nat)
    requires i < |rest|
    ensures |head| + i < |head + rest| && (head + rest)[|head| + i] == rest[i]
  {
  }

  /** Counting the linked results of a prefix peels off its first result. */
  lemma LinkedOfPrefix(entries: seq<DdgEntry>, j: nat)
    requires 0 < j <= |entries|
    ensures Linked(entries[..j]) == (if entries[0].link.Some? then 1 else 0) + Linked(entries[1..][..j - 1])
  {
    var p := entries[..j];
    assert p[0] == entries[0];
    assert p[1..] == entries[1..][..j - 1];
  }

  function DuckDuckGoSearch(n: nat, query: Value, maxResults: Value, net: Network): (r: ToolOutput)
    ensures r.SearchResults? || r.SearchError?
    ensures r.SearchResults? ==>
      && r.viaDuckDuckGo && r.query == query
      && (maxResults.Num? && maxResults.n >= 0 ==> |r.results| <= maxResults.n)
    ensures r.SearchError? <==> net.duckduckgo(n, query).Failure? || !maxResults.Num?
    ensures r.SearchError? && net.duckduckgo(n, query).Failure? ==> r.error == net.duckduckgo(n, query).error
    ensures r.SearchResults? ==>
      var entries := net.duckduckgo(n, query).value;
      r.results == DdgHits(entries[..SliceStop(|entries|, maxResults.n)], net.unquote)
  {
    match net.duckduckgo(n, query)
    case Failure(msg) => SearchError(msg, query)
    case Success(entries) =>
      if !maxResults.Num? then SearchError(SliceTypeError, query)
      else SearchResults(query, DdgHits(entries[..SliceStop(|entries|, maxResults.n)], net.unquote), true)
  }

  /** The Brave backend; None when it raised, which sends the search to DuckDuckGo. */
  function BraveSearch(n: nat, query: Value, maxResults: Value, net: Network): (r: Option<ToolOutput>)
    ensures r.Some? ==>
      && r.value.SearchResults? && !r.value.viaDuckDuckGo && r.value.query == query
      && (maxResults.Num? && maxResults.n >= 0 ==> |r.value.results| <= maxResults.n)
    ensures r.None? <==> net.brave(n, query, maxResults).Failure? || !maxResults.Num?
    ensures r.Some? ==>
      var items := net.brave(n, query, maxResults).value;
      && |r.value.results| == SliceStop(|items|, maxResults.n)
      && forall j | 0 <= j < |r.value.results| ::
           r.value.results[j] == SearchHit(items[j].title.GetOr(""), items[j].url.GetOr(""), items[j].description.GetOr(""))
  {
    match net.brave(n, query, maxResults)
    case Failure(_) => None
    case Success(items) =>
      if !maxResults.Num? then None
      else
        var kept := items[..SliceStop(|items|, maxResults.n)];
        Some(SearchResults(query,
          seq(|kept|, j requires 0 <= j < |kept| =>
            SearchHit(kept[j].title.GetOr(""), kept[j].url.GetOr(""), kept[j].description.GetOr(""))),
          false))
  }

  /** Brave is used exactly when the configured key is non-blank after stripping. */
  predicate UsesBrave(net: Network) {
    Strip(net.braveKey) != ""
  }

  /** `web_search(query, max_results)`: Brave when a key is set, DuckDuckGo otherwise or when Brave fails. */
  function WebSearchTool(n: nat, query: Value, maxResults: Value, net: Network): (r: ToolOutput)
    ensures r.SearchResults? || r.SearchError?
    ensures r.SearchResults? && !r.viaDuckDuckGo ==> UsesBrave(net)
    ensures !UsesBrave(net) ==> r == DuckDuckGoSearch(n, query, maxResults, net)
    ensures UsesBrave(net) && BraveSearch(n, query, maxResults, net).None? ==> r == DuckDuckGoSearch(n, query, maxResults, net)
    ensures UsesBrave(net) && BraveSearch(n, query, maxResults, net).Some? ==>
      r == BraveSearch(n, query, maxResults, net).value && r.SearchResults? && !r.viaDuckDuckGo
  {
    if UsesBrave(net) then
      match BraveSearch(n, query, maxResults, net)
      case Some(o) => o
      case None => DuckDuckGoSearch(n, query, maxResults, net)
    else
      DuckDuckGoSearch(n, query, maxResults, net)
  }

  // ---------------------------------------------------------------------------
  // execute_tool
  // ---------------------------------------------------------------------------

  function RunCall(n: nat, c: ToolCall, net: Network): ToolOutput {
    match c
    case FetchRss(url, maxItems) => FetchRssTool(n, url, maxItems, net)
    case FetchArticle(url) => FetchArticleTool(n, url, net)
    case WebSearch(query, maxResults) => WebSearchTool(n, query, maxResults, net)
  }

  /**
    `execute_tool(name, input)` as the `n`-th tool call of a run. It raises only
    for a missing required argument; every other failure, an unknown name
    included, is returned as an object with an `error` key.
  */
  function ExecuteTool(n: nat, name: string, input: Record, net: Network): (r: Result<ToolOutput, string>)
    ensures r.Failure? <==> Schema(name).Some? && MissingRequired(Schema(name).value, input)
    ensures Schema(name).None? ==> r.Success? && r.value.UnknownToolError? && ErrorText(r.value) == "Unknown tool: " + name
    ensures r.Success? && name == "fetch_rss" ==> r.value.FeedItems? || r.value.FeedError?
    ensures r.Success? && name == "fetch_article" ==> r.value.Article? || r.value.ArticleError?
    ensures r.Success? && name == "web_search" ==> r.value.SearchResults? || r.value.SearchError?
    ensures r.Failure? ==> r.error !in input && r.error in Schema(name).value.required
    ensures r.Success? && Dispatch(name, input).value.Call? ==>
      r.value == RunCall(n, Dispatch(name, input).value.call, net)
  {
    match Dispatch(name, input)
    case Failure(key) => Failure(key)
    case Success(UnknownTool(m)) => Success(UnknownToolError(m))
    case Success(Call(c)) => Success(RunCall(n, c, net))
  }
}

=== FILE: values.dfy ===
/**
  The JSON values the agent reads out of dictionaries (tool arguments, idea
  objects) and how Python treats them: rendering inside an f-string,
  truthiness, and `dict.get` with a default.
*/
module Values {
  import opened Text

  /** A JSON scalar as it appears in an idea object or a tool argument. */
  datatype Value = Str(s: string) | Num(n: int)

  /** A JSON object: an idea, a tool's `input`, a feed item. */
  type Record = map<string, Value>

  /** `f"{v}"`: a string renders as itself, an integer in decimal. */
  function Render(v: Value): string {
    match v
    case Str(s) => s
    case Num(n) => IntToString(n)
  }

  /** Python truthiness: the empty string and zero are false. */
  predicate Truthy(v: Value) {
    match v
    case Str(s) => s != ""
    case Num(n) => n != 0
  }

  /** `d.get(key, default)`: keyed on presence, not on truthiness. */
  function Get(d: Record, key: string, default: Value): (v: Value)
    ensures key in d ==> v == d[key]
    ensures key !in d ==> v == default
  {
    if key in d then d[key] else default
  }

  /** A lookup that Python writes as `d.get(key)` and then tests for truth. */
  predicate HasTruthy(d: Record, key: string) {
    key in d && Truthy(d[key])
  }
}

=== FILE: wrappers.dfy ===
/** Failure-compatible Option and Result datatypes shared by every module. */
module Wrappers {

  datatype Option<+T> = None | Some(value: T) {

    /** Returns the value carried by Some, or `default` for None. */
    function GetOr(default: T): T {
      match this
      case Some(v) => v
      case None => default
    }
  }

  /** The outcome of an operation that may raise: Failure carries what was raised. */
  datatype Result<+R, +E> = Success(value: R) | Failure(error: E)
}
